=== FILE: README.md ===
# Mini-Mirth integration engine, modelled in Dafny

This project models the core of a small HL7 integration engine in the style of
Mirth Connect. The engine has a server and a browser client.

The server side:
- receives messages over HTTP and over an MLLP-framed TCP listener;
- classifies each payload as HL7, JSON, XML or TEXT;
- runs a channel's processing script on it;
- hands it to every enabled destination of the channel. Each destination runs
  its own script, may auto-convert between HL7 and JSON, and sends over REST or
  TCP.
- records everything as message rows, destination-log rows and per-destination
  sent and error counters.

Administrators create, edit, start, stop and delete channels. They can also send
a message to a channel's destinations by hand. A dummy TCP receiver answers
every frame with an ACK whose code depends on the text.

The client lists the message log and the channels, and edits them.

The model is functional:
- the database is an immutable record `Store.Db` of row sequences and id
  counters;
- each service operation is a pure function from a store, and a request, to a
  reply and a new store;
- everything foreign is a field of `Oracles.Env`. That covers the script
  sandbox, the HL7 parser and serialiser, `JSON.parse`, HTTP posts, TCP sends
  and the clock. Each field is a pure function that answers `Ok(value)` or
  `Err(message)`.

Files:
- `values.dfy`: JavaScript values, their truthiness, `Option` and `Result`.
- `text.dfy`: the string built-ins the code relies on: trim, upper-case,
  includes, split and join, and decimal rendering.
- `seqs.dfy`: filter and count.
- `store.dfy`: the tables and the row-level writes.
- `oracles.dfy`: the environment of foreign calls.
- One module per source file of the core:
  - `MessageProcessor`
  - `Hl7Listener`
  - `Hl7Converter`
  - `MessageService`
  - `DestinationService`
  - `ChannelService`
  - `DummyReceiver`
  - `MessageApi`
  - `MonitorView`
  - `LogStream`
  - `ChannelForm`
  - `ChannelTable`
  - `LogDetail`

The server and the client spell outcomes differently:
- the server writes SUCCESS and ERROR into its destination log and SENT into
  message rows;
- the client's monitor counts OUT-SENT and OUT-ERROR.

Both are modelled as each side spells them. The server's GET /message does
not send the destination log at all, nor any key the client reads besides
`id`, `direction` and `status`: it answers with snake_case columns
(`channel_id`, `channel_name`, `created_at`, ...). `MessageApi.ServerRow`
describes that response. `MonitorView.ServerRowTag` and
`LogStream.ServerRowsUnknownChannel` state what the pages make of it.
`MonitorView.ServerVocabularyFallsBack` states what the monitor would make of
a destination log in the server's vocabulary, were one sent.

## Model

| member | source | states |
|---|---|---|
| MessageProcessor.DetectFormat | server/src/services/messageProcessor.services.ts:10-24 | A payload is HL7, JSON, XML or TEXT, and the tests run in order: an object is JSON; a trimmed string is HL7 when it starts with `MSH` followed by a field bar and contains `PID` followed by a field bar; a string that is not HL7 is JSON when it starts with `{` or `[` and parses; otherwise it is XML when it is wrapped in angle brackets; anything else is TEXT |
| MessageProcessor.NoPidMarkerIsNotHl7 | server/src/services/messageProcessor.services.ts:14 | A text with no `PID` followed by a field bar anywhere is never classified as HL7, however it starts |
| MessageProcessor.DestinationScript | server/src/services/messageProcessor.services.ts:149-155 | A non-blank channel response script takes precedence over the destination's own script; the destination script is used only when the channel's is blank; no script at all means the payload is sent as it is |
| MessageProcessor.ChannelScriptShadowsDestinationScript | server/src/services/messageProcessor.services.ts:149-155 | Under a channel response script, changing a destination's processing script changes nothing about what happens at that destination |
| MessageProcessor.NoScriptSendsTransformed | server/src/services/messageProcessor.services.ts:149-188 | With neither script set, the destination receives the channel's transformed payload, auto-converted for its type; a JSON payload to a REST destination is posted unchanged with an 8000 ms timeout |
| MessageProcessor.AutoConvert | server/src/services/messageProcessor.services.ts:163-171 | An HL7 source going to a REST destination with text containing `MSH` followed by a field bar is converted to JSON; a JSON source going to an HL7 destination, unless the value is already text starting `MSH` followed by a field bar, is converted to HL7 text; every other combination passes the payload through unchanged |
| MessageProcessor.UnsupportedTypeCountsAsSent | server/src/services/messageProcessor.services.ts:174-193 | A destination whose type is neither REST nor HL7 is never contacted: unless its script throws, whatever the payload, it is logged SUCCESS with "Unsupported destination type", its sent counter grows by one, its error counter stays, and the message rows are untouched |
| MessageProcessor.Step | server/src/services/messageProcessor.services.ts:143-202 | One destination turn appends exactly one log row and raises exactly one of that destination's two counters: sent on success, error on a throw. A throw also marks the inbound row ERROR with the transformed payload; nothing else changes |
| MessageProcessor.LogRow | server/src/services/messageProcessor.services.ts:190-197 | A destination-log row for the inbound message is SUCCESS exactly when the send succeeded and ERROR exactly when it threw |
| MessageProcessor.DeliverLogs | server/src/services/messageProcessor.services.ts:143-202 | The destination loop appends one log row per enabled destination, in query order, whatever the earlier destinations did |
| MessageProcessor.DeliverCounters | server/src/services/messageProcessor.services.ts:190-201 | After the loop, every destination's sent counter has grown by its successes and its error counter by its failures |
| MessageProcessor.DeliverMessages | server/src/services/messageProcessor.services.ts:194-201 | During the loop, the inbound row is turned to ERROR exactly when some destination threw; every other message row is untouched |
| MessageProcessor.OksPlusErrs | server/src/services/messageProcessor.services.ts:190-201 | Every attempt is either a success or a failure, so the two counts together equal the number of attempts at that destination |
| MessageProcessor.ProcessInbound | server/src/services/messageProcessor.services.ts:78-223 | An unknown channel id is an error that leaves the store untouched. No run changes the channel table. A skipped run and a failed-script run write no log row and touch no counter |
| MessageProcessor.ProcessSkipsStoppedChannel | server/src/services/messageProcessor.services.ts:92-101 | A channel whose upper-cased status is not RUNNING gets exactly one new IN row, status SKIPPED, holding the original payload, and the store changes in no other way |
| MessageProcessor.StoppedChannelContactsNothing | server/src/services/messageProcessor.services.ts:92-101 | For a channel that is not running, the outcome does not depend on any script, transport, parser or clock |
| MessageProcessor.ProcessScriptFailure | server/src/services/messageProcessor.services.ts:104-124 | If the channel processing script throws, exactly one IN row is added, status ERROR, with the original payload as its transformed payload. The error is returned, and no log row or counter is written |
| MessageProcessor.ScriptFailureContactsNoDestination | server/src/services/messageProcessor.services.ts:114-124 | When the channel script throws, the outcome does not depend on the HTTP, TCP, HL7 or clock oracles: no destination is contacted |
| MessageProcessor.ProcessDeliversMessages | server/src/services/messageProcessor.services.ts:104-222 | A delivering run adds exactly two message rows: the IN row, which ends SENT even when destinations failed, and one OUT row holding the transformed payload. The result is SENT |
| MessageProcessor.ProcessDeliversLogs | server/src/services/messageProcessor.services.ts:131-202 | A delivering run appends one log row per enabled destination of the channel, in query order, and advances each destination's counters by its outcomes |
| MessageProcessor.ExactlyOneIncrement | server/src/services/messageProcessor.services.ts:143-202 | In a delivering run, each enabled destination of the channel gains exactly one count, sent or error, and every other destination gains none |
| Hl7Listener.ReceiveReassembles | server/src/services/hl7Listener.services.ts:42-51 | Chunks are only appended to one another: wherever a message's text is split, if the first part holds no end block, it leaves the buffer pending, and the second part completes exactly as the whole text would have in one chunk |
| Hl7Listener.UnframeFrame | server/src/services/hl7Listener.services.ts:47-50 | Unframing a framed body gives the trimmed body back |
| Hl7Listener.ChunkedFrame | server/src/services/hl7Listener.services.ts:42-51 | A frame split over two chunks is held back after the first chunk and delivered whole after the second |
| Hl7Listener.ControlId | server/src/services/hl7Listener.services.ts:108-110 | The control id is field 9 of the first segment, or "0000" when that field is missing or empty; it never contains a field or segment separator |
| Hl7Listener.AckEchoesControlId | server/src/services/hl7Listener.services.ts:107-112 | An ACK carries the sender's control id as its own MSH-10 |
| Hl7Listener.AckAccepts | server/src/services/hl7Listener.services.ts:107-112 | The second segment of an ACK reads exactly MSA, AA, the control id |
| Hl7Listener.NackEchoesControlId | server/src/services/hl7Listener.services.ts:114-119 | A NACK carries the sender's control id as its own MSH-10 |
| Hl7Listener.NackCarriesReason | server/src/services/hl7Listener.services.ts:114-119 | The second segment of a NACK reads exactly MSA, AE, the control id and the reason |
| Hl7Listener.ExceptionReplyLosesControlId | server/src/services/hl7Listener.services.ts:89-93 | The reply on the exception path is built from the buffer that was already emptied, so it always carries control id "0000" |
| Hl7Listener.Refresh | server/src/services/hl7Listener.services.ts:16-31 | A successful refresh replaces the cached roster with every channel's id and filter script, whatever the channel's status; a failed one keeps the previous roster |
| Hl7Listener.Route | server/src/services/hl7Listener.services.ts:62-76 | The message counts as routed exactly when some channel on the roster has a non-empty filter script that does not throw and returns a truthy value, and that channel still exists. The channel table is never changed, and when no channel accepts, the store is unchanged |
| Hl7Listener.RouteProcessesEveryAccepter | server/src/services/hl7Listener.services.ts:62-76 | Routing does not stop at the first accepting channel. The store it leaves is the one obtained by running the pipeline for every accepting channel, in roster order, each on the store the previous one left |
| Hl7Listener.TwoAcceptersBothProcessed | server/src/services/hl7Listener.services.ts:62-76 | With two accepting channels, both pipelines run: the second on the store the first one left |
| Hl7Listener.OnData | server/src/services/hl7Listener.services.ts:42-94 | An incomplete chunk only grows the buffer and writes nothing; a complete message empties the buffer and writes exactly one reply |
| Hl7Listener.OnDataReplies | server/src/services/hl7Listener.services.ts:79-87 | The one reply is framed and echoes the sender's control id. It is an ACK with code AA exactly when some channel accepted the message, and otherwise a NACK with code AE and reason "No matching channel" |
| Hl7Listener.RoutedPayloadIsJson | server/src/services/hl7Listener.services.ts:58-70 | What the listener hands to the pipeline is always the converted object, so the pipeline classifies it as JSON |
| Hl7Listener.UnacceptedLeavesStore | server/src/services/hl7Listener.services.ts:62-83 | When no filter accepts the message, nothing is written to the store |
| Hl7Converter.Summarise | server/src/utils/hl7Converer.ts:16-26 | The patient keys come from the last PID segment and the message type from field 7 of the last MSH segment; each is present exactly when such a segment exists |
| Hl7Converter.Hl7ToJson | server/src/utils/hl7Converer.ts:6-34 | A parse failure yields the "Invalid HL7" error object with the raw text. Otherwise the result lists every segment, in input order, under `_segments`, has no error key, and has patient keys only when a PID segment exists and a type only when an MSH segment exists |
| Hl7Converter.TakesLastPid | server/src/utils/hl7Converer.ts:17-22 | PID fields 2, 4, 6 and 7 of the last PID segment become patientId, name, dob and gender, with "" for a missing field |
| Hl7Converter.TakesLastMsh | server/src/utils/hl7Converer.ts:23-25 | MSH field 7 of the last MSH segment becomes hl7type |
| Hl7Converter.ConvertedProp | server/src/utils/hl7Converer.ts:10-28 | Apart from `_segments`, the converted object holds exactly the keys the extraction loop assigned |
| Hl7Converter.DraftOf | server/src/utils/hl7Converer.ts:39-46 | The HL7 message built from JSON has type hl7type, or "ADT^A01" when that is falsy, and PID fields "1", "", patientId, "", name, "", dob, gender in that order |
| Hl7Converter.JsonToHl7 | server/src/utils/hl7Converer.ts:39-52 | A null or undefined input, or a serialiser failure, yields ""; any non-empty result is what the serialiser produced for the built message |
| Hl7Converter.PidRoundTrip | server/src/utils/hl7Converer.ts:6-52 | Converting HL7 to JSON and building HL7 back keeps PID fields 2, 4, 6 and 7 of the last PID segment in place, and keeps the last MSH type unless it was empty |
| MessageService.RunningChannelReply | server/src/services/message.services.ts:34-71 | For a running channel the reply is 200. Its body is the response script's value; the "(response script failed)" envelope around the pipeline's result when that script throws; or the "Message processed successfully" envelope around it when there is no response script. The response script sees the processing script's value, or the request body when that script throws or is blank |
| MessageService.HandleInbound | server/src/services/message.services.ts:6-81 | An unknown channel yields 404 with its message and no write. The reply is 400 exactly when the channel exists but is not running, and then nothing is written |
| MessageService.GatedRequestsWriteNothing | server/src/services/message.services.ts:20-31 | A request for a missing or non-running channel is answered 404 or 400 and never reaches the pipeline |
| MessageService.RunningChannelReachesPipeline | server/src/services/message.services.ts:34-71 | For a running channel the pipeline receives the processed payload, the store is exactly what the pipeline leaves, and the reply is 200 |
| MessageService.HandlerScriptRunsBeforePipeline | server/src/services/message.services.ts:34-48 | The inbound row the pipeline writes holds the handler's processed payload, not the raw request body |
| MessageService.MessageStats | server/src/services/message.services.ts:125-147 | totalMessages counts all rows; received counts IN rows, sent counts OUT rows and errors counts ERROR rows. Each of the last three is NULL on an empty table, and received plus sent never exceeds the total |
| MessageService.DeliveringRunStats | server/src/services/message.services.ts:129-136 | A delivering pipeline run adds one received and one sent message and no error row, whatever happened at the destinations |
| MessageService.FailedScriptRunStats | server/src/services/message.services.ts:129-136 | A run whose channel script throws adds one received message and one error, and no sent message |
| DestinationService.Targets | server/src/services/destination.services.ts:19-24 | A manual send goes to the enabled destinations of the requested channel, in table order |
| DestinationService.ResultEntry | server/src/services/destination.services.ts:29-51 | Each result names its destination and reads SUCCESS or ERROR; it carries an error text exactly on failure |
| DestinationService.SendToDestinations | server/src/services/destination.services.ts:8-61 | The reply is 400 exactly when channelId or payload is falsy, and then nothing is written. It is 404 exactly when the channel has no enabled destination, again with no write |
| DestinationService.ManualSendEffects | server/src/services/destination.services.ts:26-58 | A manual send answers with one result per destination in query order. It appends one log row per destination, raises each destination's counters by its outcomes, and sets the message to SENT regardless of failures |
| DestinationService.ManualSendCountsOnce | server/src/services/destination.services.ts:29-51 | Each enabled destination of the channel gains exactly one count, sent or error; every other destination gains none |
| ChannelService.NewChannel | server/src/services/channel.services.ts:97-111 | A created channel starts Stopped, with inbound data type defaulting to HL7V2 and no filter script |
| ChannelService.NewDestination | server/src/services/channel.services.ts:120-136 | A created destination belongs to the new channel, is enabled, has zero counters, and has outbound type defaulting to HL7V2 |
| ChannelService.CreateChannel | server/src/services/channel.services.ts:97-142 | Create succeeds exactly when a source and a destination list are given. A missing source fails with 500 and no write. Messages and logs are never touched |
| ChannelService.Created | server/src/services/channel.services.ts:104-136 | A successful create appends the new channel and exactly one destination row per submitted destination, in order, after the existing rows |
| ChannelService.CreateOpensStopped | server/src/services/channel.services.ts:104-111 | After a create the store stays well-formed, the new channel can be found by its id, and it is not running |
| ChannelService.FindByName | server/src/services/channel.services.ts:182 | The upsert looks a submitted destination up by name and finds the first existing row of that name, if there is one |
| ChannelService.Refit | server/src/services/channel.services.ts:184-204 | Updating a matched destination writes the submitted type, endpoint and three scripts, and the submitted outbound type or HL7V2 when none is given. It keeps the id, channel, name, enabled flag and counters |
| ChannelService.Upsert | server/src/services/channel.services.ts:175-222 | The update loop deletes no destination. Existing rows keep their id, channel, name, enabled flag and counters, and one new row of the channel is added for each submitted name not already present |
| ChannelService.UpsertInserts | server/src/services/channel.services.ts:175-222 | The rows the loop inserts follow the existing ones. There is one per submission whose name the snapshot does not hold, in submission order, with consecutive ids, each belonging to the channel and carrying that submission's fields. No later submission overwrites them |
| ChannelService.UpsertOne | server/src/services/channel.services.ts:181-221 | A name found among the channel's destinations refits that row in place; any other name inserts a new row |
| ChannelService.UpsertRow | server/src/services/channel.services.ts:181-204 | After the update loop, each existing row carries, in submission order, every submitted destination that the name lookup resolved to its id; all other rows are untouched |
| ChannelService.RefitsLastWins | server/src/services/channel.services.ts:184-204 | When several submissions resolve to one row, the last one's fields are what remain |
| ChannelService.UpsertRefitsMatch | server/src/services/channel.services.ts:181-204 | A row matched by name ends up carrying the fields of the last submitted destination of that name |
| ChannelService.UpsertSparesOtherChannels | server/src/services/channel.services.ts:175-222 | An update never alters another channel's destinations |
| ChannelService.UpsertFresh | server/src/services/channel.services.ts:205-221 | Inserted rows take fresh ids, so destination ids stay distinct |
| ChannelService.UpdateChannel | server/src/services/channel.services.ts:147-228 | Update succeeds exactly when a source and a destination list are given. Whenever a source is given, the channel row with that id takes the submitted name, source type and endpoint, the inbound type (HL7V2 by default) and the two scripts, and keeps its status and filter script. Other channels, messages and logs are never touched |
| ChannelService.Updated | server/src/services/channel.services.ts:154-221 | After a successful update, the channel row with that id is rewritten from the request and the others are unchanged. Exactly as many destination rows are added as there were unmatched submitted names, and every existing row keeps its identity and counters |
| ChannelService.UpdateInserts | server/src/services/channel.services.ts:169-221 | On a well-formed store, the destination rows a successful update appends are exactly the inserts for the submitted destinations whose names the channel did not have, in submission order, with the submitted fields |
| ChannelService.UpdateKeepsWf | server/src/services/channel.services.ts:147-228 | An update keeps the store well-formed |
| ChannelService.UpdateSparesOtherChannels | server/src/services/channel.services.ts:175-222 | An update leaves other channels' destination rows exactly as they were |
| ChannelService.RequestedStatus | server/src/services/channel.services.ts:271-273 | The requested status is upper-cased text; a falsy value reads as "" |
| ChannelService.UpdateStatus | server/src/services/channel.services.ts:265-285 | The update succeeds exactly when the upper-cased status is RUNNING, STOPPED or ERROR, and then it sets that status on the channel with that id only. Any other status yields 400 with no change |
| ChannelService.StatusGatesPipeline | server/src/services/channel.services.ts:271-279 | After a valid status update the channel runs exactly when the requested status upper-cases to RUNNING |
| ChannelService.StatusIdempotent | server/src/services/channel.services.ts:265-285 | Repeating the same status update changes nothing further and gives the same reply |
| ChannelService.OwnedDestinationIds | server/src/services/channel.services.ts:242-252 | The ids collected for the cascade are exactly those of the channel's destinations |
| ChannelService.DeleteChannel | server/src/services/channel.services.ts:233-260 | After a delete, no channel, destination or message row of that channel remains, and no log row of its destinations remains |
| ChannelService.DeleteSparesOthers | server/src/services/channel.services.ts:242-252 | A delete leaves every other channel, its enabled destinations, its messages and its destinations' log rows exactly as they were |
| ChannelService.DestinationViewOf | server/src/services/channel.services.ts:56-69 | A listed destination shows its own id, channel, name, enabled flag and counters as sent and errors |
| ChannelService.ChannelViewOf | server/src/services/channel.services.ts:7-92 | A listed channel counts IN or INBOUND rows as received, OUT or OUTBOUND rows as sent, and rows whose upper-cased status is ERROR as errors, and lists its destinations |
| ChannelService.ListedAt | server/src/services/channel.services.ts:31 | Channels are listed newest first. With creation times growing strictly from one create to the next, the channel at position j of the table is shown at position n-1-j |
| ChannelService.CreatedChannelListedFirst | server/src/services/channel.services.ts:31 | With creation times growing strictly, a channel just created is listed first, Stopped, with all its submitted destinations |
| ChannelService.ListingCountsDeliveringRun | server/src/services/channel.services.ts:23-25 | A delivering pipeline run raises the listed received and sent counts of its own channel by one each, changes no error count, and changes no other channel's counts |
| DummyReceiver.Clean | server/dummy-hl7-receiver.js:34-38 | Cleaning leaves no start block, end block or carriage return in the text |
| DummyReceiver.CleanFrame | server/dummy-hl7-receiver.js:34-38 | A framed body cleans to the body with each CR turned into LF, then trimmed |
| DummyReceiver.DropEndBlocks | server/dummy-hl7-receiver.js:35 | No end block survives, no character is added, and text without an end block comes back unchanged |
| DummyReceiver.DropEndBlocksAt | server/dummy-hl7-receiver.js:35 | At the first end block, the text before it is kept, the end block goes together with one CR right after it, and the rest is cleaned the same way. With the previous row this fixes the result: no other character is removed |
| DummyReceiver.AckCodePrecedence | server/dummy-hl7-receiver.js:54-57 | The code is AE exactly when the text contains ERROR, AR exactly when it contains REJECT but not ERROR, and AA otherwise |
| DummyReceiver.ReplyCarriesCode | server/dummy-hl7-receiver.js:60-65 | The reply's MSA segment reads the chosen code, the control id, and the text matching the code |
| DummyReceiver.OnChunk | server/dummy-hl7-receiver.js:24-69 | Each chunk appends exactly one log entry and writes exactly one framed reply for the logged message |
| DummyReceiver.LoggedCodeIsReplied | server/dummy-hl7-receiver.js:46-65 | The ACK code logged for a chunk is the one written back in the reply's MSA segment |
| MessageApi.ToEntry | client/src/services/message.api.ts:7-18 | Each row keeps its identity, direction, channel, time and payloads, each of them possibly absent. The status is upper-cased, and an absent one stays absent. The level is the server's when non-empty and INFO otherwise. The message is exactly the direction, " - ", then the status as the server spelled it, each shown as "undefined" when absent. Destination logs default to [] |
| MessageApi.ServerRowReadsBlank | client/src/services/message.api.ts:7-18 | A row shaped like the server's GET /message response yields an entry with no channel, time or payloads, the INFO level and no destination attempts. Only its identity, direction and status come through |
| MessageApi.NormalStatusIdempotent | client/src/services/message.api.ts:13 | Normalising a status twice is the same as normalising it once |
| MessageApi.MessageKeepsOriginalCase | client/src/services/message.api.ts:13-15 | For every present status the status field is its upper-case form, while the message text ends with the server's own spelling, so "sent" shows as SENT beside a message ending in "sent" |
| MessageApi.FetchLogsAt | client/src/services/message.api.ts:4-20 | The log list has one entry per row, in the same order |
| MessageApi.FetchLogsAppend | client/src/services/message.api.ts:4-20 | Mapping rows distributes over concatenation, so each row maps on its own |
| MonitorView.ChannelFilter | client/src/page/MonitorView.tsx:65 | The picker's "ALL" asks for every channel; any other selection asks for the number `parseInt` reads from it, and for no channel (NaN) exactly when it reads none |
| MonitorView.ChannelFilterRoundTrip | client/src/page/MonitorView.tsx:65 | Picking an option, whose value is a channel id in decimal, asks for exactly that channel |
| MonitorView.ParseIntStopsAtNonDigit | client/src/page/MonitorView.tsx:65 | `parseInt` reads a digit run only up to the first character that is not a digit |
| MonitorView.ParseIntMinus | client/src/page/MonitorView.tsx:65 | A leading minus sign before a digit negates the number read after it |
| MonitorView.ParseIntSkipsWhite | client/src/page/MonitorView.tsx:65 | Leading white space does not change what `parseInt` reads |
| MonitorView.ParseIntNeedsDigit | client/src/page/MonitorView.tsx:65 | A selection without any digit reads as NaN |
| MonitorView.ClassifyExact | client/src/page/MonitorView.tsx:20-52 | INBOUND ERROR whenever the inbound status is IN-ERROR. Otherwise: RECEIVED with no attempts; SUCCESS when every attempt is OUT-SENT; PARTIAL when at least one is OUT-SENT and one OUT-ERROR; FAILED when every attempt is OUT-ERROR; the inbound status itself in every other case |
| MonitorView.ServerVocabularyFallsBack | client/src/page/MonitorView.tsx:24-49 | A destination log written in the server's SUCCESS and ERROR vocabulary is never counted, so the tag shows the inbound status text |
| MonitorView.ServerRowTag | client/src/page/MonitorView.tsx:24-49 | For a row shaped like the server's response, the tag is INBOUND ERROR exactly when the inbound status is IN-ERROR, and RECEIVED exactly otherwise |
| MonitorView.InfoAgreesWithTag | client/src/page/MonitorView.tsx:139-149 | The Info text is "Inbound only" exactly for RECEIVED, "n/n OK" exactly for SUCCESS, "n/n FAILED" exactly for FAILED, and "ok OK / fail FAIL" for everything else |
| MonitorView.InfoEnding | client/src/page/MonitorView.tsx:139-149 | The four Info forms are told apart by their last character, each exactly under its own condition |
| MonitorView.InboundLogsExact | client/src/page/MonitorView.tsx:79 | Every IN entry is listed, and exactly as many entries are listed as there are IN rows in the response |
| LogStream.ServerRowsUnknownChannel | client/src/page/LogStream.tsx:36-37 | Every row shaped like the server's response is grouped under "Unknown Channel" |
| LogStream.GroupedPartitions | client/src/page/LogStream.tsx:36-40 | Grouping puts every log in exactly one group, keyed by channel name or "Unknown Channel". Group names are distinct, and each group holds exactly the logs of its name in their original order |
| LogStream.GroupedSize | client/src/page/LogStream.tsx:36-40 | The group sizes sum to the number of logs |
| LogStream.GroupsNonEmpty | client/src/page/LogStream.tsx:36-40 | No group is empty |
| LogStream.OpenNew | client/src/page/LogStream.tsx:24-33 | Names already known keep their open state, every name in the logs gets an entry, and every new entry starts open |
| LogStream.OpenNewOnlyNames | client/src/page/LogStream.tsx:24-33 | A new entry is only ever made for a name that occurs in the logs |
| LogStream.Toggle | client/src/page/LogStream.tsx:42-44 | Toggling flips exactly the named group and leaves every other entry as it was |
| LogStream.GroupsStartOpen | client/src/page/LogStream.tsx:24-44 | Every group starts open, one toggle closes it, and a second toggle opens it again |
| LogStream.ServerStatusColors | client/src/page/LogStream.tsx:68-76 | Examples: IN-PROCESS is yellow, PROCESSED blue, SENT green and ERROR red; SKIPPED falls back to the slate colour of unknown statuses |
| LogStream.BadgeColorExact | client/src/page/LogStream.tsx:68-76 | For every status, the badge is neutral exactly when the status is none of the six the badge names; yellow exactly for IN-PROCESS or RECEIVED, green exactly for SENT or OUT-SENT |
| LogStream.Render | client/src/page/LogStream.tsx:125-137 | Loading wins over everything, then a non-empty error, then an empty log list; otherwise the groups shown partition the logs |
| ChannelForm.Init | client/src/page/ChannelForm.tsx:39-64 | Opening for create resets to one default destination. Opening for edit copies the channel's name, source endpoint and both scripts, with "" for missing ones. It maps each destination, or uses one default destination if there are none. A closed dialog keeps its state |
| ChannelForm.Add | client/src/page/ChannelForm.tsx:66 | Adding appends one default destination and keeps the existing rows |
| ChannelForm.Remove | client/src/page/ChannelForm.tsx:67 | Removing an index on screen drops exactly one row; any other index changes nothing |
| ChannelForm.RemoveInverse | client/src/page/ChannelForm.tsx:67 | Putting the removed row back where it was restores the list, so removal drops exactly that row and keeps the order of the rest |
| ChannelForm.Change | client/src/page/ChannelForm.tsx:69-75 | A change sets one field of one row and leaves every other field and every other row as it was |
| ChannelForm.ChangeUndo | client/src/page/ChannelForm.tsx:69-75 | Changing a field back to its old value restores the list |
| ChannelForm.SaveScript | client/src/page/ChannelForm.tsx:77-82 | A script is saved only while a row is being edited; that row gets the script and editing ends |
| ChannelForm.NeverEmpty | client/src/page/ChannelForm.tsx:131 | Because removal is offered only when there is more than one row, no sequence of clicks after opening empties the destination list |
| ChannelForm.Submit | client/src/page/ChannelForm.tsx:84-94 | The submission carries the form's fields with source type always HTTP |
| ChannelForm.EditRoundTrip | client/src/page/ChannelForm.tsx:42-94 | Opening a channel for edit and submitting untouched hands back its name, source endpoint, both scripts and, for each destination, its name, type, endpoint and script, with defaults filled in. The source type is always HTTP |
| ChannelTable.IndicatorFor | client/src/page/ChannelTable.tsx:13-51 | The indicator reads Running exactly for a trimmed, upper-cased RUNNING, Error exactly for ERROR, and Stopped for everything else, unknown statuses included |
| ChannelTable.IndicatorNormalises | client/src/page/ChannelTable.tsx:17 | The indicator ignores letter case |
| ChannelTable.UpperTrim | client/src/page/ChannelTable.tsx:17 | Trimming and upper-casing commute |
| ChannelTable.Requested | client/src/page/ChannelTable.tsx:148-156 | The button asks for RUNNING exactly when the status upper-cases to STOPPED or ERROR, and for STOPPED otherwise |
| ChannelTable.LeadingBlankDisagrees | client/src/page/ChannelTable.tsx:17-156 | The indicator trims and the button test does not, so a STOPPED status with a leading blank shows Stopped yet offers Stop |
| ChannelTable.UnknownDisagrees | client/src/page/ChannelTable.tsx:17-156 | Any status already in normal form that is not RUNNING, STOPPED or ERROR, such as PAUSED, shows as Stopped yet offers Stop |
| ChannelTable.ButtonReachesServer | client/src/page/ChannelTable.tsx:112-156 | Whatever the channel's status, the server accepts what the button asks for, and afterwards the channel runs exactly when Start was offered |
| ChannelTable.Totals | client/src/page/ChannelTable.tsx:141-144 | The Sent and Errors cells sum the destinations' counters, and a missing list shows 0 |
| ChannelTable.SumsAppend | client/src/page/ChannelTable.tsx:141-144 | The sums split over concatenation, so each destination adds its own counters exactly once |
| ChannelTable.MissingCountersAddNothing | client/src/page/ChannelTable.tsx:141-144 | Destinations without counters add nothing to either total |
| ChannelTable.ScriptRowFollowsClicks | client/src/page/ChannelTable.tsx:79-98 | A destination without a script never shows a script row; with one, the row is shown after an odd number of clicks |
| LogDetail.StatusBadge | client/src/page/LogDetailModal.tsx:13-32 | The badge shows the upper-cased status and takes its colour from the table under that key |
| LogDetail.BadgeStyleExact | client/src/page/LogDetailModal.tsx:16-31 | Each colour of the table goes to exactly the keys listed under it: green for OUT-SENT and SUCCESS, red for OUT-ERROR, FAILED and IN-ERROR, yellow for PARTIAL, blue for RECEIVED and IN-PROCESSED. Every other key takes the UNKNOWN colour |
| LogDetail.BadgeCaseInsensitive | client/src/page/LogDetailModal.tsx:13-32 | The badge ignores letter case |
| LogDetail.DestinationFallbacks | client/src/page/LogDetailModal.tsx:174 | A destination without a status is badged OUT-UNKNOWN in the unknown colour, and so is the server's ERROR, while SUCCESS is green |
| LogDetail.ToggleDest | client/src/page/LogDetailModal.tsx:41-57 | Toggling flips the open flag of one entry, reading an untouched entry as open, and leaves its other settings and every other entry as they were |
| LogDetail.ClicksAlternate | client/src/page/LogDetailModal.tsx:41-57 | An entry is open after an even number of clicks, and the other entries stay untouched |
| LogDetail.ToggleTwice | client/src/page/LogDetailModal.tsx:41-57 | Two toggles of the same entry restore every entry's view |
| LogDetail.SectionShownExact | client/src/page/LogDetailModal.tsx:153-164 | The destination section appears exactly when the server sent a non-empty list, and every entry starts expanded |

## Left out

- Input and output are not modelled: SQL text, the connection pool, sockets, HTTP, `console` logging and `socket.end`. Each table is a sequence of rows, and each foreign call is an oracle answer.
- Script execution (vm2) is an oracle keyed by the code and the bindings. The 2000 ms and 3000 ms timeouts are recorded in the sandbox value, but a timeout is just one more `Err`.
- The `simple-hl7` parser and serialiser, `JSON.parse`, `Date` and `toISOString` are oracle parameters or inputs. Their internal behaviour is not part of this model.
- Concurrency is not modelled: the 60-second roster refresh timer, interleaved socket handlers, and the client's polling and auto-refresh. Each event is one atomic step.
- JavaScript numbers are unbounded integers, and ids are per-table counters that always grow.
- A nullable text column is modelled as a string, with "" standing for NULL. The source does not always treat NULL as blank:
  - MessageService.HandleInbound: a NULL channel status reads "null" in the 400 text, where the model shows "".
  - MessageProcessor.ProcessInbound: for a channel that is not running, the returned `status` is null for a NULL status, where the model returns "".
  - ChannelService.FindByName: a destination stored with a NULL name never equals a submitted name, not even an omitted one. The source then inserts a new row where the model refits the old one.
- Upper-casing is ASCII only. Non-ASCII letters keep their case.
- Destination queries without ORDER BY return rows in table order.
- `getMessages` and `getDestinationLog` only list rows; their SQL filters are not modelled.
- `resendMessage` is routed but has no implementation to model.
- The order of keys produced by object iteration is not modelled; objects are maps.
- The listener's exception path is unreachable here. Per-channel errors are caught inside the routing loop, and the model has no other source of exceptions. `Hl7Listener.ExceptionReplyLosesControlId` states what that path would answer.
- 500 replies from a failed query or write are modelled only where the model itself produces the failure: a missing source in create and update, and a non-string status.
- The listener port, and the dummy receiver's port and its `rawData` accumulator, are not modelled. The accumulator is recorded but never read when parsing.
- Client formatting is left out: `toLocaleString`, `formatJSON`, `safeDate`, the log-level colours, and the manual-send dialog's `handleSend`.
- ChannelForm.Change: requires an index of a row on screen, because the handler is only ever wired to rendered rows.
- MonitorView.ParseInt: `parseInt("-0")` is negative zero in JavaScript and 0 here, and a digit run beyond 2^53 loses precision in JavaScript but not here.
- ChannelForm.SaveScript: requires the index being edited to be a row on screen, for the same reason as ChannelForm.Change.
- MessageProcessor.NoScriptSendsTransformed: scripts are taken not to mutate `msg`. vm2 hands a script the `transformed` object itself, so a destination script that mutates it changes what later destinations, their auto-conversion, the ERROR update and the OUT row see. Here every consumer gets the value as the channel script returned it, because the script oracle returns a value and no altered argument.
- MessageProcessor.Step: the ERROR update writes the transformed payload as it was before the destination loop. In the source it is the object as earlier destination scripts left it, for the reason given under MessageProcessor.NoScriptSendsTransformed.
- MessageProcessor.ProcessScriptFailure: the ERROR row holds the payload as received. In the source a channel script that mutates `msg` and then throws leaves the mutated object in that row, for the same reason.
- MessageProcessor.ProcessDeliversMessages: the OUT row holds the payload as the channel script returned it. In the source destination scripts that mutate `msg` change it, for the same reason.
- Hl7Listener.Route: every channel's filter and pipeline receive the same converted value. In the source they share one object, so a script of an earlier channel that mutates it changes what later channels see; scripts are taken not to mutate it.
- MessageService.HandleInbound: the route parameter is taken as a number. The source receives it as text: "abc" makes the channel lookup fail with a 500, and "07" finds channel 7 while the 404 and 400 texts echo "07" as typed.
- DestinationService.ChannelKey: a `channelId` that is not a JSON number matches no channel, so the request is answered 404. SQL Server converts a numeric string such as "3", and `true` as 1, and matches that channel; a non-numeric string makes the query fail with a 500. The conversion rules of the database are not part of this model.
- DestinationService.Targets: yields no destinations for a non-numeric `channelId`, for the reason given under DestinationService.ChannelKey.
- DestinationService.SendToDestinations: answers 404 for a string `channelId` that the database would convert and match, for the reason given under DestinationService.ChannelKey.
- ChannelService.NewDestination: a new destination row is taken to start enabled with zero counters. The INSERTs do not write `is_enabled`, `total_sent` or `total_error`, so this rests on column defaults that the schema would define and that no source file shows. With NULL defaults the channel listing would still show it enabled with zero counters, through ISNULL, but delivery, which selects `is_enabled = 1`, would never pick it, and `total_sent + 1` would stay NULL.
- MessageProcessor.LogRow: the script oracle reports a throw as one message string. The source renders the thrown value three ways: the ERROR log row holds `String(err.message)`, which is "undefined" when a plain string is thrown.
- MessageProcessor.ProcessInbound: the ScriptFailed error is the oracle's message. The source returns `err.message || String(err)`: "x" for `throw "x"`, and "Error" for `new Error("")`.
- DestinationService.ResultEntry: every failed entry carries an `error` key. The source sets `error: err.message`, which JSON drops when a non-Error value is thrown, so that entry has no `error` key.
- ChannelService.UpdateChannel: the route parameter is taken as a number. The source receives it as text, and "abc" makes the SQL query fail with a 500. The 500 bodies omit the source's `error: err?.message`, whose text comes from the driver or the runtime.
- ChannelService.UpdateStatus: the id is a number, so the success text shows it in decimal. The source echoes the route text as typed ("Channel 07 status updated to RUNNING"), and a non-numeric id fails in SQL with a 500.
- ChannelService.DeleteChannel: the id is a number and the delete always commits. The source's 500 for a failed transaction, with `error: String(err)`, is not modelled, because the database's failures are not part of the store.
- ChannelService.ChannelViewOf: destinations are listed in table order. The source sorts them `ORDER BY id ASC`, and the two agree because every insert appends a row with the next, larger identity value.
- ChannelService.ListedAt: the store keeps no creation time, and creation times are taken to grow strictly from one create to the next. The source orders by `created_at`, which is `GETDATE()` with a resolution of about 3 ms. Two creates in the same tick tie, and SQL leaves tied rows in no particular order. A clock set back makes a later channel look older.
- ChannelService.CreatedChannelListedFirst: rests on the same strictly growing creation times as ChannelService.ListedAt. On a tie or after a clock set-back, the new channel need not come first.
- ChannelService.CreateChannel: the 500 body for a missing source leaves out the source's `error: err?.message`, whose text comes from the runtime.
- Hl7Listener.ReceiveReassembles: holds for text split at character boundaries. The source decodes each chunk with `chunk.toString("utf8")`, so a multi-byte character split across two TCP chunks becomes U+FFFD replacement characters.
- MessageApi.ToEntry: any row shape is accepted, since every key is optional. The server's actual response shape is described by `MessageApi.ServerRow`. Under that shape the client's `channelId` is undefined, so the log stream's Send button would post no channel id. That dialog is not modelled.
- MonitorView: the page imports `fetchLogs` from the `api` module, which exports only the base URL and the HTTP client. The model takes the monitor to use `MessageApi.FetchLogs`.
- MessageProcessor.Send: the TCP oracle answers only success or failure. In the source `client.write` runs in the connect callback, outside the promise, so a payload that is not a string (an object returned by a destination script for an HL7 destination) throws there and escapes the per-destination catch. There is also no timeout, so a connection that neither connects nor fails stalls the loop.
- The `last_sent = GETDATE()` and `updated_at = GETDATE()` writes are not modelled: the store keeps no timestamps.
- SQL comparisons such as `direction = 'IN'` and `status = 'ERROR'` are exact here. Under a case-insensitive collation the database also matches other letter cases.
- The dummy receiver decodes each chunk on its own. A multi-byte UTF-8 character split across two chunks is not modelled, because text is a sequence of characters.
- LogStream grouping uses maps without inherited keys. In JavaScript a channel named after an inherited object property, such as "constructor", would make `acc[name] || []` misbehave.

=== FILE: channel_form.dfy ===
/** The channel editor (client/src/page/ChannelForm.tsx): the form state is
    reset or filled in when the dialog opens, the destination list is edited
    by add, remove and per-field change, a destination's script is saved from
    the script editor, and submitting hands the form's contents on with an
    HTTP source.
 */
module ChannelForm {
  import opened Values

  /** One destination row of the form. */
  datatype DestinationForm = DestinationForm(name: string, kind: string, endpoint: string, processingScript: string)

  /** `DEFAULT_DESTINATION`: an empty HL7 destination. */
  const Default: DestinationForm := DestinationForm("", "HL7", "", "")

  /** The form's fields. */
  datatype Form = Form(
    name: string,
    sourceEndpoint: string,
    destinations: seq<DestinationForm>,
    processingScript: string,
    responseScript: string)

  /** The state of a form opened to create a channel. */
  const Blank: Form := Form("", "", [Default], "", "")

  /** A destination of the channel being edited; absent fields are `None`. */
  datatype ExistingDestination = ExistingDestination(
    name: Option<string>, kind: Option<string>, endpoint: Option<string>, processingScript: Option<string>)

  /** The channel being edited, as far as the form reads it. */
  datatype ExistingChannel = ExistingChannel(
    name: Option<string>,
    sourceEndpoint: Option<string>,
    destinations: Option<seq<ExistingDestination>>,
    processingScript: Option<string>,
    responseScript: Option<string>)

  /** `v || d` for an optional string. */
  function Or(v: Option<string>, d: string): (r: string)
    ensures v.Some? && v.value != "" ==> r == v.value
    ensures v.None? || v.value == "" ==> r == d
  {
    OrText(if v.Some? then v.value else "", d)
  }

  /** How an existing destination fills a row. */
  function FromExisting(d: ExistingDestination): (f: DestinationForm)
    ensures f.kind != ""
    ensures f.name == Or(d.name, "") && f.endpoint == Or(d.endpoint, "")
    ensures f.kind == Or(d.kind, "HL7") && f.processingScript == Or(d.processingScript, "")
  {
    DestinationForm(Or(d.name, ""), Or(d.kind, "HL7"), Or(d.endpoint, ""), Or(d.processingScript, ""))
  }

  /** The effect run when the dialog opens or its channel changes. */
  function Init(isOpen: bool, initial: Option<ExistingChannel>, form: Form): (r: Form)
    ensures !isOpen ==> r == form
    ensures isOpen ==> r.destinations != []
    ensures isOpen && initial.None? ==> r == Blank
    ensures isOpen && initial.Some? ==> r.name == Or(initial.value.name, "")
    ensures isOpen && initial.Some? ==> r.sourceEndpoint == Or(initial.value.sourceEndpoint, "")
    ensures isOpen && initial.Some? ==> r.processingScript == Or(initial.value.processingScript, "")
    ensures isOpen && initial.Some? ==> r.responseScript == Or(initial.value.responseScript, "")
    ensures isOpen && initial.Some? && (initial.value.destinations.None? || initial.value.destinations.value == []) ==>
      r.destinations == [Default]
    ensures isOpen && initial.Some? && initial.value.destinations.Some? && initial.value.destinations.value != [] ==>
      var ds := initial.value.destinations.value;
      |r.destinations| == |ds| && forall k :: 0 <= k < |ds| ==> r.destinations[k] == FromExisting(ds[k])
  {
    if !isOpen then form
    else match initial
      case None => Blank
      case Some(c) =>
        var ds := if c.destinations.Some? && c.destinations.value != [] then
          var src := c.destinations.value;
          seq(|src|, k requires 0 <= k < |src| => FromExisting(src[k]))
        else [Default];
        Form(Or(c.name, ""), Or(c.sourceEndpoint, ""), ds, Or(c.processingScript, ""), Or(c.responseScript, ""))
  }

  /** `handleAddDestination` */
  function Add(ds: seq<DestinationForm>): (r: seq<DestinationForm>)
    ensures |r| == |ds| + 1 && r[..|ds|] == ds && r[|ds|] == Default
  {
    ds + [Default]
  }

  /** `handleRemoveDestination`: keeps every row whose index differs. */
  function Remove(ds: seq<DestinationForm>, index: int): (r: seq<DestinationForm>)
    ensures 0 <= index < |ds| ==> |r| == |ds| - 1
    ensures !(0 <= index < |ds|) ==> r == ds
  {
    if 0 <= index < |ds| then ds[..index] + ds[index + 1..] else ds
  }

  /** Removal drops exactly the row at the index: putting it back where it
      was restores the list. */
  lemma RemoveInverse(ds: seq<DestinationForm>, index: int)
    requires 0 <= index < |ds|
    ensures var r := Remove(ds, index); r[..index] + [ds[index]] + r[index..] == ds
  {
    var r := Remove(ds, index);
    assert r[..index] == ds[..index];
    assert r[index..] == ds[index + 1..];
  }

  /** The editable fields of a row. */
  datatype Field = Name | Kind | Endpoint | Script

  function Get(d: DestinationForm, f: Field): string {
    match f
    case Name => d.name
    case Kind => d.kind
    case Endpoint => d.endpoint
    case Script => d.processingScript
  }

  /** `handleDestinationChange`, which is only ever given the index of a
      row on screen. */
  function Change(ds: seq<DestinationForm>, index: int, f: Field, value: string): (r: seq<DestinationForm>)
    requires 0 <= index < |ds|
    ensures |r| == |ds|
    ensures forall k :: 0 <= k < |ds| && k != index ==> r[k] == ds[k]
    ensures Get(r[index], f) == value
    ensures forall g :: g != f ==> Get(r[index], g) == Get(ds[index], g)
  {
    var d := ds[index];
    var d' := match f
      case Name => d.(name := value)
      case Kind => d.(kind := value)
      case Endpoint => d.(endpoint := value)
      case Script => d.(processingScript := value);
    ds[index := d']
  }

  /** Changing a field back to its old value restores the list. */
  lemma ChangeUndo(ds: seq<DestinationForm>, index: int, f: Field, value: string)
    requires 0 <= index < |ds|
    ensures Change(Change(ds, index, f, value), index, f, Get(ds[index], f)) == ds
  {
    var r := Change(Change(ds, index, f, value), index, f, Get(ds[index], f));
    assert forall g :: Get(r[index], g) == Get(ds[index], g);
    assert Get(r[index], Name) == Get(ds[index], Name) && Get(r[index], Kind) == Get(ds[index], Kind);
    assert Get(r[index], Endpoint) == Get(ds[index], Endpoint) && Get(r[index], Script) == Get(ds[index], Script);
    assert r[index] == ds[index];
  }

  /** `handleDestinationScriptSave`: only while a row's script is being
      edited, and then that row gets the script and editing ends. */
  function SaveScript(ds: seq<DestinationForm>, editing: Option<int>, script: string): (r: (seq<DestinationForm>, Option<int>))
    requires editing.Some? ==> 0 <= editing.value < |ds|
    ensures editing.None? ==> r == (ds, None)
    ensures editing.Some? ==> r.1 == None && r.0 == Change(ds, editing.value, Script, script)
    ensures editing.Some? ==> r.0[editing.value].processingScript == script
  {
    match editing
    case None => (ds, None)
    case Some(i) =>
      assert Get(Change(ds, i, Script, script)[i], Script) == script;
      (Change(ds, i, Script, script), None)
  }

  /** The remove button is rendered only when there is more than one row. */
  predicate RemoveOffered(ds: seq<DestinationForm>) {
    |ds| > 1
  }

  /** What the user can do to the destination list. */
  datatype Action = AddRow | RemoveRow(index: int) | ChangeRow(index: int, f: Field, value: string)

  /** One action as the UI lets it happen: a remove or change click comes
      from a row on screen, and a remove only when the button is there. */
  function Step(ds: seq<DestinationForm>, a: Action): (r: seq<DestinationForm>)
    ensures |r| >= |ds| - 1
  {
    match a
    case AddRow => Add(ds)
    case RemoveRow(i) => if RemoveOffered(ds) && 0 <= i < |ds| then Remove(ds, i) else ds
    case ChangeRow(i, f, v) => if 0 <= i < |ds| then Change(ds, i, f, v) else ds
  }

  function Steps(ds: seq<DestinationForm>, actions: seq<Action>): seq<DestinationForm>
    decreases |actions|
  {
    if actions == [] then ds else Steps(Step(ds, actions[0]), actions[1..])
  }

  /** Once the dialog has opened, no sequence of clicks empties the
      destination list. */
  lemma {:induction false} NeverEmpty(initial: Option<ExistingChannel>, form: Form, actions: seq<Action>)
    ensures Steps(Init(true, initial, form).destinations, actions) != []
  {
    StepsKeepRows(Init(true, initial, form).destinations, actions);
  }

  lemma {:induction false} StepsKeepRows(ds: seq<DestinationForm>, actions: seq<Action>)
    requires ds != []
    ensures Steps(ds, actions) != []
    decreases |actions|
  {
    if actions != [] {
      StepsKeepRows(Step(ds, actions[0]), actions[1..]);
    }
  }

  /** The object handed to `onSubmit`. */
  datatype Submission = Submission(
    name: string,
    sourceType: string,
    sourceEndpoint: string,
    destinations: seq<DestinationForm>,
    processingScript: string,
    responseScript: string)

  /** `handleSubmit`: the form's contents, with the source type always HTTP. */
  function Submit(form: Form): (s: Submission)
    ensures s.sourceType == "HTTP"
    ensures s.destinations == form.destinations
    ensures s.name == form.name && s.sourceEndpoint == form.sourceEndpoint
    ensures s.processingScript == form.processingScript && s.responseScript == form.responseScript
  {
    Submission(form.name, "HTTP", form.sourceEndpoint, form.destinations, form.processingScript, form.responseScript)
  }

  /** Opening a channel for editing and submitting untouched hands back its
      fields, with missing ones filled by the defaults. */
  lemma EditRoundTrip(c: ExistingChannel, form: Form)
    requires c.destinations.Some? && c.destinations.value != []
    ensures var s := Submit(Init(true, Some(c), form));
      && s.name == Or(c.name, "")
      && s.sourceType == "HTTP"
      && s.sourceEndpoint == Or(c.sourceEndpoint, "")
      && s.processingScript == Or(c.processingScript, "")
      && s.responseScript == Or(c.responseScript, "")
      && |s.destinations| == |c.destinations.value|
      && (forall k :: 0 <= k < |s.destinations| ==>
            s.destinations[k].name == Or(c.destinations.value[k].name, "")
            && s.destinations[k].kind == Or(c.destinations.value[k].kind, "HL7")
            && s.destinations[k].endpoint == Or(c.destinations.value[k].endpoint, "")
            && s.destinations[k].processingScript == Or(c.destinations.value[k].processingScript, ""))
  {
  }
}

=== FILE: channel_service.dfy ===
/** Channel administration (server/src/services/channel.services.ts):
    create with defaults, update with destination upsert by name, status
    validation, cascading delete, and the channel listing with its message
    counts.
 */
module ChannelService {
  import opened Values
  import opened Text
  import opened Seqs
  import opened Store
  import MessageProcessor
  import MessageService
  import Oracles

  /** A destination as submitted in a request body; "" for a missing or
      empty field. */
  datatype DestinationInput = DestinationInput(
    name: string, kind: string, endpoint: string, outboundDataType: string,
    processingScript: string, responseScript: string, templateScript: string)

  /** The `source` object of a request body. */
  datatype SourceInput = SourceInput(kind: string, endpoint: string, inboundDataType: string)

  /** A create or update request body. `source` or `destinations` is `None`
      when absent; reading through an absent one throws. */
  datatype ChannelInput = ChannelInput(
    name: string, source: Option<SourceInput>, destinations: Option<seq<DestinationInput>>,
    processingScript: string, responseScript: string)

  const DefaultDataType: string := "HL7V2"

  /** The row a create inserts: status "Stopped", inbound type defaulting to
      HL7V2, blank scripts, no filter script. */
  function NewChannel(id: int, input: ChannelInput, src: SourceInput): (ch: Channel)
    ensures ch.id == id && ch.name == input.name && ch.status == "Stopped"
    ensures ch.inboundDataType != "" && (src.inboundDataType != "" ==> ch.inboundDataType == src.inboundDataType)
    ensures src.inboundDataType == "" ==> ch.inboundDataType == DefaultDataType
    ensures ch.filterScript == ""
  {
    Channel(id, input.name, "Stopped", src.kind, src.endpoint, OrText(src.inboundDataType, DefaultDataType),
            OrText(input.processingScript, ""), OrText(input.responseScript, ""), "")
  }

  /** A destination row a create or an upsert inserts. The enabled flag and
      the counters take the table defaults (enabled, zero). */
  function NewDestination(id: int, channelId: int, d: DestinationInput): (r: Destination)
    ensures r.id == id && r.channelId == channelId && r.name == d.name
    ensures r.outboundDataType != "" && (d.outboundDataType != "" ==> r.outboundDataType == d.outboundDataType)
    ensures r.kind == d.kind && r.endpoint == d.endpoint
    ensures d.outboundDataType == "" ==> r.outboundDataType == DefaultDataType
    ensures r.processingScript == d.processingScript && r.responseScript == d.responseScript
    ensures r.templateScript == d.templateScript
    ensures r.enabled && r.totalSent == 0 && r.totalError == 0
  {
    Destination(id, channelId, d.name, d.kind, d.endpoint, OrText(d.outboundDataType, DefaultDataType),
                OrText(d.processingScript, ""), OrText(d.responseScript, ""), OrText(d.templateScript, ""),
                true, 0, 0)
  }

  /** `INSERT INTO Destinations ...` with the next identity value. */
  function InsertDestination(db: Db, channelId: int, d: DestinationInput): (out: Db)
    ensures SameChannelRows(out, db) && out.nextDestinationId == db.nextDestinationId + 1
    ensures out.destinations == db.destinations + [NewDestination(db.nextDestinationId, channelId, d)]
  {
    db.(destinations := db.destinations + [NewDestination(db.nextDestinationId, channelId, d)],
        nextDestinationId := db.nextDestinationId + 1)
  }

  /** Everything but the destination table agrees. */
  predicate SameChannelRows(a: Db, b: Db) {
    a.channels == b.channels && a.messages == b.messages && a.logs == b.logs
    && a.nextChannelId == b.nextChannelId && a.nextMessageId == b.nextMessageId
  }

  /** The create loop: one row per submitted destination, in order. */
  function InsertAll(db: Db, channelId: int, ds: seq<DestinationInput>): (out: Db)
    ensures SameChannelRows(out, db) && out.nextDestinationId == db.nextDestinationId + |ds|
    ensures |out.destinations| == |db.destinations| + |ds|
    ensures out.destinations[..|db.destinations|] == db.destinations
    ensures forall i :: 0 <= i < |ds| ==>
      out.destinations[|db.destinations| + i] == NewDestination(db.nextDestinationId + i, channelId, ds[i])
    decreases |ds|
  {
    if ds == [] then db
    else
      var db1 := InsertDestination(db, channelId, ds[0]);
      var out := InsertAll(db1, channelId, ds[1..]);
      assert forall i :: 1 <= i < |ds| ==> ds[1..][i - 1] == ds[i];
      assert out.destinations[..|db.destinations|] == db1.destinations[..|db.destinations|];
      out
  }

  /** `createChannel`. An absent `source` throws before anything is
      written; absent `destinations` throws after the channel row is
      inserted, which stays. */
  function CreateChannel(db: Db, input: ChannelInput): (r: (MessageService.HttpReply, Db))
    ensures input.source.None? ==> r.1 == db && r.0.status == 500
    ensures input.source.Some? ==>
      r.1.channels == db.channels + [NewChannel(db.nextChannelId, input, input.source.value)]
    ensures r.0.status == 200 <==> input.source.Some? && input.destinations.Some?
    ensures r.1.messages == db.messages && r.1.logs == db.logs
  {
    match input.source
    case None => (MessageService.HttpReply(500, Object(map["message" := Str("Failed to create channel")])), db)
    case Some(src) =>
      var id := db.nextChannelId;
      var db1 := db.(channels := db.channels + [NewChannel(id, input, src)], nextChannelId := id + 1);
      match input.destinations
      case None => (MessageService.HttpReply(500, Object(map["message" := Str("Failed to create channel")])), db1)
      case Some(ds) =>
        (MessageService.HttpReply(200, Object(map["message" := Str("Channel created successfully"), "channelId" := Num(id)])),
         InsertAll(db1, id, ds))
  }

  /** The store after a successful create: one channel row, then one
      destination row per submitted destination, in order, all belonging
      to the new channel, enabled and with zeroed counters; the existing
      rows are untouched. */
  function Created(db: Db, input: ChannelInput): (out: Db)
    requires input.source.Some? && input.destinations.Some?
    ensures out.channels == db.channels + [NewChannel(db.nextChannelId, input, input.source.value)]
    ensures out.nextChannelId == db.nextChannelId + 1
    ensures out.messages == db.messages && out.logs == db.logs
    ensures |out.destinations| == |db.destinations| + |input.destinations.value|
    ensures out.destinations[..|db.destinations|] == db.destinations
    ensures forall i :: 0 <= i < |input.destinations.value| ==>
      out.destinations[|db.destinations| + i]
        == NewDestination(db.nextDestinationId + i, db.nextChannelId, input.destinations.value[i])
  {
    var ch := NewChannel(db.nextChannelId, input, input.source.value);
    var db1 := db.(channels := db.channels + [ch], nextChannelId := db.nextChannelId + 1);
    var ds := input.destinations.value;
    var out := InsertAll(db1, db.nextChannelId, ds);
    assert forall i :: 0 <= i < |ds| ==>
      out.destinations[|db.destinations| + i] == NewDestination(db.nextDestinationId + i, db.nextChannelId, ds[i]);
    out
  }

  /** A successful create answers 200 with the new id and leaves the store
      of `Created`. */
  lemma CreateSucceeds(db: Db, input: ChannelInput)
    requires input.source.Some? && input.destinations.Some?
    ensures CreateChannel(db, input).1 == Created(db, input)
    ensures CreateChannel(db, input).0.body == Object(map["message" := Str("Channel created successfully"), "channelId" := Num(db.nextChannelId)])
  {
  }

  /** A successful create adds exactly one channel, stopped, found under
      the id it reports; the store stays well-formed. */
  lemma CreateOpensStopped(db: Db, input: ChannelInput)
    requires Wf(db)
    requires input.source.Some? && input.destinations.Some?
    ensures var out := Created(db, input);
      && Wf(out)
      && FindChannel(out.channels, db.nextChannelId).Some?
      && !MessageProcessor.Running(FindChannel(out.channels, db.nextChannelId).value)
  {
    var ch := NewChannel(db.nextChannelId, input, input.source.value);
    CreatedWf(db, input);
    FindAppended(db.channels, ch);
    StoppedIdle(ch);
  }

  /** Creating keeps the store well-formed. */
  lemma CreatedWf(db: Db, input: ChannelInput)
    requires Wf(db)
    requires input.source.Some? && input.destinations.Some?
    ensures Wf(Created(db, input))
  {
    var out := Created(db, input);
    var ch := NewChannel(db.nextChannelId, input, input.source.value);
    var db1 := db.(channels := db.channels + [ch], nextChannelId := db.nextChannelId + 1);
    assert out == InsertAll(db1, db.nextChannelId, input.destinations.value);
    InsertAllFresh(db1, db.nextChannelId, input.destinations.value);
    forall i | 0 <= i < |out.channels| ensures out.channels[i].id < out.nextChannelId {
      if i < |db.channels| { assert out.channels[i] == db.channels[i]; }
    }
  }

  /** A channel whose status reads Stopped does not run. */
  lemma StoppedIdle(ch: Channel)
    requires ch.status == "Stopped"
    ensures !MessageProcessor.Running(ch)
  {
    assert ToUpper(ch.status)[0] == UpperChar('S');
  }

  /** Inserting a destination keeps identity values fresh and distinct. */
  lemma InsertFresh(db: Db, channelId: int, d: DestinationInput)
    requires FreshIds(db)
    ensures FreshIds(InsertDestination(db, channelId, d))
  {
    var out := InsertDestination(db, channelId, d);
    assert forall i :: 0 <= i < |db.destinations| ==> out.destinations[i] == db.destinations[i];
  }

  lemma {:induction false} InsertAllFresh(db: Db, channelId: int, ds: seq<DestinationInput>)
    requires FreshIds(db)
    ensures FreshIds(InsertAll(db, channelId, ds))
    decreases |ds|
  {
    if ds != [] {
      InsertFresh(db, channelId, ds[0]);
      InsertAllFresh(InsertDestination(db, channelId, ds[0]), channelId, ds[1..]);
    }
  }

  /** A fresh id is found at the end of the table. */
  lemma FindAppended(channels: seq<Channel>, ch: Channel)
    requires forall i :: 0 <= i < |channels| ==> channels[i].id < ch.id
    ensures FindChannel(channels + [ch], ch.id) == Some(ch)
  {
    var r := FindChannel(channels + [ch], ch.id);
    assert (channels + [ch])[|channels|] == ch;
    var all := channels + [ch];
    assert forall i :: 0 <= i < |channels| ==> all[i] == channels[i];
  }

  /** `UPDATE Channels SET name, source fields, scripts WHERE id = @id`;
      status and filter script are kept. */
  function UpdateChannelRow(ch: Channel, input: ChannelInput, src: SourceInput): (r: Channel)
    ensures r.id == ch.id && r.status == ch.status && r.filterScript == ch.filterScript
    ensures r.name == input.name && r.sourceType == src.kind && r.sourceEndpoint == src.endpoint
    ensures src.inboundDataType != "" ==> r.inboundDataType == src.inboundDataType
    ensures src.inboundDataType == "" ==> r.inboundDataType == DefaultDataType
    ensures r.processingScript == input.processingScript && r.responseScript == input.responseScript
  {
    ch.(name := input.name, sourceType := src.kind, sourceEndpoint := src.endpoint,
        inboundDataType := OrText(src.inboundDataType, DefaultDataType),
        processingScript := OrText(input.processingScript, ""), responseScript := OrText(input.responseScript, ""))
  }

  /** The `(id, name)` pairs of the channel's destinations, read once before
      the upsert loop. */
  datatype Known = Known(id: int, name: string)

  function Snapshot(db: Db, channelId: int): (s: seq<Known>) {
    KnownOf(Filter(db.destinations, (d: Destination) => d.channelId == channelId))
  }

  /** `SELECT id, name` over the given rows. */
  function KnownOf(rows: seq<Destination>): (s: seq<Known>)
    ensures |s| == |rows|
    ensures forall i :: 0 <= i < |rows| ==> s[i] == Known(rows[i].id, rows[i].name)
  {
    seq(|rows|, i requires 0 <= i < |rows| => Known(rows[i].id, rows[i].name))
  }

  /** Every snapshot entry is a row of the channel. */
  lemma SnapshotBacked(db: Db, channelId: int)
    ensures Backed(db, channelId, Snapshot(db, channelId))
  {
    var own := Filter(db.destinations, (d: Destination) => d.channelId == channelId);
    var s := Snapshot(db, channelId);
    forall i | 0 <= i < |s|
      ensures exists j :: (0 <= j < |db.destinations| && db.destinations[j].id == s[i].id
        && db.destinations[j].channelId == channelId)
    {
      assert own[i] in db.destinations && own[i].channelId == channelId;
      var j :| 0 <= j < |db.destinations| && db.destinations[j] == own[i];
      assert db.destinations[j].id == s[i].id;
    }
    assert forall i :: 0 <= i < |s| ==> exists j :: (0 <= j < |db.destinations| && db.destinations[j].id == s[i].id
      && db.destinations[j].channelId == channelId);
  }

  /** Every row of the channel has a snapshot entry. */
  lemma SnapshotComplete(db: Db, channelId: int)
    ensures forall k :: 0 <= k < |db.destinations| && db.destinations[k].channelId == channelId ==>
      Known(db.destinations[k].id, db.destinations[k].name) in Snapshot(db, channelId)
  {
    var own := Filter(db.destinations, (d: Destination) => d.channelId == channelId);
    var s := Snapshot(db, channelId);
    forall k | 0 <= k < |db.destinations| && db.destinations[k].channelId == channelId
      ensures Known(db.destinations[k].id, db.destinations[k].name) in s
    {
      assert db.destinations[k] in own;
      var i :| 0 <= i < |own| && own[i] == db.destinations[k];
      assert s[i] == Known(db.destinations[k].id, db.destinations[k].name);
    }
  }

  /** `existingDests.find(d => d.name === name)`: the first snapshot entry
      with that name. */
  function FindByName(s: seq<Known>, name: string): (r: Option<int>)
    ensures r.None? <==> forall i :: 0 <= i < |s| ==> s[i].name != name
    ensures r.Some? ==> exists i :: (0 <= i < |s| && s[i].name == name && s[i].id == r.value
      && forall j :: 0 <= j < i ==> s[j].name != name)
  {
    if s == [] then None
    else if s[0].name == name then
      assert s[0].name == name && s[0].id == s[0].id;
      Some(s[0].id)
    else
      var r := FindByName(s[1..], name);
      assert forall i :: 1 <= i < |s| ==> s[1..][i - 1] == s[i];
      if r.Some? then
        var i :| 0 <= i < |s[1..]| && s[1..][i].name == name && s[1..][i].id == r.value
          && forall j :: 0 <= j < i ==> s[1..][j].name != name;
        assert s[i + 1].name == name && s[i + 1].id == r.value;
        r
      else r
  }

  /** The in-place update of a matched destination: endpoint, type, data
      type and scripts; id, channel, name, enabled flag and counters kept. */
  function Refit(d: Destination, input: DestinationInput): (r: Destination)
    ensures r.id == d.id && r.channelId == d.channelId && r.name == d.name
    ensures r.enabled == d.enabled && r.totalSent == d.totalSent && r.totalError == d.totalError
    ensures r.endpoint == input.endpoint && r.kind == input.kind
    ensures input.outboundDataType != "" ==> r.outboundDataType == input.outboundDataType
    ensures input.outboundDataType == "" ==> r.outboundDataType == DefaultDataType
    ensures r.processingScript == input.processingScript && r.responseScript == input.responseScript
    ensures r.templateScript == input.templateScript
  {
    d.(endpoint := input.endpoint, kind := input.kind, outboundDataType := OrText(input.outboundDataType, DefaultDataType),
       processingScript := OrText(input.processingScript, ""), responseScript := OrText(input.responseScript, ""),
       templateScript := OrText(input.templateScript, ""))
  }

  /** `UPDATE Destinations SET ... WHERE id = @id` */
  function RefitRow(db: Db, id: int, input: DestinationInput): (out: Db)
    ensures SameChannelRows(out, db) && out.nextDestinationId == db.nextDestinationId
    ensures |out.destinations| == |db.destinations|
    ensures forall k :: 0 <= k < |db.destinations| ==>
      out.destinations[k] == if db.destinations[k].id == id then Refit(db.destinations[k], input) else db.destinations[k]
  {
    db.(destinations := seq(|db.destinations|, k requires 0 <= k < |db.destinations| =>
      if db.destinations[k].id == id then Refit(db.destinations[k], input) else db.destinations[k]))
  }

  /** The submitted destination matches no snapshot entry. */
  predicate Unmatched(s: seq<Known>, d: DestinationInput) {
    FindByName(s, d.name).None?
  }

  /** How many submitted destinations match no snapshot entry. */
  function Unmatches(s: seq<Known>, ds: seq<DestinationInput>): nat {
    if ds == [] then 0 else (if Unmatched(s, ds[0]) then 1 else 0) + Unmatches(s, ds[1..])
  }

  /** The upsert loop: a name found in the snapshot updates that row in
      place, any other name inserts a new row. The snapshot is not
      re-read, so two submitted destinations with the same new name insert
      two rows. No row is ever deleted or renamed: every existing row keeps
      its id, channel, name, enabled flag and counters, and every inserted
      row belongs to the channel. */
  function Upsert(db: Db, channelId: int, s: seq<Known>, ds: seq<DestinationInput>): (out: Db)
    ensures SameChannelRows(out, db)
    ensures |out.destinations| == |db.destinations| + Unmatches(s, ds)
    ensures out.nextDestinationId == db.nextDestinationId + Unmatches(s, ds)
    ensures forall k :: 0 <= k < |db.destinations| ==>
      var d := db.destinations[k];
      var e := out.destinations[k];
      e.id == d.id && e.channelId == d.channelId && e.name == d.name
      && e.enabled == d.enabled && e.totalSent == d.totalSent && e.totalError == d.totalError
    ensures forall k :: |db.destinations| <= k < |out.destinations| ==> out.destinations[k].channelId == channelId
    decreases |ds|
  {
    if ds == [] then db
    else
      var db1 := UpsertOne(db, channelId, s, ds[0]);
      UpsertOneShape(db, channelId, s, ds[0]);
      Upsert(db1, channelId, s, ds[1..])
  }

  /** One turn of the loop adds a row exactly when the name is unmatched,
      and keeps the identity columns and counters of the rows it had. */
  lemma UpsertOneShape(db: Db, channelId: int, s: seq<Known>, d: DestinationInput)
    ensures var out := UpsertOne(db, channelId, s, d);
      && |out.destinations| == |db.destinations| + (if Unmatched(s, d) then 1 else 0)
      && out.nextDestinationId == db.nextDestinationId + (if Unmatched(s, d) then 1 else 0)
      && (forall k :: 0 <= k < |db.destinations| ==>
            var e := out.destinations[k]; var f := db.destinations[k];
            e.id == f.id && e.channelId == f.channelId && e.name == f.name
            && e.enabled == f.enabled && e.totalSent == f.totalSent && e.totalError == f.totalError)
      && (forall k :: |db.destinations| <= k < |out.destinations| ==> out.destinations[k].channelId == channelId)
  {
  }

  /** One turn of the upsert loop. */
  function UpsertOne(db: Db, channelId: int, s: seq<Known>, d: DestinationInput): (out: Db)
    ensures SameChannelRows(out, db)
    ensures FindByName(s, d.name).Some? ==> out == RefitRow(db, FindByName(s, d.name).value, d)
    ensures FindByName(s, d.name).None? ==> out == InsertDestination(db, channelId, d)
  {
    match FindByName(s, d.name)
    case Some(id) => RefitRow(db, id, d)
    case None => InsertDestination(db, channelId, d)
  }

  /** Identity values are below the counter and distinct. */
  predicate FreshIds(db: Db) {
    && (forall i :: 0 <= i < |db.destinations| ==> db.destinations[i].id < db.nextDestinationId)
    && (forall i, j :: 0 <= i < j < |db.destinations| ==> db.destinations[i].id != db.destinations[j].id)
  }

  /** Every snapshot entry names a row of the channel. */
  predicate Backed(db: Db, channelId: int, s: seq<Known>) {
    forall i :: 0 <= i < |s| ==> exists j :: (0 <= j < |db.destinations| && db.destinations[j].id == s[i].id
      && db.destinations[j].channelId == channelId)
  }

  /** One turn keeps the identity columns fresh and the snapshot backed. */
  lemma UpsertOneKeeps(db: Db, channelId: int, s: seq<Known>, d: DestinationInput)
    requires FreshIds(db) && Backed(db, channelId, s)
    ensures FreshIds(UpsertOne(db, channelId, s, d)) && Backed(UpsertOne(db, channelId, s, d), channelId, s)
  {
    UpsertOneShape(db, channelId, s, d);
    UpsertOneFresh(db, channelId, s, d);
    var db1 := UpsertOne(db, channelId, s, d);
    forall i | 0 <= i < |s|
      ensures exists j :: (0 <= j < |db1.destinations| && db1.destinations[j].id == s[i].id
        && db1.destinations[j].channelId == channelId)
    {
      var j :| 0 <= j < |db.destinations| && db.destinations[j].id == s[i].id && db.destinations[j].channelId == channelId;
      assert db1.destinations[j].id == s[i].id;
    }
  }

  lemma UpsertOneFresh(db: Db, channelId: int, s: seq<Known>, d: DestinationInput)
    requires FreshIds(db)
    ensures FreshIds(UpsertOne(db, channelId, s, d))
  {
    if FindByName(s, d.name).Some? {
      var db1 := UpsertOne(db, channelId, s, d);
      assert forall j :: 0 <= j < |db.destinations| ==> db1.destinations[j].id == db.destinations[j].id;
    } else {
      InsertFresh(db, channelId, d);
    }
  }

  /** The rows of every other channel come out of the upsert unchanged. */
  lemma {:induction false} UpsertSparesOtherChannels(db: Db, channelId: int, s: seq<Known>, ds: seq<DestinationInput>, k: int)
    requires FreshIds(db) && Backed(db, channelId, s)
    requires 0 <= k < |db.destinations| && db.destinations[k].channelId != channelId
    ensures Upsert(db, channelId, s, ds).destinations[k] == db.destinations[k]
    decreases |ds|
  {
    if ds != [] {
      var db1 := UpsertOne(db, channelId, s, ds[0]);
      UpsertOneKeeps(db, channelId, s, ds[0]);
      if FindByName(s, ds[0].name).Some? {
        var id := FindByName(s, ds[0].name).value;
        var i :| 0 <= i < |s| && s[i].name == ds[0].name && s[i].id == id;
        var j :| 0 <= j < |db.destinations| && db.destinations[j].id == s[i].id && db.destinations[j].channelId == channelId;
        assert j != k;
        assert db1.destinations[k] == db.destinations[k];
      } else {
        assert db1.destinations[k] == db.destinations[k];
      }
      UpsertSparesOtherChannels(db1, channelId, s, ds[1..], k);
    }
  }

  /** What the loop makes of one existing row: every submission that the
      snapshot resolves to the row's id is written onto it, in order. */
  function Refits(d: Destination, s: seq<Known>, ds: seq<DestinationInput>): Destination
    decreases |ds|
  {
    if ds == [] then d
    else Refits(if FindByName(s, ds[0].name) == Some(d.id) then Refit(d, ds[0]) else d, s, ds[1..])
  }

  /** Every existing row ends the loop as its own refits, and only those. */
  lemma {:induction false} UpsertRow(db: Db, channelId: int, s: seq<Known>, ds: seq<DestinationInput>, k: int)
    requires 0 <= k < |db.destinations|
    ensures Upsert(db, channelId, s, ds).destinations[k] == Refits(db.destinations[k], s, ds)
    decreases |ds|
  {
    if ds != [] {
      var db1 := UpsertOne(db, channelId, s, ds[0]);
      UpsertUnfold(db, channelId, s, ds);
      UpsertOneRow(db, channelId, s, ds[0], k);
      UpsertRow(db1, channelId, s, ds[1..], k);
    }
  }

  /** A row the last submission resolves to carries that submission's
      fields, whatever earlier submissions wrote. */
  lemma {:induction false} RefitsLastWins(d: Destination, s: seq<Known>, ds: seq<DestinationInput>)
    requires ds != [] && FindByName(s, ds[|ds| - 1].name) == Some(d.id)
    ensures Refits(d, s, ds) == Refit(d, ds[|ds| - 1])
    decreases |ds|
  {
    var last := ds[|ds| - 1];
    var d1 := if FindByName(s, ds[0].name) == Some(d.id) then Refit(d, ds[0]) else d;
    if |ds| > 1 {
      var rest := ds[1..];
      assert rest[|rest| - 1] == last;
      RefitsLastWins(d1, s, rest);
      RefitLastWins(d, ds[0], last);
    }
  }

  /** A submitted destination whose name is in the snapshot is written onto
      the first snapshot row of that name, in place, when it is the last
      submission of that name. */
  lemma UpsertRefitsMatch(db: Db, channelId: int, s: seq<Known>, ds: seq<DestinationInput>, k: int)
    requires ds != [] && 0 <= k < |db.destinations|
    requires FindByName(s, ds[|ds| - 1].name) == Some(db.destinations[k].id)
    ensures Upsert(db, channelId, s, ds).destinations[k] == Refit(db.destinations[k], ds[|ds| - 1])
  {
    UpsertRow(db, channelId, s, ds, k);
    RefitsLastWins(db.destinations[k], s, ds);
  }

  /** The loop's first turn, then the rest. */
  lemma UpsertUnfold(db: Db, channelId: int, s: seq<Known>, ds: seq<DestinationInput>)
    requires ds != []
    ensures Upsert(db, channelId, s, ds) == Upsert(UpsertOne(db, channelId, s, ds[0]), channelId, s, ds[1..])
  {
  }

  /** What one turn does to an existing row: it keeps its id and is
      refitted exactly when the submission names it. */
  lemma UpsertOneRow(db: Db, channelId: int, s: seq<Known>, d: DestinationInput, k: int)
    requires 0 <= k < |db.destinations|
    ensures var e := UpsertOne(db, channelId, s, d).destinations[k];
      && e.id == db.destinations[k].id
      && e == if FindByName(s, d.name) == Some(db.destinations[k].id) then Refit(db.destinations[k], d) else db.destinations[k]
  {
    if FindByName(s, d.name).None? {
      assert UpsertOne(db, channelId, s, d).destinations[k] == db.destinations[k];
    }
  }

  /** A later refit overwrites everything an earlier one wrote. */
  lemma RefitLastWins(d: Destination, x: DestinationInput, y: DestinationInput)
    ensures Refit(Refit(d, x), y) == Refit(d, y)
  {
  }

  /** Upserting keeps identity values fresh and distinct and the snapshot
      backed, turn after turn. */
  lemma {:induction false} UpsertFresh(db: Db, channelId: int, s: seq<Known>, ds: seq<DestinationInput>)
    requires FreshIds(db) && Backed(db, channelId, s)
    ensures FreshIds(Upsert(db, channelId, s, ds))
    decreases |ds|
  {
    if ds != [] {
      UpsertOneKeeps(db, channelId, s, ds[0]);
      UpsertFresh(UpsertOne(db, channelId, s, ds[0]), channelId, s, ds[1..]);
    }
  }

  /** The submitted destinations the snapshot does not resolve, in order:
      the ones the loop inserts. */
  function UnmatchedOf(s: seq<Known>, ds: seq<DestinationInput>): (u: seq<DestinationInput>)
    ensures |u| == Unmatches(s, ds)
    ensures forall j :: 0 <= j < |u| ==> u[j] in ds && Unmatched(s, u[j])
    decreases |ds|
  {
    if ds == [] then []
    else
      var rest := UnmatchedOf(s, ds[1..]);
      assert forall j :: 0 <= j < |rest| ==> rest[j] in ds;
      if Unmatched(s, ds[0]) then [ds[0]] + rest else rest
  }

  /** A row whose id no snapshot entry carries is never refitted. */
  lemma {:induction false} RefitsUntouched(d: Destination, s: seq<Known>, ds: seq<DestinationInput>)
    requires forall i :: 0 <= i < |s| ==> s[i].id != d.id
    ensures Refits(d, s, ds) == d
    decreases |ds|
  {
    if ds != [] {
      assert FindByName(s, ds[0].name) != Some(d.id);
      RefitsUntouched(d, s, ds[1..]);
    }
  }

  /** The rows `INSERT INTO Destinations` adds for the given submissions,
      in order, with consecutive identity values from `id`. */
  function NewRows(id: int, channelId: int, ds: seq<DestinationInput>): (r: seq<Destination>)
    ensures |r| == |ds|
    ensures forall j :: 0 <= j < |ds| ==> r[j] == NewDestination(id + j, channelId, ds[j])
  {
    seq(|ds|, j requires 0 <= j < |ds| => NewDestination(id + j, channelId, ds[j]))
  }

  /** The first submission's row, then the rest's. */
  lemma NewRowsCons(id: int, channelId: int, d: DestinationInput, ds: seq<DestinationInput>)
    ensures NewRows(id, channelId, [d] + ds) == [NewDestination(id, channelId, d)] + NewRows(id + 1, channelId, ds)
  {
    var a := NewRows(id, channelId, [d] + ds);
    var b := [NewDestination(id, channelId, d)] + NewRows(id + 1, channelId, ds);
    forall j | 1 <= j < |a| ensures a[j] == b[j] {
      assert ([d] + ds)[j] == ds[j - 1];
    }
  }

  /** The rows the loop inserts follow the existing ones: one per
      unmatched submission, in submission order, with consecutive
      identity values, belonging to the channel and carrying that
      submission's fields. A later submission never overwrites them,
      since the snapshot only names rows that were there before. */
  lemma {:induction false} UpsertInserts(db: Db, channelId: int, s: seq<Known>, ds: seq<DestinationInput>)
    requires forall i :: 0 <= i < |s| ==> s[i].id < db.nextDestinationId
    ensures Upsert(db, channelId, s, ds).destinations[|db.destinations|..]
      == NewRows(db.nextDestinationId, channelId, UnmatchedOf(s, ds))
    decreases |ds|
  {
    if ds != [] {
      var db1 := UpsertOne(db, channelId, s, ds[0]);
      UpsertUnfold(db, channelId, s, ds);
      UpsertInserts(db1, channelId, s, ds[1..]);
      if Unmatched(s, ds[0]) {
        InsertedHead(db, channelId, s, ds);
      } else {
        assert UnmatchedOf(s, ds) == UnmatchedOf(s, ds[1..]);
        assert |db1.destinations| == |db.destinations| && db1.nextDestinationId == db.nextDestinationId;
      }
    }
  }

  /** The row an unmatched first submission inserts is kept by the rest of
      the loop, and the rows the rest inserts follow it. */
  lemma InsertedHead(db: Db, channelId: int, s: seq<Known>, ds: seq<DestinationInput>)
    requires ds != [] && Unmatched(s, ds[0])
    requires forall i :: 0 <= i < |s| ==> s[i].id < db.nextDestinationId
    requires var db1 := UpsertOne(db, channelId, s, ds[0]);
      Upsert(db1, channelId, s, ds[1..]).destinations[|db1.destinations|..]
        == NewRows(db1.nextDestinationId, channelId, UnmatchedOf(s, ds[1..]))
    ensures Upsert(UpsertOne(db, channelId, s, ds[0]), channelId, s, ds[1..]).destinations[|db.destinations|..]
      == NewRows(db.nextDestinationId, channelId, UnmatchedOf(s, ds))
  {
    var db1 := UpsertOne(db, channelId, s, ds[0]);
    var n := |db.destinations|;
    var added := NewDestination(db.nextDestinationId, channelId, ds[0]);
    assert db1.destinations == db.destinations + [added];
    assert db1.nextDestinationId == db.nextDestinationId + 1;
    UnnamedRowKept(db1, channelId, s, ds[1..], n);
    var out := Upsert(db1, channelId, s, ds[1..]).destinations;
    var v := UnmatchedOf(s, ds[1..]);
    assert UnmatchedOf(s, ds) == [ds[0]] + v;
    PrependRow(out, n, db.nextDestinationId, channelId, ds[0], v);
  }

  /** A table whose rows from `n + 1` on are the rows inserted for `v`,
      preceded by the row inserted for `d`. */
  lemma PrependRow(out: seq<Destination>, n: int, id: int, channelId: int, d: DestinationInput, v: seq<DestinationInput>)
    requires 0 <= n < |out|
    requires out[n] == NewDestination(id, channelId, d)
    requires out[n + 1..] == NewRows(id + 1, channelId, v)
    ensures out[n..] == NewRows(id, channelId, [d] + v)
  {
    SuffixCons(out, n);
    NewRowsCons(id, channelId, d, v);
  }

  /** A row no snapshot entry names leaves the loop as it entered. */
  lemma UnnamedRowKept(db: Db, channelId: int, s: seq<Known>, ds: seq<DestinationInput>, k: int)
    requires 0 <= k < |db.destinations|
    requires forall i :: 0 <= i < |s| ==> s[i].id != db.destinations[k].id
    ensures Upsert(db, channelId, s, ds).destinations[k] == db.destinations[k]
  {
    UpsertRow(db, channelId, s, ds, k);
    RefitsUntouched(db.destinations[k], s, ds);
  }

  /** A successful update appends exactly the channel's new destinations:
      one row per submitted destination whose name the channel did not
      have, in submission order, with the submitted fields. */
  lemma UpdateInserts(db: Db, id: int, input: ChannelInput)
    requires Wf(db)
    requires input.source.Some? && input.destinations.Some?
    ensures Updated(db, id, input).destinations[|db.destinations|..]
      == NewRows(db.nextDestinationId, id, UnmatchedOf(Snapshot(db, id), input.destinations.value))
  {
    var db1 := Rewritten(db, id, input, input.source.value);
    var s := Snapshot(db1, id);
    SnapshotBacked(db1, id);
    forall i | 0 <= i < |s| ensures s[i].id < db1.nextDestinationId {
      var j :| 0 <= j < |db1.destinations| && db1.destinations[j].id == s[i].id && db1.destinations[j].channelId == id;
    }
    UpsertInserts(db1, id, s, input.destinations.value);
  }

  /** The channel table with every row of `id` replaced by `f` of it. */
  function ReplaceChannel(chs: seq<Channel>, id: int, f: Channel -> Channel): (r: seq<Channel>)
    ensures |r| == |chs|
    ensures forall i :: 0 <= i < |chs| ==> r[i] == if chs[i].id == id then f(chs[i]) else chs[i]
  {
    seq(|chs|, i requires 0 <= i < |chs| => if chs[i].id == id then f(chs[i]) else chs[i])
  }

  /** Looking up the replaced id finds the replaced row when `f` keeps the id. */
  lemma {:induction false} FindReplaced(chs: seq<Channel>, id: int, f: Channel -> Channel)
    requires forall i :: 0 <= i < |chs| ==> f(chs[i]).id == chs[i].id
    ensures FindChannel(ReplaceChannel(chs, id, f), id).None? <==> FindChannel(chs, id).None?
    ensures FindChannel(chs, id).Some? ==>
      FindChannel(ReplaceChannel(chs, id, f), id) == Some(f(FindChannel(chs, id).value))
  {
    if chs != [] {
      var r := ReplaceChannel(chs, id, f);
      assert r[1..] == ReplaceChannel(chs[1..], id, f);
      FindReplaced(chs[1..], id, f);
    }
  }

  /** `updateChannel`. The channel row is rewritten (no row for `id` is not
      an error); an absent `source` throws before that, absent
      `destinations` throws after it. The snapshot of the channel's
      destinations is read once, after the row update. */
  function UpdateChannel(db: Db, id: int, input: ChannelInput): (r: (MessageService.HttpReply, Db))
    ensures r.0.status == 200 <==> input.source.Some? && input.destinations.Some?
    ensures r.0.status == 200 ==> r.1 == Updated(db, id, input)
    ensures r.0.status != 200 ==> r.0.status == 500 && r.1.destinations == db.destinations
    ensures input.source.None? ==> r.1 == db
    ensures r.1.messages == db.messages && r.1.logs == db.logs && r.1.nextChannelId == db.nextChannelId
    ensures |r.1.channels| == |db.channels|
    ensures forall i :: 0 <= i < |db.channels| && db.channels[i].id != id ==> r.1.channels[i] == db.channels[i]
    ensures input.source.Some? ==> forall i :: 0 <= i < |db.channels| && db.channels[i].id == id ==>
      r.1.channels[i] == UpdateChannelRow(db.channels[i], input, input.source.value)
  {
    match input.source
    case None => (MessageService.HttpReply(500, MessageService.MessageBody("Failed to update channel")), db)
    case Some(src) =>
      match input.destinations
      case None => (MessageService.HttpReply(500, MessageService.MessageBody("Failed to update channel")),
                    Rewritten(db, id, input, src))
      case Some(ds) => (MessageService.HttpReply(200, MessageService.MessageBody("Channel updated successfully")),
                        Updated(db, id, input))
  }

  /** The channel table after the row update of a successful update. */
  function Rewritten(db: Db, id: int, input: ChannelInput, src: SourceInput): (out: Db)
    ensures out.destinations == db.destinations && out.messages == db.messages && out.logs == db.logs
    ensures SameChannels(out.(channels := db.channels), db)
    ensures |out.channels| == |db.channels|
    ensures forall i :: 0 <= i < |db.channels| ==> out.channels[i].id == db.channels[i].id
    ensures forall i :: 0 <= i < |db.channels| ==>
      out.channels[i] == if db.channels[i].id == id then UpdateChannelRow(db.channels[i], input, src) else db.channels[i]
  {
    db.(channels := ReplaceChannel(db.channels, id, (ch: Channel) => UpdateChannelRow(ch, input, src)))
  }

  /** The store after a successful update. It never removes, renames or
      moves a destination row and never resets an enabled flag or a
      counter; every new row belongs to the channel, one per submitted
      destination whose name the channel did not already have. */
  function Updated(db: Db, id: int, input: ChannelInput): (out: Db)
    requires input.source.Some? && input.destinations.Some?
    ensures var n := Unmatches(Snapshot(db, id), input.destinations.value);
      |out.destinations| == |db.destinations| + n && out.nextDestinationId == db.nextDestinationId + n
    ensures forall k :: 0 <= k < |db.destinations| ==>
      var d := db.destinations[k];
      var e := out.destinations[k];
      e.id == d.id && e.channelId == d.channelId && e.name == d.name
      && e.enabled == d.enabled && e.totalSent == d.totalSent && e.totalError == d.totalError
    ensures forall k :: |db.destinations| <= k < |out.destinations| ==> out.destinations[k].channelId == id
    ensures |out.channels| == |db.channels|
    ensures forall i :: 0 <= i < |db.channels| ==>
      out.channels[i] == if db.channels[i].id == id then UpdateChannelRow(db.channels[i], input, input.source.value)
        else db.channels[i]
  {
    var db1 := Rewritten(db, id, input, input.source.value);
    Upsert(db1, id, Snapshot(db1, id), input.destinations.value)
  }

  /** A successful update of a well-formed store keeps it well-formed. */
  lemma UpdateKeepsWf(db: Db, id: int, input: ChannelInput)
    requires Wf(db)
    requires input.source.Some? && input.destinations.Some?
    ensures Wf(Updated(db, id, input))
  {
    var db1 := Rewritten(db, id, input, input.source.value);
    var s := Snapshot(db1, id);
    SnapshotBacked(db1, id);
    UpsertFresh(db1, id, s, input.destinations.value);
    var out := Updated(db, id, input);
    assert out.channels == db1.channels && out.messages == db.messages;
    forall i | 0 <= i < |out.channels| ensures out.channels[i].id < out.nextChannelId {
      assert out.channels[i].id == db.channels[i].id;
    }
  }

  /** A successful update leaves the destination rows of every other
      channel untouched. */
  lemma UpdateSparesOtherChannels(db: Db, id: int, input: ChannelInput, k: int)
    requires Wf(db)
    requires input.source.Some? && input.destinations.Some?
    requires 0 <= k < |db.destinations| && db.destinations[k].channelId != id
    ensures Updated(db, id, input).destinations[k] == db.destinations[k]
  {
    var db1 := Rewritten(db, id, input, input.source.value);
    SnapshotBacked(db1, id);
    UpsertSparesOtherChannels(db1, id, Snapshot(db1, id), input.destinations.value, k);
  }

  /** `(status || "").toUpperCase()`: `None` when the call throws, which it
      does for a truthy value that is not a string. */
  function RequestedStatus(v: Value): (r: Option<string>)
    ensures !Truthy(v) ==> r == Some("")
    ensures Truthy(v) ==> (r.Some? <==> v.Str?)
    ensures Truthy(v) && v.Str? ==> r == Some(ToUpper(v.s))
  {
    if !Truthy(v) then Some("") else if v.Str? then Some(ToUpper(v.s)) else None
  }

  const ValidStatuses: seq<string> := ["RUNNING", "STOPPED", "ERROR"]

  /** `updateChannelStatus` */
  function UpdateStatus(db: Db, id: nat, status: Value): (r: (MessageService.HttpReply, Db))
    ensures RequestedStatus(status).None? ==> r.0.status == 500 && r.1 == db
    ensures RequestedStatus(status).Some? && RequestedStatus(status).value !in ValidStatuses ==>
      r == (MessageService.HttpReply(400, MessageService.MessageBody("Invalid status value")), db)
    ensures r.0.status == 200 <==> RequestedStatus(status).Some? && RequestedStatus(status).value in ValidStatuses
    ensures r.0.status == 200 ==>
      r.0.body == MessageService.MessageBody("Channel " + NatToString(id) + " status updated to " + RequestedStatus(status).value)
    ensures r.1.destinations == db.destinations && r.1.messages == db.messages && r.1.logs == db.logs
    ensures |r.1.channels| == |db.channels|
    ensures forall i :: 0 <= i < |db.channels| ==>
      r.1.channels[i] == if db.channels[i].id == id && r.0.status == 200
        then db.channels[i].(status := RequestedStatus(status).value) else db.channels[i]
  {
    match RequestedStatus(status)
    case None => (MessageService.HttpReply(500, MessageService.MessageBody("Failed to update channel status")), db)
    case Some(s) =>
      if s !in ValidStatuses then (MessageService.HttpReply(400, MessageService.MessageBody("Invalid status value")), db)
      else
        (MessageService.HttpReply(200, MessageService.MessageBody("Channel " + NatToString(id) + " status updated to " + s)),
         db.(channels := ReplaceChannel(db.channels, id, (ch: Channel) => ch.(status := s))))
  }

  /** After a status change the channel is running, for the inbound
      handler and the pipeline, exactly when the requested status
      upper-cases to RUNNING, whatever its spelling. */
  lemma StatusGatesPipeline(db: Db, id: nat, s: string)
    requires FindChannel(db.channels, id).Some?
    requires ToUpper(s) in ValidStatuses
    ensures var out := UpdateStatus(db, id, Str(s)).1;
      && FindChannel(out.channels, id).Some?
      && (MessageProcessor.Running(FindChannel(out.channels, id).value) <==> ToUpper(s) == "RUNNING")
  {
    assert Truthy(Str(s)) by {
      assert s != [] by { assert ToUpper(s) != []; }
    }
    var f := (ch: Channel) => ch.(status := ToUpper(s));
    assert UpdateStatus(db, id, Str(s)).1.channels == ReplaceChannel(db.channels, id, f);
    FindReplaced(db.channels, id, f);
    ToUpperIdempotent(s);
  }

  /** Repeating a status change changes nothing more. */
  lemma StatusIdempotent(db: Db, id: nat, status: Value)
    ensures var once := UpdateStatus(db, id, status);
      UpdateStatus(once.1, id, status) == once
  {
    var once := UpdateStatus(db, id, status);
    var twice := UpdateStatus(once.1, id, status);
    if once.0.status == 200 {
      assert twice.1.channels == once.1.channels;
    }
  }

  /** The ids of the channel's destinations, read at the start of the
      delete transaction. */
  function OwnedDestinationIds(db: Db, id: int): (ids: seq<int>)
    ensures forall x :: x in ids <==> exists k :: 0 <= k < |db.destinations| && db.destinations[k].channelId == id
                                              && db.destinations[k].id == x
  {
    var own := Filter(db.destinations, (d: Destination) => d.channelId == id);
    var ids := seq(|own|, i requires 0 <= i < |own| => own[i].id);
    assert forall x :: x in ids ==> exists k :: 0 <= k < |db.destinations| && db.destinations[k].channelId == id
                                              && db.destinations[k].id == x by {
      forall x | x in ids
        ensures exists k :: 0 <= k < |db.destinations| && db.destinations[k].channelId == id
                         && db.destinations[k].id == x
      {
        var i :| 0 <= i < |ids| && ids[i] == x;
        assert own[i] in db.destinations;
        var k :| 0 <= k < |db.destinations| && db.destinations[k] == own[i];
      }
    }
    assert forall k :: 0 <= k < |db.destinations| && db.destinations[k].channelId == id ==> db.destinations[k].id in ids by {
      forall k | 0 <= k < |db.destinations| && db.destinations[k].channelId == id
        ensures db.destinations[k].id in ids
      {
        assert db.destinations[k] in own;
        var i :| 0 <= i < |own| && own[i] == db.destinations[k];
        assert ids[i] == db.destinations[k].id;
      }
    }
    ids
  }

  /** `deleteChannel`, one transaction: the log rows of the channel's
      destinations, then its messages, its destinations and the channel
      row. A missing id deletes nothing and still succeeds. */
  function DeleteChannel(db: Db, id: int): (r: (MessageService.HttpReply, Db))
    ensures r.0 == MessageService.HttpReply(200, MessageService.MessageBody("Channel deleted successfully"))
    ensures var out := r.1;
      && (forall i :: 0 <= i < |out.channels| ==> out.channels[i].id != id)
      && (forall i :: 0 <= i < |out.destinations| ==> out.destinations[i].channelId != id)
      && (forall i :: 0 <= i < |out.messages| ==> out.messages[i].channelId != id)
      && (forall i :: 0 <= i < |out.logs| ==> out.logs[i].destinationId !in OwnedDestinationIds(db, id))
    ensures SameChannels(r.1.(channels := db.channels), db)
  {
    var ids := OwnedDestinationIds(db, id);
    (MessageService.HttpReply(200, MessageService.MessageBody("Channel deleted successfully")),
     db.(logs := Filter(db.logs, (l: DestinationLog) => l.destinationId !in ids),
         messages := Filter(db.messages, (m: Message) => m.channelId != id),
         destinations := Filter(db.destinations, (d: Destination) => d.channelId != id),
         channels := Filter(db.channels, (c: Channel) => c.id != id)))
  }

  /** Deleting a channel leaves every other channel as it was: its row, the
      destinations the pipeline would deliver to, its messages, and (in a
      well-formed store) the log rows of each of its destinations, all in
      their original order. */
  lemma DeleteSparesOthers(db: Db, id: int, c: int)
    requires Wf(db) && c != id
    ensures var out := DeleteChannel(db, id).1;
      && FindChannel(out.channels, c) == FindChannel(db.channels, c)
      && EnabledDestinations(out, c) == EnabledDestinations(db, c)
      && Filter(out.messages, (m: Message) => m.channelId == c) == Filter(db.messages, (m: Message) => m.channelId == c)
      && (forall k :: 0 <= k < |db.destinations| && db.destinations[k].channelId == c ==>
            var x := db.destinations[k].id;
            Filter(out.logs, (l: DestinationLog) => l.destinationId == x)
              == Filter(db.logs, (l: DestinationLog) => l.destinationId == x))
  {
    var out := DeleteChannel(db, id).1;
    var ids := OwnedDestinationIds(db, id);
    FindKept(db.channels, id, c);
    FilterFilter(db.destinations, (d: Destination) => d.channelId != id, (d: Destination) => IsEnabledOf(c, d));
    FilterFilter(db.messages, (m: Message) => m.channelId != id, (m: Message) => m.channelId == c);
    forall k | 0 <= k < |db.destinations| && db.destinations[k].channelId == c
      ensures var x := db.destinations[k].id;
        Filter(out.logs, (l: DestinationLog) => l.destinationId == x)
          == Filter(db.logs, (l: DestinationLog) => l.destinationId == x)
    {
      var x := db.destinations[k].id;
      assert x !in ids;
      FilterFilter(db.logs, (l: DestinationLog) => l.destinationId !in ids, (l: DestinationLog) => l.destinationId == x);
    }
  }

  /** Removing the rows of another id does not change which row is found. */
  lemma {:induction false} FindKept(chs: seq<Channel>, id: int, c: int)
    requires c != id
    ensures FindChannel(Filter(chs, (ch: Channel) => ch.id != id), c) == FindChannel(chs, c)
  {
    if chs != [] {
      var p := (ch: Channel) => ch.id != id;
      var rest := Filter(chs[1..], p);
      FindKept(chs[1..], id, c);
      if chs[0].id == id {
        assert Filter(chs, p) == rest;
      } else {
        assert Filter(chs, p) == [chs[0]] + rest;
        assert ([chs[0]] + rest)[1..] == rest;
      }
    }
  }

  /** A destination as the listing returns it. NULL scripts would read as
      ""; the model's rows have no NULLs. */
  datatype DestinationView = DestinationView(
    id: int, channelId: int, name: string, kind: string, endpoint: string, outboundDataType: string,
    sent: nat, errors: nat, isEnabled: bool,
    processingScript: string, responseScript: string, templateScript: string)

  /** A channel as the listing returns it, with its message counts. */
  datatype ChannelView = ChannelView(
    id: int, name: string, status: string, source: SourceInput,
    processingScript: string, responseScript: string,
    received: nat, sent: nat, errors: nat, destinations: seq<DestinationView>)

  /** The listing's own direction and error tests: wider than the stats
      endpoint's, they also accept INBOUND/OUTBOUND and any case of ERROR. */
  predicate ListedIn(m: Message) { m.direction == "IN" || m.direction == "INBOUND" }
  predicate ListedOut(m: Message) { m.direction == "OUT" || m.direction == "OUTBOUND" }
  predicate ListedError(m: Message) { ToUpper(m.status) == "ERROR" }

  /** The messages joined to one channel. */
  function MessagesOf(db: Db, channelId: int): seq<Message> {
    OfChannel(db.messages, channelId)
  }

  /** The rows of `ms` that belong to the channel, in order. */
  function OfChannel(ms: seq<Message>, channelId: int): (r: seq<Message>)
    ensures |r| <= |ms|
    ensures forall i :: 0 <= i < |r| ==> r[i].channelId == channelId
  {
    if ms == [] then [] else (if ms[0].channelId == channelId then [ms[0]] else []) + OfChannel(ms[1..], channelId)
  }

  /** Selecting a channel's rows distributes over concatenation. */
  lemma {:induction false} OfChannelAppend(a: seq<Message>, b: seq<Message>, channelId: int)
    ensures OfChannel(a + b, channelId) == OfChannel(a, channelId) + OfChannel(b, channelId)
  {
    if a != [] {
      assert (a + b)[1..] == a[1..] + b;
      OfChannelAppend(a[1..], b, channelId);
    } else {
      assert a + b == b;
    }
  }

  function DestinationViewOf(d: Destination): (v: DestinationView)
    ensures v.id == d.id && v.channelId == d.channelId && v.name == d.name
    ensures v.sent == d.totalSent && v.errors == d.totalError && v.isEnabled == d.enabled
  {
    DestinationView(d.id, d.channelId, d.name, d.kind, d.endpoint, d.outboundDataType,
                    d.totalSent, d.totalError, d.enabled,
                    OrText(d.processingScript, ""), OrText(d.responseScript, ""), OrText(d.templateScript, ""))
  }

  /** The listing's three counts for one channel; 0, not NULL, for a
      channel without messages. */
  function ListedReceived(db: Db, channelId: int): nat { Count(MessagesOf(db, channelId), ListedIn) }
  function ListedSent(db: Db, channelId: int): nat { Count(MessagesOf(db, channelId), ListedOut) }
  function ListedErrors(db: Db, channelId: int): nat { Count(MessagesOf(db, channelId), ListedError) }

  /** The channel's destination rows, in table order. */
  function DestinationsOf(db: Db, channelId: int): seq<Destination> {
    Filter(db.destinations, (d: Destination) => d.channelId == channelId)
  }

  /** One channel's entry: its counts and its destinations in table order. */
  function ChannelViewOf(db: Db, ch: Channel): (v: ChannelView)
    ensures v.id == ch.id && v.status == ch.status
    ensures v.received == ListedReceived(db, ch.id) && v.sent == ListedSent(db, ch.id) && v.errors == ListedErrors(db, ch.id)
    ensures |v.destinations| == |DestinationsOf(db, ch.id)|
  {
    var own := DestinationsOf(db, ch.id);
    ChannelView(ch.id, ch.name, ch.status, SourceInput(ch.sourceType, ch.sourceEndpoint, ch.inboundDataType),
                ch.processingScript, ch.responseScript,
                ListedReceived(db, ch.id), ListedSent(db, ch.id), ListedErrors(db, ch.id),
                DestinationViews(own))
  }

  /** Each destination row as the listing shows it, in order. */
  function DestinationViews(ds: seq<Destination>): (vs: seq<DestinationView>)
    ensures |vs| == |ds|
    ensures forall i :: 0 <= i < |ds| ==> vs[i].id == ds[i].id && vs[i].sent == ds[i].totalSent && vs[i].errors == ds[i].totalError
  {
    if ds == [] then [] else [DestinationViewOf(ds[0])] + DestinationViews(ds[1..])
  }

  /** `getAllChannels`: every channel once, newest first. Rows are appended
      in creation order and the store keeps no creation time, so the model
      takes creation times to grow strictly with each create: creation time
      descending is then the table reversed. */
  function ListChannels(db: Db): (vs: seq<ChannelView>)
    ensures |vs| == |db.channels|
  {
    MapNewestFirst(ViewIn(db), db.channels)
  }

  /** `ChannelViewOf` for a fixed store, as a function value. */
  function ViewIn(db: Db): (f: Channel -> ChannelView)
    ensures forall c :: f(c) == ChannelViewOf(db, c)
  {
    (c: Channel) => ChannelViewOf(db, c)
  }

  /** The channel in table row `j` is listed at position `|channels| - 1 - j`:
      the latest created comes first. */
  lemma ListedAt(db: Db, j: int)
    requires 0 <= j < |db.channels|
    ensures ListChannels(db)[|db.channels| - 1 - j] == ChannelViewOf(db, db.channels[j])
  {
    var f := ViewIn(db);
    MapNewestFirstAt(f, db.channels, j);
    assert f(db.channels[j]) == ChannelViewOf(db, db.channels[j]);
  }

  /** A created channel's destinations are exactly the rows the create
      inserted, when the store held none for its id. */
  lemma CreatedDestinations(db: Db, input: ChannelInput)
    requires input.source.Some? && input.destinations.Some?
    requires forall k :: 0 <= k < |db.destinations| ==> db.destinations[k].channelId != db.nextChannelId
    ensures |DestinationsOf(Created(db, input), db.nextChannelId)| == |input.destinations.value|
  {
    var out := Created(db, input);
    var n := |db.destinations|;
    var added := out.destinations[n..];
    assert out.destinations == db.destinations + added;
    assert forall i :: 0 <= i < |added| ==> added[i].channelId == db.nextChannelId by {
      forall i | 0 <= i < |added| ensures added[i].channelId == db.nextChannelId {
        assert added[i] == out.destinations[n + i];
        var e := NewDestination(db.nextDestinationId + i, db.nextChannelId, input.destinations.value[i]);
        assert out.destinations[n + i] == e;
      }
    }
    OwnRowsAppended(db.destinations, added, db.nextChannelId);
  }

  /** The rows of a channel that only the appended part mentions. */
  lemma OwnRowsAppended(a: seq<Destination>, b: seq<Destination>, c: int)
    requires forall k :: 0 <= k < |a| ==> a[k].channelId != c
    requires forall k :: 0 <= k < |b| ==> b[k].channelId == c
    ensures Filter(a + b, (d: Destination) => d.channelId == c) == b
  {
    var p := (d: Destination) => d.channelId == c;
    FilterAppend(a, b, p);
    FilterNone(a, p);
    FilterAll(b, p);
  }

  /** A created channel heads the listing, stopped, with one destination
      entry per submitted destination when the store held none for its id. */
  lemma CreatedChannelListedFirst(db: Db, input: ChannelInput)
    requires input.source.Some? && input.destinations.Some?
    requires forall k :: 0 <= k < |db.destinations| ==> db.destinations[k].channelId != db.nextChannelId
    ensures var vs := ListChannels(Created(db, input));
      && vs != []
      && vs[0].id == db.nextChannelId && vs[0].status == "Stopped"
      && |vs[0].destinations| == |input.destinations.value|
  {
    var out := Created(db, input);
    assert out.channels[|out.channels| - 1] == NewChannel(db.nextChannelId, input, input.source.value);
    ListedAt(out, |out.channels| - 1);
    CreatedDestinations(db, input);
  }

  /** Appending an IN row and an OUT row, neither an error, for one
      channel moves that channel's counts and no other's. */
  lemma ListedCountsAppend(db: Db, after: Db, added: seq<Message>, channelId: int, c: int)
    requires after.messages == db.messages + added
    requires |added| == 2 && added[0].channelId == channelId && added[1].channelId == channelId
    requires ListedIn(added[0]) && !ListedOut(added[0]) && !ListedError(added[0])
    requires !ListedIn(added[1]) && ListedOut(added[1]) && !ListedError(added[1])
    ensures ListedReceived(after, c) == ListedReceived(db, c) + (if c == channelId then 1 else 0)
    ensures ListedSent(after, c) == ListedSent(db, c) + (if c == channelId then 1 else 0)
    ensures ListedErrors(after, c) == ListedErrors(db, c)
  {
    OfChannelAppend(db.messages, added, c);
    var mine := OfChannel(added, c);
    assert added == [added[0], added[1]];
    assert mine == (if c == channelId then added else []);
    if c == channelId {
      MessageService.CountPair(added, ListedIn);
      MessageService.CountPair(added, ListedOut);
      MessageService.CountPair(added, ListedError);
    }
    CountAppend(MessagesOf(db, c), mine, ListedIn);
    CountAppend(MessagesOf(db, c), mine, ListedOut);
    CountAppend(MessagesOf(db, c), mine, ListedError);
  }

  /** A delivering pipeline run on a channel raises that channel's received
      and sent counts in the listing by one each and leaves its error count
      and every other channel's counts as they were. */
  lemma ListingCountsDeliveringRun(env: Oracles.Env, db: Db, channelId: int, payload: Value, c: int)
    requires Wf(db)
    requires FindChannel(db.channels, channelId).Some?
    requires MessageProcessor.Running(FindChannel(db.channels, channelId).value)
    requires MessageProcessor.ChannelTransform(env, FindChannel(db.channels, channelId).value, payload).Ok?
    ensures var after := MessageProcessor.ProcessInbound(env, db, channelId, payload).db;
      && ListedReceived(after, c) == ListedReceived(db, c) + (if c == channelId then 1 else 0)
      && ListedSent(after, c) == ListedSent(db, c) + (if c == channelId then 1 else 0)
      && ListedErrors(after, c) == ListedErrors(db, c)
  {
    MessageProcessor.DeliveringPair(env, db, channelId, payload);
    ListingCountsPair(db, MessageProcessor.ProcessInbound(env, db, channelId, payload).db, channelId, c);
  }

  /** Appending an inbound and an outbound SENT row of one channel. */
  lemma ListingCountsPair(db: Db, after: Db, channelId: int, c: int)
    requires var n := |db.messages|;
      && |after.messages| == n + 2 && after.messages[..n] == db.messages
      && after.messages[n].direction == "IN" && after.messages[n + 1].direction == "OUT"
      && after.messages[n].status == "SENT" && after.messages[n + 1].status == "SENT"
      && after.messages[n].channelId == channelId && after.messages[n + 1].channelId == channelId
    ensures ListedReceived(after, c) == ListedReceived(db, c) + (if c == channelId then 1 else 0)
    ensures ListedSent(after, c) == ListedSent(db, c) + (if c == channelId then 1 else 0)
    ensures ListedErrors(after, c) == ListedErrors(db, c)
  {
    var added := after.messages[|db.messages|..];
    assert after.messages == db.messages + added;
    assert |ToUpper(added[0].status)| == 4 && |ToUpper(added[1].status)| == 4;
    ListedCountsAppend(db, after, added, channelId, c);
  }
}

=== FILE: channel_table.dfy ===
/** The channel table (client/src/page/ChannelTable.tsx): each channel's
    status shown through a normalised indicator, a Start or Stop button that
    asks the server for the opposite state, Sent and Errors columns summed
    over the channel's destinations, and a per-destination script view that
    exists only when the destination has a script.
 */
module ChannelTable {
  import opened Values
  import opened Text
  import opened Store
  import MessageProcessor
  import ChannelService

  /** What `StatusIndicator` draws. */
  datatype Indicator = Indicator(classes: string, text: string, textColor: string)

  /** `(status || "").toString().trim().toUpperCase()` */
  function Normalized(status: Option<string>): string {
    ToUpper(Trim(if status.Some? then status.value else ""))
  }

  /** The indicator for a normalised status; anything unknown is drawn grey
      and labelled Stopped. */
  function IndicatorFor(status: Option<string>): (r: Indicator)
    ensures r.text == "Running" <==> Normalized(status) == "RUNNING"
    ensures r.text == "Error" <==> Normalized(status) == "ERROR"
    ensures r.text == "Stopped" <==> Normalized(status) != "RUNNING" && Normalized(status) != "ERROR"
  {
    var s := Normalized(status);
    if s == "RUNNING" then Indicator("bg-green-500 animate-pulse", "Running", "text-green-400")
    else if s == "STOPPED" then Indicator("bg-slate-500", "Stopped", "text-slate-400")
    else if s == "ERROR" then Indicator("bg-red-500", "Error", "text-red-400")
    else Indicator("bg-gray-600", "Stopped", "text-gray-400")
  }

  /** The indicator ignores surrounding white space and letter case. */
  lemma IndicatorNormalises(s: string)
    ensures IndicatorFor(Some(ToUpper(s))) == IndicatorFor(Some(s))
  {
    UpperTrim(s);
    ToUpperIdempotent(Trim(s));
  }

  /** Upper-casing commutes with trimming, as white space has no case. */
  lemma UpperTrim(s: string)
    ensures Trim(ToUpper(s)) == ToUpper(Trim(s))
  {
    UpperStart(s);
    UpperEnd(TrimStart(s));
  }

  /** White space has no case. */
  lemma WhiteUpper(c: char)
    ensures IsWhite(UpperChar(c)) <==> IsWhite(c)
  {
  }

  lemma {:induction false} UpperStart(s: string)
    ensures TrimStart(ToUpper(s)) == ToUpper(TrimStart(s))
  {
    if |s| > 0 {
      WhiteUpper(s[0]);
      UpperCons(s);
      if IsWhite(s[0]) {
        UpperStart(s[1..]);
      }
    }
  }

  /** The first step of `ToUpper`, with `TrimStart` on both sides. */
  lemma UpperCons(s: string)
    requires |s| > 0
    ensures ToUpper(s)[1..] == ToUpper(s[1..])
    ensures IsWhite(s[0]) ==> TrimStart(ToUpper(s)) == TrimStart(ToUpper(s)[1..]) && TrimStart(s) == TrimStart(s[1..])
    ensures !IsWhite(s[0]) ==> TrimStart(ToUpper(s)) == ToUpper(s) && TrimStart(s) == s
  {
    WhiteUpper(s[0]);
  }

  lemma {:induction false} UpperEnd(s: string)
    ensures TrimEnd(ToUpper(s)) == ToUpper(TrimEnd(s))
  {
    if |s| > 0 {
      var u := ToUpper(s);
      var n := |s| - 1;
      UpperInit(s);
      WhiteUpper(s[n]);
      TrimEndStep(s);
      TrimEndStep(u);
      if IsWhite(s[n]) {
        UpperEnd(s[..n]);
      }
    }
  }

  /** Upper-casing all but the last character. */
  lemma UpperInit(s: string)
    requires |s| > 0
    ensures ToUpper(s)[..|s| - 1] == ToUpper(s[..|s| - 1])
    ensures ToUpper(s)[|s| - 1] == UpperChar(s[|s| - 1])
  {
  }

  /** Start is offered for a status that upper-cases to STOPPED or ERROR;
      otherwise, a missing status included, Stop is. The test does not trim. */
  predicate OffersStart(status: Option<string>) {
    status.Some? && (ToUpper(status.value) == "STOPPED" || ToUpper(status.value) == "ERROR")
  }

  /** The status the button sends. */
  function Requested(status: Option<string>): (r: string)
    ensures r == "RUNNING" <==> OffersStart(status)
    ensures r == "STOPPED" <==> !OffersStart(status)
  {
    if OffersStart(status) then "RUNNING" else "STOPPED"
  }

  /** The indicator and the button can disagree: any spelling of STOPPED
      with a leading blank shows as Stopped yet offers Stop. */
  lemma LeadingBlankDisagrees(x: string)
    requires ToUpper(x) == "STOPPED"
    ensures IndicatorFor(Some([' '] + x)).text == "Stopped"
    ensures !OffersStart(Some([' '] + x))
  {
    BlankStoppedNormalizes(x);
    BlankOffersStop(x);
  }

  /** A spelling of STOPPED has seven characters and no white space at
      either end. */
  lemma StoppedEnds(x: string)
    requires ToUpper(x) == "STOPPED"
    ensures |x| == 7 && !IsWhite(x[0]) && !IsWhite(x[6])
  {
    assert ToUpper(x)[0] == 'S';
    assert ToUpper(x)[6] == 'D';
    WhiteUpper(x[0]);
    WhiteUpper(x[6]);
  }

  lemma BlankOffersStop(x: string)
    requires ToUpper(x) == "STOPPED"
    ensures !OffersStart(Some([' '] + x))
  {
    StoppedEnds(x);
    assert |ToUpper([' '] + x)| == 8;
  }

  lemma BlankStoppedNormalizes(x: string)
    requires ToUpper(x) == "STOPPED"
    ensures Normalized(Some([' '] + x)) == "STOPPED"
  {
    StoppedEnds(x);
    var s := [' '] + x;
    assert s[1..] == x;
    TrimStartStep(s);
    TrimStartStep(x);
    TrimEndStep(x);
  }

  /** So does any status the indicator does not know, such as PAUSED, even
      when it is already upper-case and without outer blanks: it shows as
      Stopped, yet the button offers Stop. */
  lemma UnknownDisagrees(t: string)
    requires t != [] && !IsWhite(t[0]) && !IsWhite(t[|t| - 1]) && ToUpper(t) == t
    requires t != "RUNNING" && t != "STOPPED" && t != "ERROR"
    ensures IndicatorFor(Some(t)).text == "Stopped"
    ensures !OffersStart(Some(t))
  {
    PlainNormalized(t);
  }

  /** A status without lower-case letters or white space at its ends is its
      own normal form. */
  lemma PlainNormalized(t: string)
    requires t != [] && !IsWhite(t[0]) && !IsWhite(t[|t| - 1])
    requires ToUpper(t) == t
    ensures Normalized(Some(t)) == t
  {
    TrimStartStep(t);
    TrimEndStep(t);
  }

  /** Whatever the channel's status, the server accepts what the button
      asks for, and afterwards the channel runs exactly when Start was
      offered. */
  lemma ButtonReachesServer(db: Db, id: nat, status: Option<string>)
    requires FindChannel(db.channels, id).Some?
    ensures var r := ChannelService.UpdateStatus(db, id, Str(Requested(status)));
      && r.0.status == 200
      && FindChannel(r.1.channels, id).Some?
      && (MessageProcessor.Running(FindChannel(r.1.channels, id).value) <==> OffersStart(status))
  {
    var s := Requested(status);
    RequestedValid(status);
    ChannelService.StatusGatesPipeline(db, id, s);
  }

  /** Both requests are already in the server's spelling. */
  lemma RequestedValid(status: Option<string>)
    ensures ToUpper(Requested(status)) == Requested(status)
    ensures Requested(status) in ChannelService.ValidStatuses
    ensures Truthy(Str(Requested(status)))
  {
    if OffersStart(status) {
      assert ToUpper("RUNNING") == "RUNNING" by { UpperOfUpper("RUNNING"); }
    } else {
      assert ToUpper("STOPPED") == "STOPPED" by { UpperOfUpper("STOPPED"); }
    }
  }

  /** A destination as the client holds it; the counters may be missing. */
  datatype ClientDestination = ClientDestination(sent: Option<int>, errors: Option<int>, processingScript: Option<string>)

  function SentOf(d: ClientDestination): int {
    if d.sent.Some? then d.sent.value else 0
  }

  function ErrorsOf(d: ClientDestination): int {
    if d.errors.Some? then d.errors.value else 0
  }

  /** `reduce((total, dest) => total + (dest.sent ?? 0), 0)` */
  function SumSent(ds: seq<ClientDestination>): int {
    if ds == [] then 0 else SumSent(ds[..|ds| - 1]) + SentOf(ds[|ds| - 1])
  }

  function SumErrors(ds: seq<ClientDestination>): int {
    if ds == [] then 0 else SumErrors(ds[..|ds| - 1]) + ErrorsOf(ds[|ds| - 1])
  }

  /** The Sent and Errors cells; a missing list shows 0. */
  function Totals(ds: Option<seq<ClientDestination>>): (r: (int, int))
    ensures ds.None? ==> r == (0, 0)
    ensures ds.Some? ==> r == (SumSent(ds.value), SumErrors(ds.value))
  {
    if ds.None? then (0, 0) else (SumSent(ds.value), SumErrors(ds.value))
  }

  /** The sums split over concatenation, so each destination adds its own
      counters once. */
  lemma {:induction false} SumsAppend(a: seq<ClientDestination>, b: seq<ClientDestination>)
    ensures SumSent(a + b) == SumSent(a) + SumSent(b)
    ensures SumErrors(a + b) == SumErrors(a) + SumErrors(b)
    decreases |b|
  {
    if b != [] {
      var n := |b| - 1;
      assert (a + b)[..|a + b| - 1] == a + b[..n];
      SumsAppend(a, b[..n]);
    } else {
      assert a + b == a;
    }
  }

  /** Destinations reporting no counters add nothing. */
  lemma {:induction false} MissingCountersAddNothing(ds: seq<ClientDestination>)
    requires forall k :: 0 <= k < |ds| ==> ds[k].sent.None? && ds[k].errors.None?
    ensures Totals(Some(ds)) == (0, 0)
  {
    if ds != [] {
      MissingCountersAddNothing(ds[..|ds| - 1]);
    }
  }

  /** The View button exists only for a destination with a non-empty script. */
  predicate ScriptButtonShown(d: ClientDestination) {
    d.processingScript.Some? && d.processingScript.value != ""
  }

  /** The script row: the button's toggle is on and there is a script. */
  predicate ScriptRowShown(visible: bool, d: ClientDestination) {
    visible && ScriptButtonShown(d)
  }

  /** The button's toggle, pressed `clicks` times from hidden. */
  function VisibleAfter(clicks: nat): (v: bool)
    ensures v <==> clicks % 2 == 1
  {
    if clicks == 0 then false else !VisibleAfter(clicks - 1)
  }

  /** Clicks can only be made on a shown button, so a destination without a
      script never shows the row; with one, the row follows the clicks. */
  lemma ScriptRowFollowsClicks(d: ClientDestination, clicks: nat)
    ensures var shown := ScriptRowShown(VisibleAfter(if ScriptButtonShown(d) then clicks else 0), d);
      shown <==> ScriptButtonShown(d) && clicks % 2 == 1
  {
  }
}

=== FILE: destination_service.dfy ===
/** Manual send (server/src/services/destination.services.ts,
    `sendToDestinations`): post a payload to every enabled destination of a
    channel, log and count each attempt, and mark the message SENT.
 */
module DestinationService {
  import opened Values
  import opened Store
  import opened Oracles
  import MessageProcessor
  import MessageService

  /** The request body. `channelId` and `payload` are taken as sent;
      `messageId` is the message row to mark, `None` when absent or null. */
  datatype SendRequest = SendRequest(channelId: Value, messageId: Option<int>, payload: Value)

  /** The channel the destination query matches: a numeric id, or none. */
  function ChannelKey(v: Value): Option<int> {
    if v.Num? then Some(v.n) else None
  }

  /** `SELECT * FROM Destinations WHERE channel_id = @channel_id AND
      is_enabled = 1` for the requested id. */
  function Targets(db: Db, channelId: Value): (ds: seq<Destination>)
    ensures ChannelKey(channelId).None? ==> ds == []
    ensures ChannelKey(channelId).Some? ==> ds == EnabledDestinations(db, ChannelKey(channelId).value)
  {
    match ChannelKey(channelId)
    case None => []
    case Some(id) => EnabledDestinations(db, id)
  }

  /** The plain axios POST the manual send uses: no timeout and no explicit
      content type, whatever the destination's type. */
  function Post(env: Env, d: Destination, payload: Value): Result<string> {
    env.post(HttpPost(d.endpoint, payload, None, false))
  }

  /** The outcome of each destination's POST, in query order. */
  function Outcomes(env: Env, ds: seq<Destination>, payload: Value): (os: seq<Result<string>>)
    ensures |os| == |ds|
    ensures forall i :: 0 <= i < |ds| ==> os[i] == Post(env, ds[i], payload)
  {
    seq(|ds|, i requires 0 <= i < |ds| => Post(env, ds[i], payload))
  }

  /** The log row for one attempt: SUCCESS with the stringified response or
      ERROR with the error message, tied to the caller's message id. */
  function Row(messageId: Option<int>, d: Destination, o: Result<string>): (row: DestinationLog)
    ensures row.messageId == messageId && row.destinationId == d.id
    ensures row.status == "SUCCESS" <==> o.Ok?
    ensures row.status == "ERROR" <==> o.Err?
  {
    match o
    case Ok(text) => DestinationLog(messageId, d.id, "SUCCESS", text)
    case Err(e) => DestinationLog(messageId, d.id, "ERROR", e)
  }

  function Rows(messageId: Option<int>, ds: seq<Destination>, os: seq<Result<string>>): (rows: seq<DestinationLog>)
    requires |os| == |ds|
    ensures |rows| == |ds|
  {
    if ds == [] then [] else [Row(messageId, ds[0], os[0])] + Rows(messageId, ds[1..], os[1..])
  }

  lemma {:induction false} RowsAt(messageId: Option<int>, ds: seq<Destination>, os: seq<Result<string>>, i: int)
    requires |os| == |ds| && 0 <= i < |ds|
    ensures Rows(messageId, ds, os)[i] == Row(messageId, ds[i], os[i])
  {
    if i > 0 {
      RowsAt(messageId, ds[1..], os[1..], i - 1);
    }
  }

  /** The send loop: each attempt is logged and counted; a failure does not
      stop the loop and does not touch the message row. */
  function Sweep(messageId: Option<int>, db: Db, ds: seq<Destination>, os: seq<Result<string>>): (out: Db)
    requires |os| == |ds|
    ensures SameChannels(out, db) && out.messages == db.messages
    ensures |out.destinations| == |db.destinations|
    decreases |ds|
  {
    if ds == [] then db
    else
      var db1 := Bump(AppendLog(db, Row(messageId, ds[0], os[0])), ds[0].id, os[0].Ok?);
      Sweep(messageId, db1, ds[1..], os[1..])
  }

  /** One log row per destination, in query order. */
  lemma {:induction false} SweepLogs(messageId: Option<int>, db: Db, ds: seq<Destination>, os: seq<Result<string>>)
    requires |os| == |ds|
    ensures Sweep(messageId, db, ds, os).logs == db.logs + Rows(messageId, ds, os)
    decreases |ds|
  {
    if ds != [] {
      var db1 := Bump(AppendLog(db, Row(messageId, ds[0], os[0])), ds[0].id, os[0].Ok?);
      SweepLogs(messageId, db1, ds[1..], os[1..]);
      assert Rows(messageId, ds, os) == [Row(messageId, ds[0], os[0])] + Rows(messageId, ds[1..], os[1..]);
      assert db1.logs + Rows(messageId, ds[1..], os[1..]) == db.logs + Rows(messageId, ds, os);
    }
  }

  /** Each destination's counters grow by its own successes and failures. */
  lemma {:induction false} SweepCounters(messageId: Option<int>, db: Db, ds: seq<Destination>, os: seq<Result<string>>, k: int)
    requires |os| == |ds|
    requires 0 <= k < |db.destinations|
    ensures var d := db.destinations[k];
      Sweep(messageId, db, ds, os).destinations[k] ==
        d.(totalSent := d.totalSent + MessageProcessor.Oks(ds, os, d.id),
           totalError := d.totalError + MessageProcessor.Errs(ds, os, d.id))
    decreases |ds|
  {
    if ds != [] {
      var db1 := Bump(AppendLog(db, Row(messageId, ds[0], os[0])), ds[0].id, os[0].Ok?);
      var d := db.destinations[k];
      SweepCounters(messageId, db1, ds[1..], os[1..], k);
      assert Sweep(messageId, db, ds, os) == Sweep(messageId, db1, ds[1..], os[1..]);
      assert db1.destinations[k] == if d.id != ds[0].id then d
        else if os[0].Ok? then d.(totalSent := d.totalSent + 1) else d.(totalError := d.totalError + 1);
      assert MessageProcessor.Oks(ds, os, d.id)
        == (if ds[0].id == d.id && os[0].Ok? then 1 else 0) + MessageProcessor.Oks(ds[1..], os[1..], d.id);
      assert MessageProcessor.Errs(ds, os, d.id)
        == (if ds[0].id == d.id && os[0].Err? then 1 else 0) + MessageProcessor.Errs(ds[1..], os[1..], d.id);
    }
  }

  /** The entry pushed onto the results list for one attempt. */
  function ResultEntry(d: Destination, o: Result<string>): (v: Value)
    ensures v.Object? && "destination" in v.props && "status" in v.props
    ensures v.props["destination"] == Str(d.name)
    ensures v.props["status"] == Str(if o.Ok? then "SUCCESS" else "ERROR")
    ensures "error" in v.props <==> o.Err?
  {
    match o
    case Ok(_) => Object(map["destination" := Str(d.name), "status" := Str("SUCCESS")])
    case Err(e) => Object(map["destination" := Str(d.name), "status" := Str("ERROR"), "error" := Str(e)])
  }

  const MissingFields: string := "channelId dan payload wajib diisi."
  const NoDestinations: string := "Tidak ada destination aktif untuk channel ini."
  const AllSent: string := "Payload sent to all destinations"

  /** `sendToDestinations` */
  function SendToDestinations(env: Env, db: Db, req: SendRequest): (r: (MessageService.HttpReply, Db))
    ensures r.0.status == 400 <==> !Truthy(req.channelId) || !Truthy(req.payload)
    ensures r.0.status == 400 ==> r == (MessageService.HttpReply(400, MessageService.MessageBody(MissingFields)), db)
    ensures r.0.status == 404 <==> Truthy(req.channelId) && Truthy(req.payload) && Targets(db, req.channelId) == []
    ensures r.0.status == 404 ==> r.1 == db
    ensures r.0.status in {200, 400, 404}
  {
    if !Truthy(req.channelId) || !Truthy(req.payload) then
      (MessageService.HttpReply(400, MessageService.MessageBody(MissingFields)), db)
    else
      var ds := Targets(db, req.channelId);
      if ds == [] then (MessageService.HttpReply(404, MessageService.MessageBody(NoDestinations)), db)
      else
        var os := Outcomes(env, ds, req.payload);
        var db1 := Sweep(req.messageId, db, ds, os);
        var db2 := match req.messageId
          case None => db1
          case Some(m) => SetMessageStatus(db1, m, "SENT");
        var results := seq(|ds|, i requires 0 <= i < |ds| => ResultEntry(ds[i], os[i]));
        (MessageService.HttpReply(200, Object(map["message" := Str(AllSent), "results" := List(results)])), db2)
  }

  /** A valid manual send with at least one enabled destination: one
      result entry per destination in query order, SUCCESS or ERROR as its
      POST went; one log row each; each destination's counters raised by
      its own successes and failures; and the message row marked SENT
      whatever failed. */
  lemma ManualSendEffects(env: Env, db: Db, req: SendRequest)
    requires Truthy(req.channelId) && Truthy(req.payload)
    requires Targets(db, req.channelId) != []
    ensures var ds := Targets(db, req.channelId);
      var os := Outcomes(env, ds, req.payload);
      var r := SendToDestinations(env, db, req);
      && r.0.status == 200
      && r.0.body.Object? && "results" in r.0.body.props
      && r.0.body.props["results"] == List(seq(|ds|, i requires 0 <= i < |ds| => ResultEntry(ds[i], os[i])))
      && r.1.logs == db.logs + Rows(req.messageId, ds, os)
      && |r.1.destinations| == |db.destinations|
      && (forall k :: 0 <= k < |db.destinations| ==>
           var d := db.destinations[k];
           r.1.destinations[k] == d.(totalSent := d.totalSent + MessageProcessor.Oks(ds, os, d.id),
                                     totalError := d.totalError + MessageProcessor.Errs(ds, os, d.id)))
      && |r.1.messages| == |db.messages|
      && (forall k :: 0 <= k < |db.messages| ==>
           r.1.messages[k] == if Some(db.messages[k].id) == req.messageId
             then db.messages[k].(status := "SENT") else db.messages[k])
  {
    var ds := Targets(db, req.channelId);
    var os := Outcomes(env, ds, req.payload);
    SweepLogs(req.messageId, db, ds, os);
    forall k | 0 <= k < |db.destinations|
      ensures var d := db.destinations[k];
        Sweep(req.messageId, db, ds, os).destinations[k] ==
          d.(totalSent := d.totalSent + MessageProcessor.Oks(ds, os, d.id),
             totalError := d.totalError + MessageProcessor.Errs(ds, os, d.id))
    {
      SweepCounters(req.messageId, db, ds, os, k);
    }
  }

  /** In a well-formed store every destination in the query gets exactly
      one counter increment, and every other destination none. */
  lemma ManualSendCountsOnce(env: Env, db: Db, req: SendRequest, k: int)
    requires Wf(db)
    requires Truthy(req.channelId) && Truthy(req.payload)
    requires ChannelKey(req.channelId).Some? && Targets(db, req.channelId) != []
    requires 0 <= k < |db.destinations|
    ensures var d := db.destinations[k];
      var d' := SendToDestinations(env, db, req).1.destinations[k];
      d'.totalSent + d'.totalError
        == d.totalSent + d.totalError + (if IsEnabledOf(ChannelKey(req.channelId).value, d) then 1 else 0)
  {
    ManualSendEffects(env, db, req);
    var ds := Targets(db, req.channelId);
    var os := Outcomes(env, ds, req.payload);
    MessageProcessor.OksPlusErrs(ds, os, db.destinations[k].id);
    MessageProcessor.OccurrencesInFilter(db.destinations, d => IsEnabledOf(ChannelKey(req.channelId).value, d), k);
  }
}

=== FILE: dummy_receiver.dfy ===
/** The dummy HL7 receiver (server/dummy-hl7-receiver.js): a TCP endpoint
    that destinations of type TCP can be pointed at. Every `data` event is
    treated as one whole message: the MLLP control characters are cleaned
    out, the message is logged, and an ACK whose code depends on the text
    is written back before the socket is ended.
 */
module DummyReceiver {
  import opened Text
  import opened Seqs
  import Hl7Listener

  const VT: char := '\U{0B}'
  const FS: char := '\U{1C}'

  /** `.replace(/\u000b/g, "")` */
  function DropStartBlocks(s: string): (r: string)
    ensures Free(r, VT)
    ensures forall c :: Free(s, c) ==> Free(r, c)
    ensures Free(s, VT) ==> r == s
  {
    var r := Filter(s, (x: char) => x != VT);
    assert Free(s, VT) ==> r == s by {
      if Free(s, VT) { FilterAll(s, (x: char) => x != VT); }
    }
    assert forall c :: Free(s, c) ==> Free(r, c) by {
      forall c | Free(s, c) ensures Free(r, c) {
        forall k | 0 <= k < |r| ensures r[k] != c {
          assert r[k] in s;
        }
      }
    }
    r
  }

  /** `.replace(/\u001c\r?/g, "")`: every end-block character goes, and so
      does a carriage return right after one; other carriage returns stay. */
  function DropEndBlocks(s: string): (r: string)
    ensures Free(r, FS)
    ensures forall c :: Free(s, c) ==> Free(r, c)
    ensures |r| <= |s|
    ensures Free(s, FS) ==> r == s
    decreases |s|
  {
    if s == [] then []
    else if s[0] == FS then
      if |s| > 1 && s[1] == '\r' then DropEndBlocks(s[2..]) else DropEndBlocks(s[1..])
    else
      var rest := DropEndBlocks(s[1..]);
      assert forall c :: Free(s, c) ==> Free(s[1..], c);
      [s[0]] + rest
  }

  /** A prefix without end blocks passes through unchanged. */
  lemma {:induction false} DropEndBlocksAppend(a: string, b: string)
    requires Free(a, FS)
    ensures DropEndBlocks(a + b) == a + DropEndBlocks(b)
    decreases |a|
  {
    if a != [] {
      assert (a + b)[0] == a[0];
      assert (a + b)[1..] == a[1..] + b;
      DropEndBlocksAppend(a[1..], b);
    } else {
      assert a + b == b;
    }
  }

  /** At the first end block the text before it is kept, the end block
      goes, so does one carriage return right after it, and the rest is
      cleaned the same way. With `Free(s, FS) ==> r == s` this pins the
      result down completely: no other character is removed. */
  lemma DropEndBlocksAt(a: string, b: string)
    requires Free(a, FS)
    ensures DropEndBlocks(a + [FS] + b) == a + DropEndBlocks(if b != [] && b[0] == '\r' then b[1..] else b)
  {
    assert a + [FS] + b == a + ([FS] + b);
    DropEndBlocksAppend(a, [FS] + b);
    assert ([FS] + b)[1..] == b;
    if b != [] && b[0] == '\r' {
      assert ([FS] + b)[2..] == b[1..];
    }
  }

  /** `.replace(/\r/g, "\n")` */
  function CrToLf(s: string): (r: string)
    ensures |r| == |s|
    ensures forall k :: 0 <= k < |s| ==> r[k] == if s[k] == '\r' then '\n' else s[k]
  {
    seq(|s|, k requires 0 <= k < |s| => if s[k] == '\r' then '\n' else s[k])
  }

  /** The cleaned message: no start block, no end block and no carriage
      return survives; segments end up separated by line feeds. */
  function Clean(data: string): (r: string)
    ensures Free(r, VT) && Free(r, FS) && Free(r, '\r')
  {
    var a := DropStartBlocks(data);
    var b := DropEndBlocks(a);
    var c := CrToLf(b);
    assert Free(c, VT) && Free(c, FS) && Free(c, '\r');
    TrimKeepsOut(c, VT);
    TrimKeepsOut(c, FS);
    TrimKeepsOut(c, '\r');
    Trim(c)
  }

  /** A message framed the way the listener frames replies, with a body free
      of the two block characters, cleans to the body with line feeds for
      carriage returns, trimmed. */
  lemma CleanFrame(body: string)
    requires Free(body, VT) && Free(body, FS)
    ensures Clean(Hl7Listener.Frame(body)) == Trim(CrToLf(body))
  {
    var f := Hl7Listener.Frame(body);
    var p := (x: char) => x != VT;
    assert f == [VT] + (body + [FS, '\r']);
    FilterAppend([VT], body + [FS, '\r'], p);
    assert Filter([VT], p) == [];
    FilterAll(body + [FS, '\r'], p);
    assert DropStartBlocks(f) == body + [FS, '\r'];
    DropEndBlocksAppend(body, [FS, '\r']);
    assert DropEndBlocks([FS, '\r']) == [];
    assert body + [] == body;
  }

  /** The acknowledgement code: AE when the text mentions ERROR, otherwise AR
      when it mentions REJECT, otherwise AA. */
  function AckCode(message: string): string {
    if Mentions(message, "ERROR") then "AE" else if Mentions(message, "REJECT") then "AR" else "AA"
  }

  /** `s.includes(p)`, scanning from the left. */
  predicate Mentions(s: string, p: string)
    decreases |s|
  {
    |p| <= |s| && (s[..|p|] == p || (s != [] && Mentions(s[1..], p)))
  }

  /** The scan finds exactly the occurrences `Contains` speaks of. */
  lemma {:induction false} MentionsContains(s: string, p: string)
    ensures Mentions(s, p) <==> Contains(s, p)
    decreases |s|
  {
    if |p| <= |s| {
      if s != [] {
        var t := s[1..];
        MentionsContains(t, p);
        if Contains(t, p) {
          var i :| 0 <= i <= |t| - |p| && OccursAt(t, p, i);
          OccursShift(s, p, i);
        }
        if Contains(s, p) && s[..|p|] != p {
          var i :| 0 <= i <= |s| - |p| && OccursAt(s, p, i);
          assert i != 0;
          OccursShift(s, p, i - 1);
        }
        assert s[..|p|] == p ==> OccursAt(s, p, 0);
      } else {
        assert OccursAt(s, p, 0);
      }
    }
  }

  /** An occurrence in the tail is an occurrence one place further on in
      the whole text, and the other way round. */
  lemma OccursShift(s: string, p: string, i: int)
    requires s != [] && 0 <= i
    ensures OccursAt(s[1..], p, i) <==> OccursAt(s, p, i + 1)
  {
    var t := s[1..];
    if i + |p| <= |t| {
      var a := t[i..i + |p|];
      var b := s[i + 1..i + 1 + |p|];
      assert a == b;
    }
  }

  /** ERROR wins over REJECT; a message mentioning neither is accepted. */
  lemma AckCodePrecedence(message: string)
    ensures AckCode(message) == "AE" <==> Contains(message, "ERROR")
    ensures AckCode(message) == "AR" <==> !Contains(message, "ERROR") && Contains(message, "REJECT")
    ensures AckCode(message) == "AA" <==> !Contains(message, "ERROR") && !Contains(message, "REJECT")
  {
    MentionsContains(message, "ERROR");
    MentionsContains(message, "REJECT");
  }

  /** The text that goes with each code. */
  function AckText(code: string): string {
    if code == "AA" then "Message accepted" else if code == "AE" then "Application error" else "Application reject"
  }

  /** The reply's MSH segment: sending application DummyHL7, facility
      Receiver, receiving MiniMirth/LOCAL, message type ACK^A01, a control
      id taken from the clock, processing id P, version 2.3. */
  function ReplyHeaderFields(ts: string, controlId: nat): seq<string> {
    ["MSH", "^~\\&", "DummyHL7", "Receiver", "MiniMirth", "LOCAL", ts, "", "ACK^A01", NatToString(controlId), "P", "2.3"]
  }

  function ReplyAckFields(code: string, controlId: nat): seq<string> {
    ["MSA", code, NatToString(controlId), AckText(code)]
  }

  /** The text inside the frame: MSH and MSA, each ended by a carriage return. */
  function ReplyBody(ts: string, code: string, headerId: nat, ackId: nat): string {
    Join([Join(ReplyHeaderFields(ts, headerId), '|'), Join(ReplyAckFields(code, ackId), '|'), ""], '\r')
  }

  /** The clock readings one `data` event takes: the log timestamp, the MSH
      timestamp and the two `Date.now()` values used as control ids. */
  datatype Clock = Clock(loggedAt: string, stampedAt: string, headerId: nat, ackId: nat)

  /** The bytes written back. */
  function Reply(message: string, clock: Clock): (r: string)
    ensures r == Hl7Listener.Frame(ReplyBody(clock.stampedAt, AckCode(message), clock.headerId, clock.ackId))
  {
    [VT] + ReplyBody(clock.stampedAt, AckCode(message), clock.headerId, clock.ackId) + [FS, '\r']
  }

  /** A rendered number holds no separator. */
  lemma DigitsFree(n: nat, c: char)
    requires !('0' <= c <= '9')
    ensures Free(NatToString(n), c)
  {
  }

  /** The reply's MSA segment carries the code, the clock's control id and
      the text that goes with the code. */
  lemma ReplyCarriesCode(message: string, clock: Clock)
    requires Free(clock.stampedAt, '|') && Free(clock.stampedAt, '\r')
    ensures var body := ReplyBody(clock.stampedAt, AckCode(message), clock.headerId, clock.ackId);
      Hl7Listener.SegmentFields(body, 1) == ["MSA", AckCode(message), NatToString(clock.ackId), AckText(AckCode(message))]
  {
    var code := AckCode(message);
    var h := ReplyHeaderFields(clock.stampedAt, clock.headerId);
    var msa := ReplyAckFields(code, clock.ackId);
    HeaderLineFree(clock.stampedAt, clock.headerId);
    AckFieldsFree(code, clock.ackId);
    JoinFree(msa, '|', '\r');
    var segs := [Join(h, '|'), Join(msa, '|'), ""];
    assert forall k :: 0 <= k < 3 ==> Free(segs[k], '\r');
    JoinSplit(segs, '\r');
    JoinSplit(msa, '|');
  }

  /** The MSH line holds no carriage return. */
  lemma HeaderLineFree(ts: string, controlId: nat)
    requires Free(ts, '|') && Free(ts, '\r')
    ensures Free(Join(ReplyHeaderFields(ts, controlId), '|'), '\r')
  {
    var h := ReplyHeaderFields(ts, controlId);
    DigitsFree(controlId, '|');
    DigitsFree(controlId, '\r');
    assert forall k :: 0 <= k < 12 ==> Free(h[k], '|') && Free(h[k], '\r');
    JoinFree(h, '|', '\r');
  }

  /** No MSA field holds a field or segment separator. */
  lemma AckFieldsFree(code: string, controlId: nat)
    requires code == "AA" || code == "AE" || code == "AR"
    ensures var msa := ReplyAckFields(code, controlId);
      forall k :: 0 <= k < 4 ==> Free(msa[k], '|') && Free(msa[k], '\r')
  {
    DigitsFree(controlId, '|');
    DigitsFree(controlId, '\r');
  }

  /** One entry of the in-memory log. */
  datatype LogEntry = LogEntry(message: string, receivedAt: string, ackType: string)

  /** One connection's accumulated data and the process-wide log. */
  datatype Receiver = Receiver(rawData: string, logs: seq<LogEntry>)

  /** The entry logged for one message. */
  function EntryFor(message: string, loggedAt: string): (e: LogEntry)
    ensures e.message == message && e.receivedAt == loggedAt && e.ackType == AckCode(message)
  {
    LogEntry(message, loggedAt, AckCode(message))
  }

  /** The state one `data` event leaves: the chunk appended to the
      connection's data and the cleaned text logged. */
  function Logged(st: Receiver, chunk: string, clock: Clock): (out: Receiver)
    ensures out.rawData == st.rawData + chunk
    ensures out.logs == st.logs + [EntryFor(Clean(chunk), clock.loggedAt)]
  {
    Receiver(st.rawData + chunk, st.logs + [EntryFor(Clean(chunk), clock.loggedAt)])
  }

  /** One `data` event: the new state and the reply written back, whose
      code is the one logged. */
  function OnChunk(st: Receiver, chunk: string, clock: Clock): (r: (Receiver, string))
    ensures r.0 == Logged(st, chunk, clock)
    ensures r.1 == Reply(r.0.logs[|st.logs|].message, clock)
  {
    (Logged(st, chunk, clock), Reply(Clean(chunk), clock))
  }

  /** The code written into the log for a `data` event is the code of the
      reply sent for it, in the reply's MSA segment, next to the text for
      that code. */
  lemma LoggedCodeIsReplied(st: Receiver, chunk: string, clock: Clock)
    requires Free(clock.stampedAt, '|') && Free(clock.stampedAt, '\r')
    ensures var r := OnChunk(st, chunk, clock);
      var e := r.0.logs[|st.logs|];
      var body := ReplyBody(clock.stampedAt, e.ackType, clock.headerId, clock.ackId);
      && r.1 == Hl7Listener.Frame(body)
      && Hl7Listener.SegmentFields(body, 1) == ["MSA", e.ackType, NatToString(clock.ackId), AckText(e.ackType)]
  {
    var message := Clean(chunk);
    ReplyCarriesCode(message, clock);
  }
}

=== FILE: hl7_converter.dfy ===
/** The HL7 <-> JSON converter (server/src/utils/hl7Converer.ts).

    The `simple-hl7` parser and serialiser are foreign code: parsing is an
    input (`Ok(segments)` or `Err(message)` for a parse that threw), and
    serialising is an oracle applied to the message the converter builds.
 */
module Hl7Converter {
  import opened Values

  /** A parsed segment: its name and its field values in order. */
  datatype Segment = Segment(name: string, fields: seq<string>)

  /** `seg.fields[i] || ""`: a missing index and an empty field both give "". */
  function Field(seg: Segment, i: nat): string {
    if i < |seg.fields| then seg.fields[i] else ""
  }

  /** The patient fields read from a PID segment. */
  datatype Patient = Patient(patientId: string, name: string, dob: string, gender: string)

  /** PID fields 2, 4, 6 and 7 become patientId, name, dob and gender. */
  function PatientOf(seg: Segment): Patient {
    Patient(Field(seg, 2), Field(seg, 4), Field(seg, 6), Field(seg, 7))
  }

  /** What the extraction loop has assigned so far: the patient keys are set
      together by a PID segment, `hl7type` by an MSH segment. */
  datatype Summary = Summary(patient: Option<Patient>, hl7type: Option<string>)

  /** `i` is the position of the last segment named `name`. */
  predicate IsLast(segs: seq<Segment>, name: string, i: int) {
    0 <= i < |segs| && segs[i].name == name &&
    forall j :: i < j < |segs| ==> segs[j].name != name
  }

  /** Some segment is named `name`. */
  predicate Has(segs: seq<Segment>, name: string) {
    exists i :: 0 <= i < |segs| && segs[i].name == name
  }

  /** The extraction loop over the segments in input order. A later segment
      of the same name overwrites what an earlier one assigned, so the keys
      come from the LAST PID and the LAST MSH segment. */
  function Summarise(segs: seq<Segment>): (r: Summary)
    ensures r.patient.Some? <==> Has(segs, "PID")
    ensures r.patient.Some? ==>
      exists i :: IsLast(segs, "PID", i) && r.patient.value == PatientOf(segs[i])
    ensures r.hl7type.Some? <==> Has(segs, "MSH")
    ensures r.hl7type.Some? ==>
      exists i :: IsLast(segs, "MSH", i) && r.hl7type.value == Field(segs[i], 7)
  {
    if segs == [] then Summary(None, None)
    else
      var init := segs[..|segs| - 1];
      var seg := segs[|segs| - 1];
      var s := Summarise(init);
      assert forall i :: 0 <= i < |init| ==> init[i] == segs[i];
      assert Has(segs, seg.name) by { assert segs[|segs| - 1].name == seg.name; }
      assert IsLast(segs, seg.name, |segs| - 1);
      assert forall n :: n != seg.name ==> (Has(segs, n) <==> Has(init, n)) by {
        forall n | n != seg.name ensures Has(segs, n) <==> Has(init, n) {
          if Has(segs, n) {
            var i :| 0 <= i < |segs| && segs[i].name == n;
            assert init[i].name == n;
          }
        }
      }
      assert forall n, i :: n != seg.name && IsLast(init, n, i) ==> IsLast(segs, n, i);
      var s1 := if seg.name == "PID" then s.(patient := Some(PatientOf(seg))) else s;
      if seg.name == "MSH" then s1.(hl7type := Some(Field(seg, 7))) else s1
  }

  /** A segment as the object `{name, fields}` kept under `_segments`. */
  function SegmentValue(seg: Segment): Value {
    Object(map["name" := Str(seg.name), "fields" := List(seq(|seg.fields|, k requires 0 <= k < |seg.fields| => Str(seg.fields[k])))])
  }

  /** The keys the extraction loop assigned, as object properties. */
  function SummaryProps(s: Summary): map<string, Value> {
    var p := if s.patient.Some? then
      map["patientId" := Str(s.patient.value.patientId), "name" := Str(s.patient.value.name),
          "dob" := Str(s.patient.value.dob), "gender" := Str(s.patient.value.gender)]
    else map[];
    if s.hl7type.Some? then p["hl7type" := Str(s.hl7type.value)] else p
  }

  /** The error object returned when parsing fails. */
  function InvalidHl7(raw: string): Value {
    Object(map["error" := Str("Invalid HL7"), "raw" := Str(raw)])
  }

  /** `hl7ToJson(raw)`, given what the parser made of `raw`. It never throws:
      a parse failure yields `{error: "Invalid HL7", raw}` with `raw`
      unchanged; otherwise the object holds every segment, in input order,
      under `_segments`, the patient keys of the last PID segment and the
      `hl7type` of the last MSH segment, and nothing else. */
  function Hl7ToJson(raw: string, parsed: Result<seq<Segment>>): (r: Value)
    ensures r.Object?
    ensures parsed.Err? ==> r == InvalidHl7(raw)
    ensures parsed.Ok? ==>
      var segs := parsed.value;
      && Prop(r, "_segments").List?
      && |Prop(r, "_segments").items| == |segs|
      && (forall i :: 0 <= i < |segs| ==> Prop(r, "_segments").items[i] == SegmentValue(segs[i]))
      && Prop(r, "error") == Undefined
      && ("patientId" in r.props <==> Has(segs, "PID"))
      && ("hl7type" in r.props <==> Has(segs, "MSH"))
  {
    match parsed
    case Err(_) => InvalidHl7(raw)
    case Ok(segs) =>
      var items := seq(|segs|, i requires 0 <= i < |segs| => SegmentValue(segs[i]));
      var sum := Summarise(segs);
      SummaryKeys(sum);
      Object(SummaryProps(sum)["_segments" := List(items)])
  }

  /** The keys assigned are exactly the ones the summary holds; no `error`
      or `_segments` key is among them. */
  lemma SummaryKeys(s: Summary)
    ensures "patientId" in SummaryProps(s) <==> s.patient.Some?
    ensures "hl7type" in SummaryProps(s) <==> s.hl7type.Some?
    ensures "error" !in SummaryProps(s) && "_segments" !in SummaryProps(s)
  {
  }

  /** The patient keys of a successful conversion are the PID fields 2, 4,
      6 and 7 of the last PID segment, and `hl7type` is field 7 of the last
      MSH segment. */
  lemma Hl7ToJsonTakesLast(raw: string, segs: seq<Segment>, p: int, m: int)
    ensures IsLast(segs, "PID", p) ==>
      var r := Hl7ToJson(raw, Ok(segs));
      && Prop(r, "patientId") == Str(Field(segs[p], 2))
      && Prop(r, "name") == Str(Field(segs[p], 4))
      && Prop(r, "dob") == Str(Field(segs[p], 6))
      && Prop(r, "gender") == Str(Field(segs[p], 7))
    ensures IsLast(segs, "MSH", m) ==>
      Prop(Hl7ToJson(raw, Ok(segs)), "hl7type") == Str(Field(segs[m], 7))
  {
    if IsLast(segs, "PID", p) {
      TakesLastPid(raw, segs, p);
    }
    if IsLast(segs, "MSH", m) {
      TakesLastMsh(raw, segs, m);
    }
  }

  lemma TakesLastPid(raw: string, segs: seq<Segment>, p: int)
    requires IsLast(segs, "PID", p)
    ensures var r := Hl7ToJson(raw, Ok(segs));
      && Prop(r, "patientId") == Str(Field(segs[p], 2))
      && Prop(r, "name") == Str(Field(segs[p], 4))
      && Prop(r, "dob") == Str(Field(segs[p], 6))
      && Prop(r, "gender") == Str(Field(segs[p], 7))
  {
    var s := Summarise(segs);
    assert Has(segs, "PID");
    var i :| IsLast(segs, "PID", i) && s.patient.value == PatientOf(segs[i]);
    LastIsUnique(segs, "PID", i, p);
    SummaryPropsPatient(s);
    SummaryKeys(s);
    ConvertedProp(raw, segs, "patientId");
    ConvertedProp(raw, segs, "name");
    ConvertedProp(raw, segs, "dob");
    ConvertedProp(raw, segs, "gender");
  }

  /** Every key but `_segments` of a successful conversion is read from the
      summary's properties. */
  lemma ConvertedProp(raw: string, segs: seq<Segment>, key: string)
    requires key != "_segments"
    ensures var q := SummaryProps(Summarise(segs));
      Prop(Hl7ToJson(raw, Ok(segs)), key) == if key in q then q[key] else Undefined
  {
  }

  lemma TakesLastMsh(raw: string, segs: seq<Segment>, m: int)
    requires IsLast(segs, "MSH", m)
    ensures Prop(Hl7ToJson(raw, Ok(segs)), "hl7type") == Str(Field(segs[m], 7))
  {
    var s := Summarise(segs);
    assert Has(segs, "MSH");
    var i :| IsLast(segs, "MSH", i) && s.hl7type.value == Field(segs[i], 7);
    LastIsUnique(segs, "MSH", i, m);
    SummaryPropsType(s);
    SummaryKeys(s);
    ConvertedProp(raw, segs, "hl7type");
  }

  lemma SummaryPropsPatient(s: Summary)
    requires s.patient.Some?
    ensures var q := SummaryProps(s);
      && q["patientId"] == Str(s.patient.value.patientId)
      && q["name"] == Str(s.patient.value.name)
      && q["dob"] == Str(s.patient.value.dob)
      && q["gender"] == Str(s.patient.value.gender)
  {
  }

  lemma SummaryPropsType(s: Summary)
    requires s.hl7type.Some?
    ensures SummaryProps(s)["hl7type"] == Str(s.hl7type.value)
  {
  }

  /** There is only one last position. */
  lemma LastIsUnique(segs: seq<Segment>, name: string, i: int, j: int)
    requires IsLast(segs, name, i) && IsLast(segs, name, j)
    ensures i == j
  {
  }

  /** The message `jsonToHl7` builds before serialising it: the MSH header
      `MSH|^~\&|MiniMirth|LOCAL|HIS|HOSP|<timestamp>||<messageType>|1234|P|2.3`
      and one PID segment with the field values in `pid`. */
  datatype Hl7Draft = Hl7Draft(timestamp: string, messageType: Value, pid: seq<Value>)

  /** The fixed part of the header before the timestamp. */
  const MshPrefix: string := "MSH|^~\\&|MiniMirth|LOCAL|HIS|HOSP|"

  /** The fixed part of the header after the message type. */
  const MshSuffix: string := "|1234|P|2.3"

  /** The message type used when `hl7type` is falsy. */
  const DefaultMessageType: string := "ADT^A01"

  /** The message built from `data`: message type `hl7type || "ADT^A01"`,
      PID fields "1", "", patientId, "", name, "", dob, gender. */
  function DraftOf(data: Value, timestamp: string): (d: Hl7Draft)
    ensures d.timestamp == timestamp
    ensures Truthy(Prop(data, "hl7type")) ==> d.messageType == Prop(data, "hl7type")
    ensures !Truthy(Prop(data, "hl7type")) ==> d.messageType == Str(DefaultMessageType)
    ensures |d.pid| == 8
    ensures d.pid[0] == Str("1") && d.pid[1] == Str("") && d.pid[3] == Str("") && d.pid[5] == Str("")
    ensures d.pid[2] == Prop(data, "patientId") && d.pid[4] == Prop(data, "name")
    ensures d.pid[6] == Prop(data, "dob") && d.pid[7] == Prop(data, "gender")
  {
    Hl7Draft(timestamp, OrElse(Prop(data, "hl7type"), Str(DefaultMessageType)),
      [Str("1"), Str(""), Prop(data, "patientId"), Str(""), Prop(data, "name"), Str(""),
       Prop(data, "dob"), Prop(data, "gender")])
  }

  /** `jsonToHl7(data)`. Destructuring `null` or `undefined` throws and a
      failing serialiser throws; both are caught and give "". */
  function JsonToHl7(data: Value, timestamp: string, serialise: Hl7Draft -> Result<string>): (r: string)
    ensures (data.Null? || data.Undefined?) ==> r == ""
    ensures !(data.Null? || data.Undefined?) && serialise(DraftOf(data, timestamp)).Err? ==> r == ""
    ensures r != "" ==> serialise(DraftOf(data, timestamp)) == Ok(r)
  {
    if data.Null? || data.Undefined? then ""
    else
      match serialise(DraftOf(data, timestamp))
      case Ok(text) => text
      case Err(_) => ""
  }

  /** Converting a parsed message to JSON and back builds a PID segment that
      carries, at the same field positions 2, 4, 6 and 7, the values read
      from the last PID segment, and a message type equal to the last MSH
      segment's field 7 unless that field is empty. */
  lemma {:induction false} PidRoundTrip(raw: string, segs: seq<Segment>, p: int, m: int, ts: string)
    requires IsLast(segs, "PID", p)
    requires IsLast(segs, "MSH", m)
    ensures var d := DraftOf(Hl7ToJson(raw, Ok(segs)), ts);
      && (forall k :: k in {2, 4, 6, 7} ==> d.pid[k] == Str(Field(segs[p], k)))
      && d.messageType == Str(if Field(segs[m], 7) != "" then Field(segs[m], 7) else DefaultMessageType)
  {
    Hl7ToJsonTakesLast(raw, segs, p, m);
  }
}

=== FILE: hl7_listener.dfy ===
/** The MLLP listener (server/src/services/hl7Listener.services.ts): it
    buffers a connection's chunks until the end-block marker arrives,
    strips the framing, converts the message to JSON, offers it to every
    channel whose filter script accepts it, and answers with an ACK or a
    NACK echoing the sender's message control id (MSH-10).
 */
module Hl7Listener {
  import opened Values
  import opened Text
  import opened Store
  import opened Oracles
  import Hl7Converter
  import MessageProcessor

  /** MLLP start block (vertical tab) and end block (file separator,
      carriage return). */
  const StartBlock: string := ['\U{0B}']
  const EndBlock: string := ['\U{1C}', '\r']

  /** `\x0b<text>\x1c\r` */
  function Frame(text: string): string {
    StartBlock + text + EndBlock
  }

  /** Cleaning a completed buffer: the first start block and the first end
      block are cut out (non-global regular expressions) and the rest is
      trimmed. */
  function Unframe(buffer: string): (raw: string)
    ensures |raw| <= |buffer|
    ensures !Contains(buffer, StartBlock) && !Contains(buffer, EndBlock) ==> raw == Trim(buffer)
  {
    Trim(RemoveFirst(RemoveFirst(buffer, StartBlock), EndBlock))
  }

  /** What one `data` event leaves: still waiting, with the grown buffer, or
      a complete message with the buffer reset to "". */
  datatype Reception = Pending(buffer: string) | Complete(raw: string)

  /** The chunk is appended; the buffer is complete as soon as it contains
      the end block anywhere. */
  function Receive(buffer: string, chunk: string): Reception {
    var b := buffer + chunk;
    if Contains(b, EndBlock) then Complete(Unframe(b)) else Pending(b)
  }

  /** A framed body whose text holds no start-block or end-block character
      comes out of the cleaning step as the trimmed body. */
  lemma UnframeFrame(body: string)
    requires Free(body, '\U{0B}') && Free(body, '\U{1C}')
    ensures Unframe(Frame(body)) == Trim(body)
  {
    var f := Frame(body);
    assert OccursAt(f, StartBlock, 0);
    assert Contains(f, StartBlock);
    assert IndexOf(f, StartBlock) == 0;
    var g := RemoveFirst(f, StartBlock);
    assert g == body + EndBlock;
    assert OccursAt(g, EndBlock, |body|);
    forall k | 0 <= k < |body| ensures !OccursAt(g, EndBlock, k) {
      assert g[k] == body[k];
    }
    assert IndexOf(g, EndBlock) == |body|;
    assert RemoveFirst(g, EndBlock) == body;
  }

  /** A frame split across two chunks, the first of which does not yet hold
      the end block, is reassembled: the first chunk leaves the buffer
      pending and the second completes the same message a single chunk
      would have carried. */
  lemma ChunkedFrame(body: string, a: string, b: string)
    requires Free(body, '\U{0B}') && Free(body, '\U{1C}')
    requires a + b == Frame(body)
    requires !Contains(a, EndBlock)
    ensures Receive("", a) == Pending(a)
    ensures Receive(Receive("", a).buffer, b) == Complete(Trim(body))
  {
    assert "" + a == a;
    var f := Frame(body);
    assert a + b == f;
    assert Contains(f, EndBlock) by {
      assert f[|f| - 2..] == EndBlock;
      assert OccursAt(f, EndBlock, |f| - 2);
    }
    UnframeFrame(body);
  }

  /** Chunks are only ever appended to one another: while the first part
      holds no end block, receiving it and then the rest completes exactly
      as receiving the whole text at once, wherever the text was split. */
  lemma ReceiveReassembles(a: string, b: string)
    requires !Contains(a, EndBlock)
    ensures Receive("", a) == Pending(a)
    ensures Receive(Receive("", a).buffer, b) == Receive("", a + b)
  {
    assert "" + a == a;
    assert "" + (a + b) == a + b;
  }

  /** The sender's message control id: field 9 of the `|`-split first
      `\r`-segment, or "0000" when that field is missing or empty. */
  function ControlId(raw: string): (id: string)
    ensures id != ""
    ensures Free(id, '|') && Free(id, '\r')
  {
    var seg := Split(raw, '\r')[0];
    SplitKeepsFree(seg, '|', '\r');
    var fields := Split(seg, '|');
    if |fields| > 9 && fields[9] != "" then fields[9] else "0000"
  }

  /** The MSH segment of an acknowledgement: sending application MiniMirth,
      facility Listener, receiving Sender/Source, the timestamp, message
      type ACK^A01, the echoed control id, processing id P, version 2.3. */
  function AckHeaderFields(ts: string, id: string): seq<string> {
    ["MSH", "^~\\&", "MiniMirth", "Listener", "Sender", "Source", ts, "", "ACK^A01", id, "P", "2.3"]
  }

  /** `buildAck(raw)`: header and `MSA|AA|<id>`, each segment ended by `\r`. */
  function BuildAck(raw: string, ts: string): string {
    var id := ControlId(raw);
    Join([Join(AckHeaderFields(ts, id), '|'), Join(["MSA", "AA", id], '|'), ""], '\r')
  }

  /** `buildNack(raw, reason)`: header and `MSA|AE|<id>|<reason>`. */
  function BuildNack(raw: string, reason: string, ts: string): string {
    var id := ControlId(raw);
    Join([Join(AckHeaderFields(ts, id), '|'), Join(["MSA", "AE", id, reason], '|'), ""], '\r')
  }

  /** The fields of the segment at `index`, or [] when there is none. */
  function SegmentFields(text: string, index: nat): seq<string> {
    var segs := Split(text, '\r');
    if index < |segs| then Split(segs[index], '|') else []
  }

  /** The header fields are free of both separators when the timestamp and
      the id are. */
  lemma HeaderFree(ts: string, id: string)
    requires Free(ts, '|') && Free(ts, '\r') && Free(id, '|') && Free(id, '\r')
    ensures forall k :: 0 <= k < 12 ==> Free(AckHeaderFields(ts, id)[k], '|')
    ensures Free(Join(AckHeaderFields(ts, id), '|'), '\r')
  {
    var h := AckHeaderFields(ts, id);
    assert forall k :: 0 <= k < 12 && k != 6 && k != 9 ==> Free(h[k], '|') && Free(h[k], '\r');
    JoinFree(h, '|', '\r');
  }

  /** An ACK echoes the control id of the message it answers in MSH-10. */
  lemma AckEchoesControlId(raw: string, ts: string)
    requires Free(ts, '|') && Free(ts, '\r')
    ensures ControlId(BuildAck(raw, ts)) == ControlId(raw)
  {
    var id := ControlId(raw);
    var msa := Join(["MSA", "AA", id], '|');
    assert BuildAck(raw, ts) == Join(AckHeaderFields(ts, id), '|') + ['\r'] + Join([msa, ""], '\r');
    HeaderLeads(ts, id, Join([msa, ""], '\r'));
  }

  /** A reply that starts with the header segment yields the header's id. */
  lemma HeaderLeads(ts: string, id: string, rest: string)
    requires Free(ts, '|') && Free(ts, '\r') && Free(id, '|') && Free(id, '\r') && id != ""
    ensures ControlId(Join(AckHeaderFields(ts, id), '|') + ['\r'] + rest) == id
  {
    var h := AckHeaderFields(ts, id);
    var a := Join(h, '|');
    HeaderFree(ts, id);
    SplitCons(a, '\r', rest);
    assert Split(a + ['\r'] + rest, '\r')[0] == a;
    JoinSplit(h, '|');
    assert |h| == 12 && h[9] == id;
  }

  /** An ACK carries acknowledgement code AA and the echoed control id in
      its MSA segment. */
  lemma AckAccepts(raw: string, ts: string)
    requires Free(ts, '|') && Free(ts, '\r')
    ensures SegmentFields(BuildAck(raw, ts), 1) == ["MSA", "AA", ControlId(raw)]
  {
    var id := ControlId(raw);
    var h := AckHeaderFields(ts, id);
    var msa := ["MSA", "AA", id];
    HeaderFree(ts, id);
    assert forall k :: 0 <= k < 3 ==> Free(msa[k], '|') && Free(msa[k], '\r');
    JoinFree(msa, '|', '\r');
    var segs := [Join(h, '|'), Join(msa, '|'), ""];
    assert forall k :: 0 <= k < 3 ==> Free(segs[k], '\r');
    JoinSplit(segs, '\r');
    JoinSplit(msa, '|');
  }

  /** A NACK echoes the control id of the message it answers in MSH-10,
      whatever the reason text. */
  lemma NackEchoesControlId(raw: string, reason: string, ts: string)
    requires Free(ts, '|') && Free(ts, '\r')
    ensures ControlId(BuildNack(raw, reason, ts)) == ControlId(raw)
  {
    var id := ControlId(raw);
    var msa := Join(["MSA", "AE", id, reason], '|');
    assert BuildNack(raw, reason, ts) == Join(AckHeaderFields(ts, id), '|') + ['\r'] + Join([msa, ""], '\r');
    HeaderLeads(ts, id, Join([msa, ""], '\r'));
  }

  /** A NACK carries acknowledgement code AE, the echoed control id and the
      reason in its MSA segment. */
  lemma NackCarriesReason(raw: string, reason: string, ts: string)
    requires Free(ts, '|') && Free(ts, '\r')
    requires Free(reason, '|') && Free(reason, '\r')
    ensures SegmentFields(BuildNack(raw, reason, ts), 1) == ["MSA", "AE", ControlId(raw), reason]
  {
    var id := ControlId(raw);
    var h := AckHeaderFields(ts, id);
    var msa := ["MSA", "AE", id, reason];
    HeaderFree(ts, id);
    assert forall k :: 0 <= k < 4 ==> Free(msa[k], '|') && Free(msa[k], '\r');
    JoinFree(msa, '|', '\r');
    var segs := [Join(h, '|'), Join(msa, '|'), ""];
    assert forall k :: 0 <= k < 3 ==> Free(segs[k], '\r');
    JoinSplit(segs, '\r');
    JoinSplit(msa, '|');
  }

  /** The reply to a message whose processing threw outside the per-channel
      handling: a NACK built from the buffer, which has already been reset
      to "". */
  function ExceptionReply(reason: string, ts: string): string {
    Frame(BuildNack("", reason, ts))
  }

  /** Because the exception reply is built from the emptied buffer, its
      control id is always the default "0000", never the sender's. */
  lemma ExceptionReplyLosesControlId(reason: string, ts: string)
    requires Free(ts, '|') && Free(ts, '\r')
    ensures ExceptionReply(reason, ts) == Frame(BuildNack("", reason, ts))
    ensures ControlId(BuildNack("", reason, ts)) == "0000"
  {
    NackEchoesControlId("", reason, ts);
    SplitFree("", '\r');
    SplitFree("", '|');
  }

  /** An entry of the listener's cached channel list: `SELECT id,
      filter_script FROM Channels`, every channel whatever its status. */
  datatype Member = Member(id: int, filterScript: string)

  /** The cached list after a refresh: the query's rows, or the previous
      list when the query fails. */
  function Refresh(previous: seq<Member>, query: Result<seq<Channel>>): (roster: seq<Member>)
    ensures query.Err? ==> roster == previous
    ensures query.Ok? ==> |roster| == |query.value|
    ensures query.Ok? ==> forall i :: 0 <= i < |roster| ==>
      roster[i].id == query.value[i].id && roster[i].filterScript == query.value[i].filterScript
  {
    match query
    case Err(_) => previous
    case Ok(rows) => seq(|rows|, i requires 0 <= i < |rows| => Member(rows[i].id, rows[i].filterScript))
  }

  /** A filter script runs with only `msg` bound and no timeout. */
  function FilterSandbox(json: Value): Sandbox {
    Sandbox(json, None, false, None)
  }

  /** The channel accepts the message: it has a filter script (an empty one
      is skipped), the script does not throw, and its value is truthy. */
  predicate Accepts(env: Env, m: Member, json: Value) {
    m.filterScript != "" &&
    match env.run(m.filterScript, FilterSandbox(json))
    case Ok(v) => Truthy(v)
    case Err(_) => false
  }

  /** The routing loop's result: the store and the `routed` flag. */
  datatype Routing = Routing(db: Db, routed: bool)

  /** The member at `i` accepts and its channel exists, so processing
      completes and sets `routed`. */
  predicate RoutesTo(env: Env, db: Db, roster: seq<Member>, json: Value, i: int)
    requires 0 <= i < |roster|
  {
    Accepts(env, roster[i], json) && FindChannel(db.channels, roster[i].id).Some?
  }

  /** Offer the message to every cached channel, in order. An accepting
      channel gets `processInboundMessage`; `routed` is set only after that
      call returns, so a channel that no longer exists (the call throws and
      the per-channel `catch` swallows it) does not count. */
  function Route(env: Env, db: Db, roster: seq<Member>, json: Value): (r: Routing)
    ensures r.db.channels == db.channels
    ensures r.routed <==> exists i :: 0 <= i < |roster| && RoutesTo(env, db, roster, json, i)
    ensures (forall i :: 0 <= i < |roster| ==> !Accepts(env, roster[i], json)) ==> r.db == db
    decreases |roster|
  {
    if roster == [] then Routing(db, false)
    else
      var m := roster[0];
      var step := if Accepts(env, m, json) then MessageProcessor.ProcessInbound(env, db, m.id, json)
                  else MessageProcessor.Processed(MessageProcessor.ChannelNotFound(m.id), db);
      var ok := !step.outcome.ChannelNotFound?;
      var rest := Route(env, step.db, roster[1..], json);
      assert ok <==> RoutesTo(env, db, roster, json, 0);
      RoutesShift(env, db, step.db, roster, json);
      Routing(rest.db, ok || rest.routed)
  }

  /** The members after the first route against any store with the same
      channels exactly as they did from the second position on; and if no
      member accepts, none of the later ones does. */
  lemma RoutesShift(env: Env, db: Db, db': Db, roster: seq<Member>, json: Value)
    requires roster != [] && db'.channels == db.channels
    ensures (exists i :: 0 <= i < |roster| - 1 && RoutesTo(env, db', roster[1..], json, i))
      <==> (exists i :: 1 <= i < |roster| && RoutesTo(env, db, roster, json, i))
    ensures (forall i :: 0 <= i < |roster| ==> !Accepts(env, roster[i], json)) ==>
      forall i :: 0 <= i < |roster| - 1 ==> !Accepts(env, roster[1..][i], json)
  {
    forall i | 0 <= i < |roster| - 1
      ensures RoutesTo(env, db', roster[1..], json, i) <==> RoutesTo(env, db, roster, json, i + 1)
    {
      assert roster[1..][i] == roster[i + 1];
    }
    if exists i :: 1 <= i < |roster| && RoutesTo(env, db, roster, json, i) {
      var i :| 1 <= i < |roster| && RoutesTo(env, db, roster, json, i);
      assert RoutesTo(env, db', roster[1..], json, i - 1);
    }
  }

  /** The ids of the cached channels whose filter accepts the message, in
      the order of the cached list. */
  function AcceptedIds(env: Env, roster: seq<Member>, json: Value): (ids: seq<int>)
    ensures |ids| <= |roster|
    ensures forall i :: 0 <= i < |roster| && Accepts(env, roster[i], json) ==> roster[i].id in ids
    ensures forall id :: id in ids ==>
      exists i :: 0 <= i < |roster| && roster[i].id == id && Accepts(env, roster[i], json)
    decreases |roster|
  {
    if roster == [] then []
    else
      var rest := AcceptedIds(env, roster[1..], json);
      assert forall i :: 1 <= i < |roster| ==> roster[i] == roster[1..][i - 1];
      if Accepts(env, roster[0], json) then [roster[0].id] + rest else rest
  }

  /** `processInboundMessage` for each id in turn, each on the store the
      previous call left. */
  function ProcessAll(env: Env, db: Db, ids: seq<int>, json: Value): (out: Db)
    ensures out.channels == db.channels
    decreases |ids|
  {
    if ids == [] then db
    else ProcessAll(env, MessageProcessor.ProcessInbound(env, db, ids[0], json).db, ids[1..], json)
  }

  /** Routing does not stop at the first accepting channel: the store it
      leaves is the one every accepting channel's pipeline leaves, run one
      after the other in the order of the cached list. */
  lemma {:induction false} RouteProcessesEveryAccepter(env: Env, db: Db, roster: seq<Member>, json: Value)
    ensures Route(env, db, roster, json).db == ProcessAll(env, db, AcceptedIds(env, roster, json), json)
    decreases |roster|
  {
    if roster != [] {
      var m := roster[0];
      var rest := AcceptedIds(env, roster[1..], json);
      if Accepts(env, m, json) {
        var db1 := MessageProcessor.ProcessInbound(env, db, m.id, json).db;
        RouteProcessesEveryAccepter(env, db1, roster[1..], json);
        assert ([m.id] + rest)[1..] == rest;
      } else {
        RouteProcessesEveryAccepter(env, db, roster[1..], json);
      }
    }
  }

  /** With two accepting channels, both pipelines run: the second on the
      store the first one left. */
  lemma TwoAcceptersBothProcessed(env: Env, db: Db, a: Member, b: Member, json: Value)
    requires Accepts(env, a, json) && Accepts(env, b, json)
    ensures Route(env, db, [a, b], json).db ==
      MessageProcessor.ProcessInbound(env, MessageProcessor.ProcessInbound(env, db, a.id, json).db, b.id, json).db
  {
    RouteProcessesEveryAccepter(env, db, [a, b], json);
    assert [a, b][1..] == [b];
    assert [b][1..] == [];
    assert AcceptedIds(env, [b], json) == [b.id];
    assert AcceptedIds(env, [a, b], json) == [a.id, b.id];
  }

  /** The reply text before framing. */
  function Reply(raw: string, routed: bool, ts: string): string {
    if routed then BuildAck(raw, ts) else BuildNack(raw, "No matching channel", ts)
  }

  /** What a `data` event leaves: the connection's buffer, the store, and
      the framed reply written to the socket, if any. */
  datatype Listened = Listened(buffer: string, db: Db, reply: Option<string>)

  /** The `data` handler. `ts` is the timestamp the reply carries. */
  function OnData(env: Env, db: Db, roster: seq<Member>, buffer: string, chunk: string, ts: string): (l: Listened)
    ensures Receive(buffer, chunk).Pending? ==> l == Listened(buffer + chunk, db, None)
    ensures Receive(buffer, chunk).Complete? ==> l.buffer == "" && l.reply.Some? && l.db.channels == db.channels
  {
    match Receive(buffer, chunk)
    case Pending(b) => Listened(b, db, None)
    case Complete(raw) =>
      var json := Hl7Converter.Hl7ToJson(raw, env.parseHl7(raw));
      var r := Route(env, db, roster, json);
      Listened("", r.db, Some(Frame(Reply(raw, r.routed, ts))))
  }

  /** Exactly one reply per completed message, and it is an ACK (code AA)
      exactly when some cached channel accepted the converted message and
      still exists; otherwise a NACK (code AE) with reason "No matching
      channel". Either way it echoes the sender's control id. */
  lemma OnDataReplies(env: Env, db: Db, roster: seq<Member>, buffer: string, chunk: string, ts: string)
    requires Receive(buffer, chunk).Complete?
    requires Free(ts, '|') && Free(ts, '\r')
    ensures var raw := Receive(buffer, chunk).raw;
      var json := Hl7Converter.Hl7ToJson(raw, env.parseHl7(raw));
      var l := OnData(env, db, roster, buffer, chunk, ts);
      var accepted := exists i :: 0 <= i < |roster| && RoutesTo(env, db, roster, json, i);
      exists body ::
        && l.reply == Some(Frame(body))
        && ControlId(body) == ControlId(raw)
        && SegmentFields(body, 1) ==
             if accepted then ["MSA", "AA", ControlId(raw)]
             else ["MSA", "AE", ControlId(raw), "No matching channel"]
  {
    var raw := Receive(buffer, chunk).raw;
    var json := Hl7Converter.Hl7ToJson(raw, env.parseHl7(raw));
    var r := Route(env, db, roster, json);
    var body := Reply(raw, r.routed, ts);
    ReplyFields(raw, r.routed, ts);
    assert OnData(env, db, roster, buffer, chunk, ts).reply == Some(Frame(body));
  }

  /** The reply echoes the control id and carries AA when routed, AE with
      the fixed reason otherwise. */
  lemma ReplyFields(raw: string, routed: bool, ts: string)
    requires Free(ts, '|') && Free(ts, '\r')
    ensures ControlId(Reply(raw, routed, ts)) == ControlId(raw)
    ensures SegmentFields(Reply(raw, routed, ts), 1) ==
      if routed then ["MSA", "AA", ControlId(raw)] else ["MSA", "AE", ControlId(raw), "No matching channel"]
  {
    if routed {
      AckEchoesControlId(raw, ts);
      AckAccepts(raw, ts);
    } else {
      var reason := "No matching channel";
      assert forall k :: 0 <= k < |reason| ==> reason[k] != '|' && reason[k] != '\r';
      NackEchoesControlId(raw, reason, ts);
      NackCarriesReason(raw, reason, ts);
    }
  }

  /** Every message the listener routes is stored as JSON: the converter
      always yields an object, so format detection never sees HL7 text. */
  lemma RoutedPayloadIsJson(env: Env, raw: string)
    ensures MessageProcessor.DetectFormat(Hl7Converter.Hl7ToJson(raw, env.parseHl7(raw)), env.parsesAsJson)
            == MessageProcessor.JSON
  {
  }

  /** A message no cached channel accepts leaves the store untouched. */
  lemma UnacceptedLeavesStore(env: Env, db: Db, roster: seq<Member>, buffer: string, chunk: string, ts: string)
    requires Receive(buffer, chunk).Complete?
    requires var raw := Receive(buffer, chunk).raw;
      forall i :: 0 <= i < |roster| ==> !Accepts(env, roster[i], Hl7Converter.Hl7ToJson(raw, env.parseHl7(raw)))
    ensures OnData(env, db, roster, buffer, chunk, ts).db == db
  {
  }
}

=== FILE: log_detail.dfy ===
/** The message detail dialog (client/src/page/LogDetailModal.tsx): status
    badges keyed by the upper-cased status, and a per-destination section
    whose entries start expanded and collapse or expand on a click.
 */
module LogDetail {
  import opened Values
  import opened Text
  import opened MessageApi

  const UnknownStyle: string := "bg-slate-600 text-slate-300"

  /** The badge colour table, looked up by upper-cased key; a key that is
      not in the table takes the UNKNOWN colour. */
  function BadgeStyle(key: string): string {
    if key == "OUT-SENT" || key == "SUCCESS" then "bg-green-700 text-green-200"
    else if key == "OUT-ERROR" || key == "FAILED" || key == "IN-ERROR" then "bg-red-700 text-red-200"
    else if key == "PARTIAL" then "bg-yellow-600 text-yellow-200"
    else if key == "RECEIVED" || key == "IN-PROCESSED" then "bg-blue-700 text-blue-200"
    else UnknownStyle
  }

  /** The colour table read both ways: each colour is given to exactly the
      keys listed under it, and every other key falls back to UNKNOWN. */
  lemma BadgeStyleExact(key: string)
    ensures BadgeStyle(key) == "bg-green-700 text-green-200" <==> key == "OUT-SENT" || key == "SUCCESS"
    ensures BadgeStyle(key) == "bg-red-700 text-red-200" <==>
      key == "OUT-ERROR" || key == "FAILED" || key == "IN-ERROR"
    ensures BadgeStyle(key) == "bg-yellow-600 text-yellow-200" <==> key == "PARTIAL"
    ensures BadgeStyle(key) == "bg-blue-700 text-blue-200" <==> key == "RECEIVED" || key == "IN-PROCESSED"
    ensures BadgeStyle(key) == UnknownStyle <==>
      key != "OUT-SENT" && key != "SUCCESS" && key != "OUT-ERROR" && key != "FAILED"
      && key != "IN-ERROR" && key != "PARTIAL" && key != "RECEIVED" && key != "IN-PROCESSED"
  {
  }

  /** A badge: the text shown and its colour. */
  datatype Badge = Badge(text: string, style: string)

  /** `StatusBadge`: the status is upper-cased, shown, and looked up. */
  function StatusBadge(status: string): (b: Badge)
    ensures b.text == ToUpper(status)
    ensures |b.text| == |status|
    ensures b.style == BadgeStyle(b.text)
  {
    var key := ToUpper(status);
    Badge(key, BadgeStyle(key))
  }

  /** The badge ignores letter case. */
  lemma BadgeCaseInsensitive(status: string)
    ensures StatusBadge(ToUpper(status)) == StatusBadge(status)
  {
    ToUpperIdempotent(status);
  }

  /** The message's own badge: `log.status ?? "UNKNOWN"`. */
  function InboundBadge(log: LogEntry): Badge {
    StatusBadge(if log.status.Some? then log.status.value else "UNKNOWN")
  }

  /** A destination's badge: `dest.status ?? "OUT-UNKNOWN"`. */
  function DestinationBadge(d: DestinationEntry): Badge {
    StatusBadge(if d.status.Some? then d.status.value else "OUT-UNKNOWN")
  }

  /** No key of the table has five or eleven characters. */
  lemma UnlistedLengths(key: string)
    requires |key| == 5 || |key| == 11
    ensures BadgeStyle(key) == UnknownStyle
  {
  }

  /** A destination without a status is badged OUT-UNKNOWN in the UNKNOWN
      colour, and so is one the server logged as ERROR in its own
      vocabulary, while its SUCCESS is shown green. */
  lemma DestinationFallbacks(d: DestinationEntry)
    ensures d.status.None? ==> DestinationBadge(d) == StatusBadge("OUT-UNKNOWN")
    ensures d.status.None? ==> DestinationBadge(d).style == UnknownStyle
    ensures d.status == Some("ERROR") ==> DestinationBadge(d).style == UnknownStyle
    ensures d.status == Some("SUCCESS") ==> DestinationBadge(d).style == "bg-green-700 text-green-200"
  {
    if d.status.None? {
      UnlistedLengths(ToUpper("OUT-UNKNOWN"));
    } else if d.status.value == "ERROR" {
      UnlistedLengths(ToUpper("ERROR"));
    } else if d.status.value == "SUCCESS" {
      UpperOfUpper("SUCCESS");
    }
  }

  /** The view state of one destination entry. */
  datatype DestinationView = DestinationView(open: bool, request: string, outbound: string, response: string)

  /** The state an untouched entry is drawn with: open, everything pretty. */
  const Untouched: DestinationView := DestinationView(true, "pretty", "pretty", "pretty")

  type ViewStates = map<int, DestinationView>

  /** `viewMode.destination[i] || {...}` */
  function ViewOf(states: ViewStates, i: int): DestinationView {
    if i in states then states[i] else Untouched
  }

  /** `toggleDest`: the entry's `open` flips, starting from open when it
      was never touched; its other settings and every other entry stay. */
  function ToggleDest(states: ViewStates, i: int): (r: ViewStates)
    ensures i in r
    ensures ViewOf(r, i) == ViewOf(states, i).(open := !ViewOf(states, i).open)
    ensures forall j :: j != i ==> (j in r <==> j in states) && ViewOf(r, j) == ViewOf(states, j)
  {
    var open := !(if i in states then states[i].open else true);
    states[i := ViewOf(states, i).(open := open)]
  }

  /** Clicks on one entry, counted from a fresh dialog: the entry is open
      after an even number of clicks, and the other entries remain open. */
  function AfterClicks(i: int, clicks: nat): ViewStates {
    if clicks == 0 then map[] else ToggleDest(AfterClicks(i, clicks - 1), i)
  }

  lemma {:induction false} ClicksAlternate(i: int, clicks: nat)
    ensures ViewOf(AfterClicks(i, clicks), i).open <==> clicks % 2 == 0
    ensures forall j :: j != i ==> ViewOf(AfterClicks(i, clicks), j) == Untouched
  {
    if clicks > 0 {
      ClicksAlternate(i, clicks - 1);
    }
  }

  /** Two clicks on the same entry restore every entry's view. */
  lemma ToggleTwice(states: ViewStates, i: int, j: int)
    ensures ViewOf(ToggleDest(ToggleDest(states, i), i), j) == ViewOf(states, j)
  {
  }

  /** `(log.destinationLogs?.length ?? 0) > 0` */
  predicate SectionShown(log: LogEntry) {
    |log.destinationLogs| > 0
  }

  /** The section appears exactly when the server sent a non-empty list of
      destination attempts, and then every entry starts expanded. */
  lemma SectionShownExact(m: RawMessage)
    ensures SectionShown(ToEntry(m)) <==> m.destinationLogs.Some? && m.destinationLogs.value != []
    ensures forall i :: 0 <= i < |ToEntry(m).destinationLogs| ==> ViewOf(map[], i).open
  {
  }
}

=== FILE: log_stream.dfy ===
/** The log stream (client/src/page/LogStream.tsx): log entries grouped by
    channel name, each group opened the first time its name is seen and
    toggled by a click, each row's status shown as a coloured badge, and the
    whole list replaced by a spinner, an error or an empty notice when there
    is nothing to group.
 */
module LogStream {
  import opened Values
  import opened Seqs
  import opened MessageApi

  /** `log.channelName || "Unknown Channel"` */
  function GroupKey(e: LogEntry): (k: string)
    ensures k != ""
  {
    OrText(if e.channelName.Some? then e.channelName.value else "", "Unknown Channel")
  }

  /** Rows as the server sends them carry no channel name, so every one of
      them is grouped under "Unknown Channel". */
  lemma ServerRowsUnknownChannel(m: RawMessage)
    requires ServerRow(m)
    ensures GroupKey(ToEntry(m)) == "Unknown Channel"
  {
  }

  /** One entry of the grouping object: a name and its logs. */
  datatype Group = Group(name: string, logs: seq<LogEntry>)

  /** The logs whose group is `name`, in their original order. */
  function Members(logs: seq<LogEntry>, name: string): seq<LogEntry> {
    Filter(logs, (e: LogEntry) => GroupKey(e) == name)
  }

  /** The position of the group called `name`, or -1. */
  function IndexOfName(gs: seq<Group>, name: string): (r: int)
    ensures -1 <= r < |gs|
    ensures r == -1 <==> forall j :: 0 <= j < |gs| ==> gs[j].name != name
    ensures r >= 0 ==> gs[r].name == name
  {
    if gs == [] then -1
    else if gs[|gs| - 1].name == name then |gs| - 1
    else IndexOfName(gs[..|gs| - 1], name)
  }

  /** One step of the reduce: push onto the existing group, or start one. */
  function AddTo(gs: seq<Group>, e: LogEntry): (r: seq<Group>)
    ensures IndexOfName(gs, GroupKey(e)) >= 0 ==> |r| == |gs|
    ensures IndexOfName(gs, GroupKey(e)) == -1 ==> |r| == |gs| + 1
  {
    var j := IndexOfName(gs, GroupKey(e));
    if j >= 0 then gs[j := Group(gs[j].name, gs[j].logs + [e])]
    else gs + [Group(GroupKey(e), [e])]
  }

  /** `logs.reduce(...)`, with groups in the order their names first occur. */
  function Grouped(logs: seq<LogEntry>): seq<Group> {
    if logs == [] then [] else AddTo(Grouped(logs[..|logs| - 1]), logs[|logs| - 1])
  }

  function NamesOf(gs: seq<Group>): (ns: seq<string>)
    ensures |ns| == |gs| && forall j :: 0 <= j < |gs| ==> ns[j] == gs[j].name
  {
    seq(|gs|, j requires 0 <= j < |gs| => gs[j].name)
  }

  /** The grouping is a partition: group names are distinct, every log's
      name is one of them, and each group holds exactly the logs of its
      name, in their original order. */
  predicate Partitions(gs: seq<Group>, logs: seq<LogEntry>) {
    && (forall i, j :: 0 <= i < j < |gs| ==> gs[i].name != gs[j].name)
    && (forall k :: 0 <= k < |logs| ==> GroupKey(logs[k]) in NamesOf(gs))
    && (forall j :: 0 <= j < |gs| ==> gs[j].logs == Members(logs, gs[j].name))
  }

  lemma MembersSnoc(logs: seq<LogEntry>, e: LogEntry, name: string)
    ensures Members(logs + [e], name) == Members(logs, name) + (if GroupKey(e) == name then [e] else [])
  {
    FilterAppend(logs, [e], (x: LogEntry) => GroupKey(x) == name);
  }

  /** A name no log carries has no members. */
  lemma {:induction false} MembersAbsent(logs: seq<LogEntry>, name: string)
    requires forall k :: 0 <= k < |logs| ==> GroupKey(logs[k]) != name
    ensures Members(logs, name) == []
  {
    if logs != [] {
      assert forall k :: 1 <= k < |logs| ==> logs[1..][k - 1] == logs[k];
      MembersAbsent(logs[1..], name);
    }
  }

  /** Adding one log keeps the partition. */
  lemma AddToPartitions(gs: seq<Group>, logs: seq<LogEntry>, e: LogEntry, all: seq<LogEntry>)
    requires Partitions(gs, logs)
    requires all == logs + [e]
    ensures Partitions(AddTo(gs, e), all)
  {
    var r := AddTo(gs, e);
    AddToNames(gs, e);
    AddToDistinct(gs, e);
    forall i | 0 <= i < |r| ensures r[i].logs == Members(all, r[i].name) {
      AddToRow(gs, logs, e, all, i);
    }
    forall k | 0 <= k < |all| ensures GroupKey(all[k]) in NamesOf(r) {
      if k < |logs| {
        assert all[k] == logs[k];
      } else {
        var j := IndexOfName(gs, GroupKey(e));
        if j >= 0 { assert NamesOf(r)[j] == GroupKey(e); }
        else { assert NamesOf(r)[|gs|] == GroupKey(e); }
      }
    }
  }

  /** Adding a log adds its name at the end when it is new, and otherwise
      keeps the names. */
  lemma AddToNames(gs: seq<Group>, e: LogEntry)
    ensures IndexOfName(gs, GroupKey(e)) >= 0 ==> NamesOf(AddTo(gs, e)) == NamesOf(gs)
    ensures IndexOfName(gs, GroupKey(e)) == -1 ==> NamesOf(AddTo(gs, e)) == NamesOf(gs) + [GroupKey(e)]
  {
  }

  /** Adding a log keeps the group names distinct. */
  lemma AddToDistinct(gs: seq<Group>, e: LogEntry)
    requires forall i, j :: 0 <= i < j < |gs| ==> gs[i].name != gs[j].name
    ensures var r := AddTo(gs, e); forall i, j :: 0 <= i < j < |r| ==> r[i].name != r[j].name
  {
  }

  /** After adding a log, each group still holds exactly its members. */
  lemma AddToRow(gs: seq<Group>, logs: seq<LogEntry>, e: LogEntry, all: seq<LogEntry>, i: int)
    requires Partitions(gs, logs)
    requires all == logs + [e]
    requires 0 <= i < |AddTo(gs, e)|
    ensures AddTo(gs, e)[i].logs == Members(all, AddTo(gs, e)[i].name)
  {
    var key := GroupKey(e);
    var j := IndexOfName(gs, key);
    var r := AddTo(gs, e);
    MembersSnoc(logs, e, r[i].name);
    if j >= 0 {
      if i != j {
        assert r[i] == gs[i];
        assert gs[i].name != key by {
          if i < j { assert gs[i].name != gs[j].name; } else { assert gs[j].name != gs[i].name; }
        }
      }
    } else if i == |gs| {
      assert r[i] == Group(key, [e]);
      forall k | 0 <= k < |logs| ensures GroupKey(logs[k]) != key {
        assert GroupKey(logs[k]) in NamesOf(gs);
      }
      MembersAbsent(logs, key);
    } else {
      assert r[i] == gs[i];
    }
  }

  /** `grouped` partitions the logs it was built from. */
  lemma {:induction false} GroupedPartitions(logs: seq<LogEntry>)
    ensures Partitions(Grouped(logs), logs)
  {
    if logs != [] {
      var init := logs[..|logs| - 1];
      var e := logs[|logs| - 1];
      assert init + [e] == logs;
      GroupedPartitions(init);
      AddToPartitions(Grouped(init), init, e, logs);
    }
  }

  /** The number of logs held by the groups. */
  function TotalSize(gs: seq<Group>): nat {
    if gs == [] then 0 else TotalSize(gs[..|gs| - 1]) + |gs[|gs| - 1].logs|
  }

  lemma {:induction false} TotalSizeUpdate(gs: seq<Group>, j: int, g: Group)
    requires 0 <= j < |gs|
    ensures TotalSize(gs[j := g]) == TotalSize(gs) - |gs[j].logs| + |g.logs|
  {
    var n := |gs| - 1;
    if j < n {
      assert gs[j := g][..n] == gs[..n][j := g];
      TotalSizeUpdate(gs[..n], j, g);
    } else {
      assert gs[j := g][..n] == gs[..n];
    }
  }

  /** The group sizes add up to the number of logs. */
  lemma {:induction false} GroupedSize(logs: seq<LogEntry>)
    ensures TotalSize(Grouped(logs)) == |logs|
  {
    if logs != [] {
      var init := logs[..|logs| - 1];
      var gs := Grouped(init);
      var e := logs[|logs| - 1];
      GroupedSize(init);
      var j := IndexOfName(gs, GroupKey(e));
      if j >= 0 {
        TotalSizeUpdate(gs, j, Group(gs[j].name, gs[j].logs + [e]));
      } else {
        assert (gs + [Group(GroupKey(e), [e])])[..|gs|] == gs;
      }
    }
  }

  /** Which groups are expanded. A missing name reads as `undefined`. */
  type OpenGroups = map<string, bool>

  predicate IsOpen(open: OpenGroups, name: string) {
    name in open && open[name]
  }

  /** The effect run when the logs change: names not seen before open,
      names already present keep their state. */
  function OpenNew(open: OpenGroups, logs: seq<LogEntry>): (r: OpenGroups)
    ensures forall name :: name in open ==> name in r && r[name] == open[name]
    ensures forall k :: 0 <= k < |logs| ==> GroupKey(logs[k]) in r
    ensures forall name :: name in r && name !in open ==> r[name]
    decreases |logs|
  {
    if logs == [] then open
    else
      var key := GroupKey(logs[0]);
      var next := if key in open then open else open[key := true];
      var r := OpenNew(next, logs[1..]);
      assert forall k :: 1 <= k < |logs| ==> logs[k] == logs[1..][k - 1];
      r
  }

  /** No name appears in the open state unless it was there before or is
      the name of one of the logs. */
  lemma {:induction false} OpenNewOnlyNames(open: OpenGroups, logs: seq<LogEntry>, name: string)
    requires name in OpenNew(open, logs) && name !in open
    ensures exists k :: 0 <= k < |logs| && GroupKey(logs[k]) == name
    decreases |logs|
  {
    if logs != [] {
      var key := GroupKey(logs[0]);
      var next := if key in open then open else open[key := true];
      if name != key {
        OpenNewOnlyNames(next, logs[1..], name);
        var k :| 0 <= k < |logs[1..]| && GroupKey(logs[1..][k]) == name;
        assert logs[k + 1] == logs[1..][k];
      }
    }
  }

  /** `toggleGroup`: the named group flips, every other entry stays. */
  function Toggle(open: OpenGroups, name: string): (r: OpenGroups)
    ensures name in r && (IsOpen(r, name) <==> !IsOpen(open, name))
    ensures forall other :: other != name ==> (other in r <==> other in open)
    ensures forall other :: other != name && other in open ==> r[other] == open[other]
  {
    open[name := !IsOpen(open, name)]
  }

  /** Every group of a fresh batch of logs starts expanded, and one click on
      its header collapses it and a second expands it again. */
  lemma GroupsStartOpen(logs: seq<LogEntry>, j: int)
    requires 0 <= j < |Grouped(logs)|
    ensures var name := Grouped(logs)[j].name;
      && IsOpen(OpenNew(map[], logs), name)
      && !IsOpen(Toggle(OpenNew(map[], logs), name), name)
      && IsOpen(Toggle(Toggle(OpenNew(map[], logs), name), name), name)
  {
    var gs := Grouped(logs);
    GroupedPartitions(logs);
    var name := gs[j].name;
    assert gs[j].logs == Members(logs, name);
    GroupsNonEmpty(logs, j);
    var e := gs[j].logs[0];
    assert e in logs && GroupKey(e) == name;
    var k :| 0 <= k < |logs| && logs[k] == e;
  }

  /** No group is empty. */
  lemma GroupsNonEmpty(logs: seq<LogEntry>, j: int)
    requires 0 <= j < |Grouped(logs)|
    ensures Grouped(logs)[j].logs != []
  {
    GroupedPartitions(logs);
    var gs := Grouped(logs);
    var name := gs[j].name;
    assert name in NamesOf(gs);
    MembersNonEmpty(logs, gs, name);
  }

  /** A group name that came from the logs has members. */
  lemma {:induction false} MembersNonEmpty(logs: seq<LogEntry>, gs: seq<Group>, name: string)
    requires gs == Grouped(logs)
    requires name in NamesOf(gs)
    ensures Members(logs, name) != []
  {
    if logs != [] {
      var init := logs[..|logs| - 1];
      var e := logs[|logs| - 1];
      MembersSnoc(init, e, name);
      assert init + [e] == logs;
      if GroupKey(e) != name {
        var g0 := Grouped(init);
        AddToNames(g0, e);
        assert name in NamesOf(g0);
        MembersNonEmpty(init, g0, name);
      }
    }
  }

  /** `renderStatusBadge`: the colour classes for a status. */
  function BadgeColor(status: string): string {
    if status == "IN-PROCESS" || status == "RECEIVED" then "bg-yellow-500 text-black"
    else if status == "PROCESSED" then "bg-blue-500 text-white"
    else if status == "SENT" || status == "OUT-SENT" then "bg-green-600 text-white"
    else if status == "ERROR" then "bg-red-600 text-white"
    else "bg-slate-600 text-white"
  }

  /** The status text a row shows: `log.status || "UNKNOWN"`. */
  function RowStatus(e: LogEntry): (s: string)
    ensures s != ""
  {
    OrText(if e.status.Some? then e.status.value else "", "UNKNOWN")
  }

  /** Examples: the message statuses the server writes each get their own
      colour, except SKIPPED, which shares the neutral colour with a missing
      status. `BadgeColorExact` states the table for every status. */
  lemma ServerStatusColors()
    ensures BadgeColor("IN-PROCESS") == "bg-yellow-500 text-black"
    ensures BadgeColor("PROCESSED") == "bg-blue-500 text-white"
    ensures BadgeColor("SENT") == "bg-green-600 text-white"
    ensures BadgeColor("ERROR") == "bg-red-600 text-white"
    ensures BadgeColor("SKIPPED") == BadgeColor("UNKNOWN") == "bg-slate-600 text-white"
  {
  }

  /** For every status: the colour is neutral exactly when the status is
      none of the six that `renderStatusBadge` names, and the two spellings
      of each named colour share it. */
  lemma BadgeColorExact(status: string)
    ensures BadgeColor(status) == "bg-slate-600 text-white" <==>
      status != "IN-PROCESS" && status != "RECEIVED" && status != "PROCESSED"
      && status != "SENT" && status != "OUT-SENT" && status != "ERROR"
    ensures BadgeColor(status) == "bg-yellow-500 text-black" <==> status == "IN-PROCESS" || status == "RECEIVED"
    ensures BadgeColor(status) == "bg-green-600 text-white" <==> status == "SENT" || status == "OUT-SENT"
  {
  }

  /** What the component renders. */
  datatype View = Spinner | Failure(text: string) | NoLogs | Groups(groups: seq<Group>)

  /** `LogStream`: loading first, then a non-empty error, then the empty
      notice, and only then the groups. */
  function Render(loading: bool, error: Option<string>, logs: seq<LogEntry>): (v: View)
    ensures loading <==> v == Spinner
    ensures v.Failure? <==> !loading && error.Some? && error.value != ""
    ensures v.Failure? ==> v.text == error.value
    ensures v == NoLogs <==> !loading && (error.None? || error.value == "") && logs == []
    ensures v.Groups? ==> logs != [] && Partitions(v.groups, logs) && TotalSize(v.groups) == |logs|
  {
    if loading then Spinner
    else if error.Some? && error.value != "" then Failure(error.value)
    else if logs == [] then NoLogs
    else
      GroupedPartitions(logs);
      GroupedSize(logs);
      Groups(Grouped(logs))
  }
}

=== FILE: message_api.dfy ===
/** The client's message fetch (client/src/services/message.api.ts,
    `fetchLogs`): the rows the server returns for GET /message are mapped
    one by one onto the log entries the monitor pages display, and the
    monitor's channel picker decides which channel is asked for.

    The mapping reads camelCase keys (`channelId`, `channelName`,
    `timestamp`, `originalPayload`, `level`, `destinationLogs`, ...), while
    the server's GET /message (server/src/services/message.services.ts:93-103)
    answers with snake_case columns and no level or destination log. Every
    key is therefore optional here, and `ServerRow` describes what the
    server actually sends.
 */
module MessageApi {
  import opened Values
  import opened Text

  /** One destination attempt as the server reports it under a message. */
  datatype DestinationEntry = DestinationEntry(destinationName: Option<string>, status: Option<string>)

  /** One row of the response. Fields the server may leave out are options;
      `None` is JavaScript's `undefined`. */
  datatype RawMessage = RawMessage(
    id: int,
    channelId: Option<int>,
    channelName: Option<string>,
    timestamp: Option<string>,
    direction: Option<string>,
    status: Option<string>,
    level: Option<string>,
    originalPayload: Option<string>,
    transformedPayload: Option<string>,
    destinationLogs: Option<seq<DestinationEntry>>)

  /** The log entry the pages work with. */
  datatype LogEntry = LogEntry(
    id: int,
    channelId: Option<int>,
    channelName: Option<string>,
    timestamp: Option<string>,
    direction: Option<string>,
    status: Option<string>,
    level: string,
    message: string,
    originalPayload: Option<string>,
    transformedPayload: Option<string>,
    destinationLogs: seq<DestinationEntry>)

  /** How a template literal renders an optional string. */
  function Shown(v: Option<string>): string {
    match v
    case None => "undefined"
    case Some(s) => s
  }

  /** `msg.status?.toUpperCase()`: an absent status stays absent. */
  function NormalStatus(status: Option<string>): (r: Option<string>)
    ensures r.None? <==> status.None?
    ensures r.Some? ==> |r.value| == |status.value|
  {
    match status
    case None => None
    case Some(s) => Some(ToUpper(s))
  }

  /** Normalising a normalised status changes nothing. */
  lemma NormalStatusIdempotent(status: Option<string>)
    ensures NormalStatus(NormalStatus(status)) == NormalStatus(status)
  {
    if status.Some? {
      ToUpperIdempotent(status.value);
    }
  }

  /** The mapping of one row. */
  function ToEntry(m: RawMessage): (e: LogEntry)
    ensures e.id == m.id && e.channelId == m.channelId && e.channelName == m.channelName
    ensures e.timestamp == m.timestamp && e.direction == m.direction
    ensures e.originalPayload == m.originalPayload && e.transformedPayload == m.transformedPayload
    ensures e.status == NormalStatus(m.status)
    ensures e.level != ""
    ensures m.level.Some? && m.level.value != "" ==> e.level == m.level.value
    ensures m.level.None? || m.level.value == "" ==> e.level == "INFO"
    ensures m.destinationLogs.Some? ==> e.destinationLogs == m.destinationLogs.value
    ensures m.destinationLogs.None? ==> e.destinationLogs == []
    ensures StartsWith(e.message, Shown(m.direction) + " - ")
    ensures EndsWith(e.message, Shown(m.status))
    ensures |e.message| == |Shown(m.direction)| + 3 + |Shown(m.status)|
  {
    var message := Shown(m.direction) + " - " + Shown(m.status);
    assert message[..|Shown(m.direction) + " - "|] == Shown(m.direction) + " - ";
    assert message[|message| - |Shown(m.status)|..] == Shown(m.status);
    LogEntry(
      m.id, m.channelId, m.channelName, m.timestamp, m.direction,
      NormalStatus(m.status),
      OrText(if m.level.Some? then m.level.value else "", "INFO"),
      message,
      m.originalPayload, m.transformedPayload,
      if m.destinationLogs.Some? then m.destinationLogs.value else [])
  }

  /** The message text keeps the status as the server wrote it, while the
      status field is upper-cased: for a server status such as "sent" the
      two differ in case. */
  lemma MessageKeepsOriginalCase(m: RawMessage)
    requires m.status.Some?
    ensures ToEntry(m).status == Some(ToUpper(m.status.value))
    ensures EndsWith(ToEntry(m).message, m.status.value)
    ensures m.status == Some("sent") ==> ToEntry(m).status == Some("SENT")
  {
    assert ToUpper("sent") == "SENT";
  }

  /** A row as the server's GET /message sends it: of the keys the mapping
      reads, only `id`, `direction` and `status` are present. */
  predicate ServerRow(m: RawMessage) {
    && m.channelId.None? && m.channelName.None? && m.timestamp.None?
    && m.level.None? && m.originalPayload.None? && m.transformedPayload.None?
    && m.destinationLogs.None?
  }

  /** A row from the server maps to an entry with no channel, time or
      payloads, the INFO level and no destination attempts; only its
      identity, direction and status come through. */
  lemma ServerRowReadsBlank(m: RawMessage)
    requires ServerRow(m)
    ensures var e := ToEntry(m);
      && e.id == m.id && e.direction == m.direction && e.status == NormalStatus(m.status)
      && e.channelId.None? && e.channelName.None? && e.timestamp.None?
      && e.originalPayload.None? && e.transformedPayload.None?
      && e.level == "INFO" && e.destinationLogs == []
  {
  }

  /** `fetchLogs`: one entry per row. */
  function FetchLogs(rows: seq<RawMessage>): (r: seq<LogEntry>)
    ensures |r| == |rows|
  {
    if rows == [] then [] else [ToEntry(rows[0])] + FetchLogs(rows[1..])
  }

  /** Each entry comes from the row at the same position. */
  lemma {:induction false} FetchLogsAt(rows: seq<RawMessage>, i: int)
    requires 0 <= i < |rows|
    ensures FetchLogs(rows)[i] == ToEntry(rows[i])
    ensures FetchLogs(rows)[i].id == rows[i].id
  {
    var r := FetchLogs(rows);
    assert r == [ToEntry(rows[0])] + FetchLogs(rows[1..]);
    if i > 0 {
      FetchLogsAt(rows[1..], i - 1);
      assert r[i] == FetchLogs(rows[1..])[i - 1];
    }
  }

  /** Fetching two batches maps each on its own. */
  lemma {:induction false} FetchLogsAppend(a: seq<RawMessage>, b: seq<RawMessage>)
    ensures FetchLogs(a + b) == FetchLogs(a) + FetchLogs(b)
  {
    if a != [] {
      assert (a + b)[1..] == a[1..] + b;
      FetchLogsAppend(a[1..], b);
    } else {
      assert a + b == b;
    }
  }
}

=== FILE: message_processor.dfy ===
/** The inbound message pipeline (server/src/services/messageProcessor.services.ts):
    format detection, the channel-status gate, the channel processing
    script, the per-destination loop and the final bookkeeping.
 */
module MessageProcessor {
  import opened Values
  import opened Text
  import opened Seqs
  import opened Store
  import opened Oracles
  import Hl7Converter

  datatype Format = HL7 | JSON | XML | TEXT

  /** The `message_type` text stored for a format. */
  function FormatName(f: Format): string {
    match f
    case HL7 => "HL7"
    case JSON => "JSON"
    case XML => "XML"
    case TEXT => "TEXT"
  }

  /** A trimmed text that counts as HL7: it starts with `MSH|` and contains
      `PID|` somewhere. */
  predicate IsHl7Text(t: string) {
    StartsWith(t, "MSH|") && Contains(t, "PID|")
  }

  /** A trimmed text that counts as JSON: it starts with `{` or `[` and
      `JSON.parse` accepts it. */
  predicate IsJsonText(t: string, parsesAsJson: string -> bool) {
    (StartsWith(t, "{") || StartsWith(t, "[")) && parsesAsJson(t)
  }

  /** A trimmed text that counts as XML: it starts with `<` and ends with `>`. */
  predicate IsXmlText(t: string) {
    StartsWith(t, "<") && EndsWith(t, ">")
  }

  /** `detectMessageFormat(payload)`. The tests run in a fixed order: a
      non-null object that is not a Buffer is JSON; a string is trimmed and
      is HL7, else JSON, else XML by the text rules above, in that order;
      everything else (including a Buffer, a number, `null`) is TEXT. */
  function DetectFormat(payload: Value, parsesAsJson: string -> bool): (f: Format)
    ensures f == HL7 <==> payload.Str? && IsHl7Text(Trim(payload.s))
    ensures f == JSON <==>
      IsPlainObject(payload) ||
      (payload.Str? && !IsHl7Text(Trim(payload.s)) && IsJsonText(Trim(payload.s), parsesAsJson))
    ensures f == XML <==>
      payload.Str? && !IsHl7Text(Trim(payload.s)) && !IsJsonText(Trim(payload.s), parsesAsJson)
      && IsXmlText(Trim(payload.s))
    ensures !payload.Str? && !IsPlainObject(payload) ==> f == TEXT
  {
    if IsPlainObject(payload) then JSON
    else if payload.Str? then
      var t := Trim(payload.s);
      if IsHl7Text(t) then HL7
      else if IsJsonText(t, parsesAsJson) then JSON
      else if IsXmlText(t) then XML
      else TEXT
    else TEXT
  }

  /** A header alone is not enough: a text that nowhere contains the
      `PID|` marker is never classified as HL7, since trimming only removes
      characters. */
  lemma NoPidMarkerIsNotHl7(t: string, parsesAsJson: string -> bool)
    requires !Contains(t, "PID|")
    ensures DetectFormat(Str(t), parsesAsJson) != HL7
  {
    TrimmedOccurrence(t, "PID|");
  }

  /** What occurs in the trimmed text occurs in the text. */
  lemma TrimmedOccurrence(t: string, p: string)
    ensures Contains(Trim(t), p) ==> Contains(t, p)
  {
    OccursInSlice(t, Trim(t), |t| - |TrimStart(t)|, p);
  }

  /** What occurs in a slice occurs in the whole. */
  lemma OccursInSlice(t: string, r: string, a: int, p: string)
    requires 0 <= a && a + |r| <= |t| && r == t[a..a + |r|]
    ensures Contains(r, p) ==> Contains(t, p)
  {
    if Contains(r, p) {
      var i :| 0 <= i <= |r| - |p| && OccursAt(r, p, i);
      var x, y := r[i..i + |p|], t[a + i..a + i + |p|];
      forall k | 0 <= k < |p| ensures x[k] == y[k] {
        assert r[i + k] == t[a + i + k];
      }
      assert x == y;
      assert OccursAt(t, p, a + i);
    }
  }

  /** A script is configured when its trimmed text is non-empty
      (`script?.trim()` is truthy). */
  predicate IsSet(script: string) {
    Trim(script) != ""
  }

  /** `runUserScript(code, msg)`: `msg` and the two converter helpers are
      bound and the VM times out after 3000 ms. */
  function RunUserScript(env: Env, code: string, msg: Value): Result<Value> {
    env.run(code, Sandbox(msg, None, true, Some(3000)))
  }

  /** What one run of the pipeline fixes before the destination loop. */
  datatype Run = Run(env: Env, channel: Channel, source: Format, transformed: Value, messageId: int)

  /** The script applied to a destination's copy of the payload: a
      configured channel `response_script` wins; the destination's own
      `processing_script` is used only when the channel's is blank. */
  function DestinationScript(ch: Channel, d: Destination): (r: Option<string>)
    ensures r.Some? ==> IsSet(r.value)
    ensures r == Some(d.processingScript) && d.processingScript != ch.responseScript ==> !IsSet(ch.responseScript)
    ensures r.None? <==> !IsSet(ch.responseScript) && !IsSet(d.processingScript)
    ensures IsSet(ch.responseScript) ==> r == Some(ch.responseScript)
    ensures !IsSet(ch.responseScript) && IsSet(d.processingScript) ==> r == Some(d.processingScript)
  {
    if IsSet(ch.responseScript) then Some(ch.responseScript)
    else if IsSet(d.processingScript) then Some(d.processingScript)
    else None
  }

  /** The HL7 <-> JSON auto-conversion for one destination. An HL7 source
      going to a REST destination is converted to JSON when the payload is
      a string containing `MSH|`; a JSON source going to an HL7 destination
      is converted to HL7 text unless the payload is already a string
      starting with `MSH|`; every other payload passes unchanged. */
  function AutoConvert(env: Env, source: Format, kind: string, v: Value): (r: Value)
    ensures source == HL7 && kind == "REST" && v.Str? && Contains(v.s, "MSH|") ==>
      r == Hl7Converter.Hl7ToJson(v.s, env.parseHl7(v.s))
    ensures source == JSON && kind == "HL7" && !(v.Str? && StartsWith(v.s, "MSH|")) ==>
      r == Str(Hl7Converter.JsonToHl7(v, env.now, env.serialiseHl7))
    ensures (source != HL7 && source != JSON) || (kind != "REST" && kind != "HL7") ==> r == v
    ensures source == HL7 && kind == "REST" ==> r == v || r.Object?
    ensures source == JSON && kind == "HL7" ==> r.Str?
    ensures source == HL7 && kind == "HL7" ==> r == v
    ensures source == JSON && kind == "REST" ==> r == v
  {
    var v1 := if source == HL7 && kind == "REST" && v.Str? && Contains(v.s, "MSH|")
      then Hl7Converter.Hl7ToJson(v.s, env.parseHl7(v.s)) else v;
    if source == JSON && kind == "HL7" && !(v1.Str? && StartsWith(v1.s, "MSH|"))
    then Str(Hl7Converter.JsonToHl7(v1, env.now, env.serialiseHl7))
    else v1
  }

  /** The response text the destination loop records for a successful send. */
  const Hl7Sent: string := "HL7 message sent successfully"
  const Unsupported: string := "Unsupported destination type"

  /** The send step: REST destinations get an axios POST with an 8000 ms
      timeout and a JSON content type, HL7 destinations a TCP send, and any
      other type is not contacted at all and counts as a success. */
  function Send(env: Env, d: Destination, payload: Value): (r: Result<string>)
    ensures d.kind == "REST" ==> r == env.post(HttpPost(d.endpoint, payload, Some(8000), true))
    ensures d.kind == "HL7" ==> (r.Ok? <==> env.sendTcp(d.endpoint, payload).Ok?)
    ensures d.kind == "HL7" && r.Ok? ==> r.value == Hl7Sent
    ensures d.kind != "REST" && d.kind != "HL7" ==> r == Ok(Unsupported)
  {
    if d.kind == "REST" then env.post(HttpPost(d.endpoint, payload, Some(8000), true))
    else if d.kind == "HL7" then
      match env.sendTcp(d.endpoint, payload)
      case Ok(_) => Ok(Hl7Sent)
      case Err(e) => Err(e)
    else Ok(Unsupported)
  }

  /** The body of the `try` block for one destination: script, conversion,
      send. `Ok(responseText)` or the message of what was thrown. */
  function DestinationOutcome(r: Run, d: Destination): Result<string> {
    var scripted := match DestinationScript(r.channel, d)
      case None => Ok(r.transformed)
      case Some(code) => RunUserScript(r.env, code, r.transformed);
    match scripted
    case Err(e) => Err(e)
    case Ok(p) => Send(r.env, d, AutoConvert(r.env, r.source, d.kind, p))
  }

  /** When the channel has a response script, a destination's own
      processing script has no influence on what happens at that
      destination. */
  lemma ChannelScriptShadowsDestinationScript(r: Run, d: Destination, other: string)
    requires IsSet(r.channel.responseScript)
    ensures DestinationOutcome(r, d) == DestinationOutcome(r, d.(processingScript := other))
  {
  }

  /** With neither script configured the transformed payload itself goes to
      the conversion step; in particular a JSON payload sent to a REST
      destination is posted unchanged. */
  lemma NoScriptSendsTransformed(r: Run, d: Destination)
    requires !IsSet(r.channel.responseScript) && !IsSet(d.processingScript)
    ensures DestinationOutcome(r, d) == Send(r.env, d, AutoConvert(r.env, r.source, d.kind, r.transformed))
    ensures r.source == JSON && d.kind == "REST" ==>
      DestinationOutcome(r, d) == r.env.post(HttpPost(d.endpoint, r.transformed, Some(8000), true))
  {
  }

  /** The log row written for one destination, given the outcome of its
      `try` block: SUCCESS with the response text or ERROR with the error
      message, tied to the inbound message. */
  function LogRow(m: int, d: Destination, o: Result<string>): (row: DestinationLog)
    ensures row.messageId == Some(m) && row.destinationId == d.id
    ensures row.status == "SUCCESS" <==> o.Ok?
    ensures row.status == "ERROR" <==> o.Err?
  {
    match o
    case Ok(text) => DestinationLog(Some(m), d.id, "SUCCESS", text)
    case Err(e) => DestinationLog(Some(m), d.id, "ERROR", e)
  }

  /** The log rows for a list of destinations and their outcomes, one each,
      in order. */
  function LogRows(m: int, ds: seq<Destination>, os: seq<Result<string>>): (rows: seq<DestinationLog>)
    requires |os| == |ds|
    ensures |rows| == |ds|
  {
    if ds == [] then [] else [LogRow(m, ds[0], os[0])] + LogRows(m, ds[1..], os[1..])
  }

  /** Row `i` of the log rows is the row for destination `i`. */
  lemma {:induction false} LogRowsAt(m: int, ds: seq<Destination>, os: seq<Result<string>>, i: int)
    requires |os| == |ds| && 0 <= i < |ds|
    ensures LogRows(m, ds, os)[i] == LogRow(m, ds[i], os[i])
  {
    if i > 0 {
      LogRowsAt(m, ds[1..], os[1..], i - 1);
    }
  }

  /** How many entries of `ds` with this id succeed. */
  function Oks(ds: seq<Destination>, os: seq<Result<string>>, id: int): nat
    requires |os| == |ds|
  {
    if ds == [] then 0
    else (if ds[0].id == id && os[0].Ok? then 1 else 0) + Oks(ds[1..], os[1..], id)
  }

  /** How many entries of `ds` with this id fail. */
  function Errs(ds: seq<Destination>, os: seq<Result<string>>, id: int): nat
    requires |os| == |ds|
  {
    if ds == [] then 0
    else (if ds[0].id == id && os[0].Err? then 1 else 0) + Errs(ds[1..], os[1..], id)
  }

  /** Some outcome is a failure. */
  predicate AnyFails(os: seq<Result<string>>) {
    exists j :: 0 <= j < |os| && os[j].Err?
  }

  /** One turn of the destination loop, for inbound message `m` whose
      transformed payload is `t`. The destination is isolated: a throw is
      caught, logged as ERROR, counted in `total_error` and marks the
      inbound row ERROR; a success is logged SUCCESS and counted in
      `total_sent`. */
  function Step(m: int, t: Value, db: Db, d: Destination, o: Result<string>): (out: Db)
    ensures SameChannels(out, db)
    ensures out.logs == db.logs + [LogRow(m, d, o)]
    ensures |out.destinations| == |db.destinations|
    ensures forall k :: 0 <= k < |db.destinations| ==>
      var e := db.destinations[k];
      out.destinations[k] ==
        if e.id != d.id then e
        else if o.Ok? then e.(totalSent := e.totalSent + 1)
        else e.(totalError := e.totalError + 1)
    ensures |out.messages| == |db.messages|
    ensures forall k :: 0 <= k < |db.messages| ==>
      out.messages[k] == if db.messages[k].id == m && o.Err?
        then db.messages[k].(transformed := Some(t), status := "ERROR")
        else db.messages[k]
  {
    match o
    case Ok(text) =>
      Bump(AppendLog(db, DestinationLog(Some(m), d.id, "SUCCESS", text)), d.id, true)
    case Err(e) =>
      UpdateMessage(Bump(AppendLog(db, DestinationLog(Some(m), d.id, "ERROR", e)), d.id, false), m, t, "ERROR")
  }

  /** A destination of a type other than REST or HL7 is never contacted:
      unless its script throws, whatever the payload it is logged SUCCESS
      with "Unsupported destination type" and counted in `total_sent`. */
  lemma UnsupportedTypeCountsAsSent(r: Run, db: Db, d: Destination)
    requires d.kind != "REST" && d.kind != "HL7"
    requires DestinationScript(r.channel, d).Some? ==>
      RunUserScript(r.env, DestinationScript(r.channel, d).value, r.transformed).Ok?
    ensures DestinationOutcome(r, d) == Ok(Unsupported)
    ensures var out := Step(r.messageId, r.transformed, db, d, DestinationOutcome(r, d));
      && out.logs == db.logs + [DestinationLog(Some(r.messageId), d.id, "SUCCESS", Unsupported)]
      && out.messages == db.messages
      && forall k :: 0 <= k < |db.destinations| && db.destinations[k].id == d.id ==>
           out.destinations[k].totalSent == db.destinations[k].totalSent + 1
           && out.destinations[k].totalError == db.destinations[k].totalError
  {
    var out := Step(r.messageId, r.transformed, db, d, Ok(Unsupported));
    assert out.messages == db.messages;
  }

  /** The destination loop over `ds` with outcomes `os`, in order. Only the
      log, the destination counters and the message rows change. */
  function DeliverAll(m: int, t: Value, db: Db, ds: seq<Destination>, os: seq<Result<string>>): (out: Db)
    requires |os| == |ds|
    ensures SameChannels(out, db)
    ensures |out.destinations| == |db.destinations|
    ensures |out.messages| == |db.messages|
    decreases |ds|
  {
    if ds == [] then db else DeliverAll(m, t, Step(m, t, db, ds[0], os[0]), ds[1..], os[1..])
  }

  /** The loop writes exactly one log row per destination, in loop order. */
  lemma {:induction false} DeliverLogs(m: int, t: Value, db: Db, ds: seq<Destination>, os: seq<Result<string>>)
    requires |os| == |ds|
    ensures DeliverAll(m, t, db, ds, os).logs == db.logs + LogRows(m, ds, os)
    decreases |ds|
  {
    if ds != [] {
      var db1 := Step(m, t, db, ds[0], os[0]);
      DeliverLogs(m, t, db1, ds[1..], os[1..]);
      assert LogRows(m, ds, os) == [LogRow(m, ds[0], os[0])] + LogRows(m, ds[1..], os[1..]);
      assert db1.logs + LogRows(m, ds[1..], os[1..]) == db.logs + LogRows(m, ds, os);
    }
  }

  /** Each destination row's counters grow by the number of its successes
      and failures in the loop. */
  lemma {:induction false} DeliverCounters(m: int, t: Value, db: Db, ds: seq<Destination>, os: seq<Result<string>>, k: int)
    requires |os| == |ds|
    requires 0 <= k < |db.destinations|
    ensures var d := db.destinations[k];
      DeliverAll(m, t, db, ds, os).destinations[k] ==
        d.(totalSent := d.totalSent + Oks(ds, os, d.id), totalError := d.totalError + Errs(ds, os, d.id))
    decreases |ds|
  {
    if ds != [] {
      var db1 := Step(m, t, db, ds[0], os[0]);
      var d := db.destinations[k];
      DeliverCounters(m, t, db1, ds[1..], os[1..], k);
      assert DeliverAll(m, t, db, ds, os) == DeliverAll(m, t, db1, ds[1..], os[1..]);
      assert db1.destinations[k].id == d.id;
      assert Oks(ds, os, d.id) == (if ds[0].id == d.id && os[0].Ok? then 1 else 0) + Oks(ds[1..], os[1..], d.id);
      assert Errs(ds, os, d.id) == (if ds[0].id == d.id && os[0].Err? then 1 else 0) + Errs(ds[1..], os[1..], d.id);
    }
  }

  /** Some outcome fails exactly when the first does or some later one does. */
  lemma AnyFailsCons(os: seq<Result<string>>)
    requires os != []
    ensures AnyFails(os) <==> os[0].Err? || AnyFails(os[1..])
  {
    if AnyFails(os[1..]) {
      var j :| 0 <= j < |os[1..]| && os[1..][j].Err?;
      assert os[j + 1] == os[1..][j];
    }
  }

  /** The inbound row is marked ERROR, with the transformed payload, exactly
      when some destination failed; every other message row is untouched. */
  lemma {:induction false} DeliverMessages(m: int, t: Value, db: Db, ds: seq<Destination>, os: seq<Result<string>>, k: int)
    requires |os| == |ds|
    requires 0 <= k < |db.messages|
    ensures DeliverAll(m, t, db, ds, os).messages[k] ==
      if db.messages[k].id == m && AnyFails(os)
      then db.messages[k].(transformed := Some(t), status := "ERROR")
      else db.messages[k]
    decreases |ds|
  {
    if ds != [] {
      var db1 := Step(m, t, db, ds[0], os[0]);
      AnyFailsCons(os);
      DeliverMessages(m, t, db1, ds[1..], os[1..], k);
    }
  }

  /** The outcome of each destination's `try` block, in loop order. */
  function Outcomes(r: Run, ds: seq<Destination>): (os: seq<Result<string>>)
    ensures |os| == |ds|
    ensures forall i :: 0 <= i < |ds| ==> os[i] == DestinationOutcome(r, ds[i])
  {
    seq(|ds|, i requires 0 <= i < |ds| => DestinationOutcome(r, ds[i]))
  }

  /** The destination loop of a run. */
  function Deliver(r: Run, db: Db, ds: seq<Destination>): Db {
    DeliverAll(r.messageId, r.transformed, db, ds, Outcomes(r, ds))
  }

  /** What `processInboundMessage` returns, or `ChannelNotFound` for the
      error it throws when the channel does not exist. */
  datatype Outcome =
    | ChannelNotFound(channelId: int)
    | Skipped(status: string)
    | ScriptFailed(messageId: int, error: string)
    | Sent(messageId: int, transformed: Value)

  /** The returned object: `{skipped: true, status}`,
      `{messageId, error, status: "ERROR"}` or
      `{messageId, transformed, skipped: false, status: "SENT"}`. */
  function OutcomeValue(o: Outcome): Value
    requires !o.ChannelNotFound?
  {
    match o
    case Skipped(status) => Object(map["skipped" := Bool(true), "status" := Str(status)])
    case ScriptFailed(m, e) => Object(map["messageId" := Num(m), "error" := Str(e), "status" := Str("ERROR")])
    case Sent(m, t) => Object(map["messageId" := Num(m), "transformed" := t, "skipped" := Bool(false), "status" := Str("SENT")])
  }

  datatype Processed = Processed(outcome: Outcome, db: Db)

  /** The channel processing script call: `<script>; transform(msg);`. */
  function ChannelTransform(env: Env, ch: Channel, payload: Value): Result<Value> {
    if IsSet(ch.processingScript)
    then RunUserScript(env, ch.processingScript + "; transform(msg);", payload)
    else Ok(payload)
  }

  /** `processInboundMessage(channelId, payload)`. */
  function ProcessInbound(env: Env, db: Db, channelId: int, payload: Value): (p: Processed)
    ensures p.outcome.ChannelNotFound? <==> FindChannel(db.channels, channelId).None?
    ensures p.outcome.ChannelNotFound? ==> p.db == db && p.outcome.channelId == channelId
    ensures p.db.channels == db.channels
    ensures p.outcome.Skipped? ==> p.db.destinations == db.destinations && p.db.logs == db.logs
    ensures p.outcome.ScriptFailed? ==> p.db.destinations == db.destinations && p.db.logs == db.logs
  {
    match FindChannel(db.channels, channelId)
    case None => Processed(ChannelNotFound(channelId), db)
    case Some(ch) =>
      var source := DetectFormat(payload, env.parsesAsJson);
      if ToUpper(ch.status) != "RUNNING" then
        var (db1, _) := InsertMessage(db, channelId, "IN", FormatName(source), payload, "SKIPPED");
        Processed(Skipped(ch.status), db1)
      else
        var (db1, m) := InsertMessage(db, channelId, "IN", FormatName(source), payload, "IN-PROCESS");
        match ChannelTransform(env, ch, payload)
        case Err(e) => Processed(ScriptFailed(m, e), UpdateMessage(db1, m, payload, "ERROR"))
        case Ok(t) =>
          var db2 := UpdateMessage(db1, m, t, "PROCESSED");
          var db3 := Deliver(Run(env, ch, source, t, m), db2, EnabledDestinations(db2, channelId));
          var db4 := SetMessageStatus(db3, m, "SENT");
          var (db5, _) := InsertMessage(db4, channelId, "OUT", FormatName(source), t, "SENT");
          Processed(Sent(m, t), db5)
  }

  /** The channel is running when its upper-cased status is RUNNING. */
  predicate Running(ch: Channel) {
    ToUpper(ch.status) == "RUNNING"
  }

  /** A channel that is not running gets exactly one IN row with status
      SKIPPED holding the original payload, and nothing else changes. */
  lemma ProcessSkipsStoppedChannel(env: Env, db: Db, channelId: int, payload: Value)
    requires FindChannel(db.channels, channelId).Some?
    requires !Running(FindChannel(db.channels, channelId).value)
    ensures var p := ProcessInbound(env, db, channelId, payload);
      && p.outcome == Skipped(FindChannel(db.channels, channelId).value.status)
      && p.db == db.(messages := db.messages + [Message(db.nextMessageId, channelId, "IN",
                       FormatName(DetectFormat(payload, env.parsesAsJson)), payload, None, "SKIPPED")],
                     nextMessageId := db.nextMessageId + 1)
  {
  }

  /** A stopped channel never reaches a script, a transport or the HL7
      serialiser: the result is the same whatever those oracles do. */
  lemma StoppedChannelContactsNothing(env: Env, other: Env, db: Db, channelId: int, payload: Value)
    requires FindChannel(db.channels, channelId).Some?
    requires !Running(FindChannel(db.channels, channelId).value)
    requires other.parsesAsJson == env.parsesAsJson
    ensures ProcessInbound(env, db, channelId, payload) == ProcessInbound(other, db, channelId, payload)
  {
  }

  /** A failing channel processing script sets the inbound row to ERROR
      with the original payload as transformed payload, and returns before
      any destination is read, contacted, logged or counted. */
  lemma ProcessScriptFailure(env: Env, db: Db, channelId: int, payload: Value)
    requires Wf(db)
    requires FindChannel(db.channels, channelId).Some?
    requires Running(FindChannel(db.channels, channelId).value)
    requires ChannelTransform(env, FindChannel(db.channels, channelId).value, payload).Err?
    ensures var p := ProcessInbound(env, db, channelId, payload);
      && p.outcome == ScriptFailed(db.nextMessageId,
                        ChannelTransform(env, FindChannel(db.channels, channelId).value, payload).error)
      && p.db.messages == db.messages + [Message(db.nextMessageId, channelId, "IN",
                       FormatName(DetectFormat(payload, env.parsesAsJson)), payload, Some(payload), "ERROR")]
      && p.db.destinations == db.destinations && p.db.logs == db.logs
  {
    FailingShape(env, db, channelId, payload);
    InsertThenUpdate(db, channelId, FormatName(DetectFormat(payload, env.parsesAsJson)), payload, payload, "ERROR");
  }

  /** The shape of a run whose channel script fails: insert, then mark ERROR. */
  lemma FailingShape(env: Env, db: Db, channelId: int, payload: Value)
    requires FindChannel(db.channels, channelId).Some?
    requires Running(FindChannel(db.channels, channelId).value)
    requires ChannelTransform(env, FindChannel(db.channels, channelId).value, payload).Err?
    ensures var p := ProcessInbound(env, db, channelId, payload);
      && p.outcome == ScriptFailed(db.nextMessageId,
                        ChannelTransform(env, FindChannel(db.channels, channelId).value, payload).error)
      && p.db == UpdateMessage(InsertMessage(db, channelId, "IN", FormatName(DetectFormat(payload, env.parsesAsJson)),
                                             payload, "IN-PROCESS").0, db.nextMessageId, payload, "ERROR")
  {
  }

  /** Inserting an inbound row and then updating it by its fresh id touches
      only that row. */
  lemma InsertThenUpdate(db: Db, channelId: int, fmt: string, payload: Value, t: Value, status: string)
    requires Wf(db)
    ensures var out := UpdateMessage(InsertMessage(db, channelId, "IN", fmt, payload, "IN-PROCESS").0,
                                     db.nextMessageId, t, status);
      && out.messages == db.messages + [Message(db.nextMessageId, channelId, "IN", fmt, payload, Some(t), status)]
      && out.destinations == db.destinations && out.logs == db.logs
  {
    var m := db.nextMessageId;
    var db1 := InsertMessage(db, channelId, "IN", fmt, payload, "IN-PROCESS").0;
    var out := UpdateMessage(db1, m, t, status);
    assert forall k :: 0 <= k < |db.messages| ==> db1.messages[k] == db.messages[k] && db.messages[k].id != m;
    assert out.messages == db.messages + [Message(m, channelId, "IN", fmt, payload, Some(t), status)];
  }

  /** A failing channel script stops the pipeline before any destination
      work: the result does not depend on the transports or the HL7
      conversion helpers. */
  lemma ScriptFailureContactsNoDestination(env: Env, other: Env, db: Db, channelId: int, payload: Value)
    requires FindChannel(db.channels, channelId).Some?
    requires Running(FindChannel(db.channels, channelId).value)
    requires ChannelTransform(env, FindChannel(db.channels, channelId).value, payload).Err?
    requires other == env.(post := other.post, sendTcp := other.sendTcp, parseHl7 := other.parseHl7,
                           serialiseHl7 := other.serialiseHl7, now := other.now)
    ensures ProcessInbound(env, db, channelId, payload) == ProcessInbound(other, db, channelId, payload)
  {
  }

  /** The run of the destination loop for a channel and payload. */
  function RunOf(env: Env, db: Db, channelId: int, payload: Value, t: Value): Run
    requires FindChannel(db.channels, channelId).Some?
  {
    Run(env, FindChannel(db.channels, channelId).value, DetectFormat(payload, env.parsesAsJson), t, db.nextMessageId)
  }

  /** The store once the IN row is written and marked PROCESSED with the
      transformed payload. */
  function Prepared(db: Db, channelId: int, fmt: string, payload: Value, t: Value): Db {
    UpdateMessage(InsertMessage(db, channelId, "IN", fmt, payload, "IN-PROCESS").0, db.nextMessageId, t, "PROCESSED")
  }

  /** The store a delivering run leaves behind. */
  function Finished(db: Db, channelId: int, fmt: string, payload: Value, t: Value,
                    es: seq<Destination>, os: seq<Result<string>>): Db
    requires |os| == |es|
  {
    var m := db.nextMessageId;
    InsertMessage(SetMessageStatus(DeliverAll(m, t, Prepared(db, channelId, fmt, payload, t), es, os),
                                   m, "SENT"), channelId, "OUT", fmt, t, "SENT").0
  }

  /** The shape of a delivering run: prepare, loop over the enabled
      destinations, mark SENT, append the OUT row. */
  lemma DeliveringShape(env: Env, db: Db, channelId: int, payload: Value)
    requires FindChannel(db.channels, channelId).Some?
    requires Running(FindChannel(db.channels, channelId).value)
    requires ChannelTransform(env, FindChannel(db.channels, channelId).value, payload).Ok?
    ensures var t := ChannelTransform(env, FindChannel(db.channels, channelId).value, payload).value;
      var fmt := FormatName(DetectFormat(payload, env.parsesAsJson));
      var m := db.nextMessageId;
      var es := EnabledDestinations(db, channelId);
      var os := Outcomes(RunOf(env, db, channelId, payload, t), es);
      var p := ProcessInbound(env, db, channelId, payload);
      && p.outcome == Sent(m, t)
      && p.db == Finished(db, channelId, fmt, payload, t, es, os)
  {
    var ch := FindChannel(db.channels, channelId).value;
    var t := ChannelTransform(env, ch, payload).value;
    var fmt := FormatName(DetectFormat(payload, env.parsesAsJson));
    var db2 := Prepared(db, channelId, fmt, payload, t);
    assert EnabledDestinations(db2, channelId) == EnabledDestinations(db, channelId);
  }

  lemma FinishedMessages(db: Db, channelId: int, fmt: string, payload: Value, t: Value,
                         es: seq<Destination>, os: seq<Result<string>>)
    requires Wf(db) && |os| == |es|
    ensures var m := db.nextMessageId;
      Finished(db, channelId, fmt, payload, t, es, os).messages ==
        db.messages + [Message(m, channelId, "IN", fmt, payload, Some(t), "SENT"),
                       Message(m + 1, channelId, "OUT", fmt, t, None, "SENT")]
  {
    var m := db.nextMessageId;
    var db2 := Prepared(db, channelId, fmt, payload, t);
    var db4 := SetMessageStatus(DeliverAll(m, t, db2, es, os), m, "SENT");
    assert forall k :: 0 <= k < |db.messages| ==> db.messages[k].id != m;
    var inRow := Message(m, channelId, "IN", fmt, payload, Some(t), "SENT");
    forall k | 0 <= k < |db2.messages| ensures db4.messages[k] == (db.messages + [inRow])[k] {
      DeliverMessages(m, t, db2, es, os, k);
    }
    assert db4.messages == db.messages + [inRow];
  }

  /** Each destination row of `after` is the same row of `before` with its
      counters raised by its own successes and failures in the loop. */
  predicate CountersAdvanced(before: seq<Destination>, after: seq<Destination>,
                             es: seq<Destination>, os: seq<Result<string>>)
    requires |os| == |es|
  {
    && |after| == |before|
    && forall k :: 0 <= k < |before| ==>
         var d := before[k];
         after[k] == d.(totalSent := d.totalSent + Oks(es, os, d.id), totalError := d.totalError + Errs(es, os, d.id))
  }

  lemma FinishedDestinations(db: Db, channelId: int, fmt: string, payload: Value, t: Value,
                             es: seq<Destination>, os: seq<Result<string>>)
    requires |os| == |es|
    ensures var out := Finished(db, channelId, fmt, payload, t, es, os);
      && out.logs == db.logs + LogRows(db.nextMessageId, es, os)
      && CountersAdvanced(db.destinations, out.destinations, es, os)
  {
    var m := db.nextMessageId;
    var db2 := Prepared(db, channelId, fmt, payload, t);
    var db3 := DeliverAll(m, t, db2, es, os);
    var out := Finished(db, channelId, fmt, payload, t, es, os);
    assert out.destinations == db3.destinations && out.logs == db3.logs;
    assert db2.destinations == db.destinations && db2.logs == db.logs;
    DeliverLogs(m, t, db2, es, os);
    DeliverAdvances(m, t, db2, es, os);
  }

  /** The destination loop advances every row's counters. */
  lemma DeliverAdvances(m: int, t: Value, db: Db, es: seq<Destination>, os: seq<Result<string>>)
    requires |os| == |es|
    ensures CountersAdvanced(db.destinations, DeliverAll(m, t, db, es, os).destinations, es, os)
  {
    forall k | 0 <= k < |db.destinations|
      ensures var d := db.destinations[k];
        DeliverAll(m, t, db, es, os).destinations[k] ==
          d.(totalSent := d.totalSent + Oks(es, os, d.id), totalError := d.totalError + Errs(es, os, d.id))
    {
      DeliverCounters(m, t, db, es, os, k);
    }
  }

  /** A running channel whose script succeeds (or is blank): the inbound row
      ends with status SENT and the transformed payload, whatever happened
      at the destinations, and exactly one OUT row with status SENT follows
      it; the result is SENT. */
  lemma ProcessDeliversMessages(env: Env, db: Db, channelId: int, payload: Value)
    requires Wf(db)
    requires FindChannel(db.channels, channelId).Some?
    requires Running(FindChannel(db.channels, channelId).value)
    requires ChannelTransform(env, FindChannel(db.channels, channelId).value, payload).Ok?
    ensures var t := ChannelTransform(env, FindChannel(db.channels, channelId).value, payload).value;
      var fmt := FormatName(DetectFormat(payload, env.parsesAsJson));
      var m := db.nextMessageId;
      var p := ProcessInbound(env, db, channelId, payload);
      && p.outcome == Sent(m, t)
      && p.db.messages == db.messages + [Message(m, channelId, "IN", fmt, payload, Some(t), "SENT"),
                                         Message(m + 1, channelId, "OUT", fmt, t, None, "SENT")]
  {
    DeliveringShape(env, db, channelId, payload);
    var t := ChannelTransform(env, FindChannel(db.channels, channelId).value, payload).value;
    var es := EnabledDestinations(db, channelId);
    FinishedMessages(db, channelId, FormatName(DetectFormat(payload, env.parsesAsJson)), payload, t,
                     es, Outcomes(RunOf(env, db, channelId, payload, t), es));
  }

  /** The two rows a delivering run appends, field by field: an inbound row
      and an outbound row of the channel, both SENT. */
  lemma DeliveringPair(env: Env, db: Db, channelId: int, payload: Value)
    requires Wf(db)
    requires FindChannel(db.channels, channelId).Some?
    requires Running(FindChannel(db.channels, channelId).value)
    requires ChannelTransform(env, FindChannel(db.channels, channelId).value, payload).Ok?
    ensures var after := ProcessInbound(env, db, channelId, payload).db.messages; var n := |db.messages|;
      && |after| == n + 2 && after[..n] == db.messages
      && after[n].direction == "IN" && after[n + 1].direction == "OUT"
      && after[n].status == "SENT" && after[n + 1].status == "SENT"
      && after[n].channelId == channelId && after[n + 1].channelId == channelId
  {
    ProcessDeliversMessages(env, db, channelId, payload);
  }

  /** A delivering run writes exactly one log row per enabled destination,
      in query order, SUCCESS or ERROR as that destination's outcome was,
      and raises each destination's counters by its own successes and
      failures. */
  lemma ProcessDeliversLogs(env: Env, db: Db, channelId: int, payload: Value)
    requires FindChannel(db.channels, channelId).Some?
    requires Running(FindChannel(db.channels, channelId).value)
    requires ChannelTransform(env, FindChannel(db.channels, channelId).value, payload).Ok?
    ensures var t := ChannelTransform(env, FindChannel(db.channels, channelId).value, payload).value;
      var m := db.nextMessageId;
      var es := EnabledDestinations(db, channelId);
      var os := Outcomes(RunOf(env, db, channelId, payload, t), es);
      var p := ProcessInbound(env, db, channelId, payload);
      && p.db.logs == db.logs + LogRows(m, es, os)
      && CountersAdvanced(db.destinations, p.db.destinations, es, os)
  {
    DeliveringShape(env, db, channelId, payload);
    var t := ChannelTransform(env, FindChannel(db.channels, channelId).value, payload).value;
    var es := EnabledDestinations(db, channelId);
    FinishedDestinations(db, channelId, FormatName(DetectFormat(payload, env.parsesAsJson)), payload, t,
                         es, Outcomes(RunOf(env, db, channelId, payload, t), es));
  }

  /** The number of entries of `ds` with this id. */
  function Occurrences(ds: seq<Destination>, id: int): nat {
    if ds == [] then 0 else (if ds[0].id == id then 1 else 0) + Occurrences(ds[1..], id)
  }

  /** Every entry with the id either succeeds or fails. */
  lemma {:induction false} OksPlusErrs(ds: seq<Destination>, os: seq<Result<string>>, id: int)
    requires |os| == |ds|
    ensures Oks(ds, os, id) + Errs(ds, os, id) == Occurrences(ds, id)
  {
    if ds != [] {
      OksPlusErrs(ds[1..], os[1..], id);
    }
  }

  /** In a table with distinct ids, filtering keeps the row with a given id
      once when the row passes the filter and not at all otherwise. */
  lemma {:induction false} OccurrencesInFilter(s: seq<Destination>, p: Destination -> bool, k: int)
    requires 0 <= k < |s|
    requires forall i, j :: 0 <= i < j < |s| ==> s[i].id != s[j].id
    ensures Occurrences(Filter(s, p), s[k].id) == if p(s[k]) then 1 else 0
  {
    var head := if p(s[0]) then [s[0]] else [];
    var rest := s[1..];
    var fr := Filter(rest, p);
    assert Filter(s, p) == head + fr;
    OccurrencesAppend(head, fr, s[k].id);
    if k == 0 {
      forall i | 0 <= i < |rest| ensures rest[i].id != s[0].id {
        assert rest[i] == s[i + 1];
      }
      AbsentNotOccurring(fr, s[0].id, rest);
    } else {
      forall i, j | 0 <= i < j < |rest| ensures rest[i].id != rest[j].id {
        assert rest[i] == s[i + 1] && rest[j] == s[j + 1];
      }
      OccurrencesInFilter(rest, p, k - 1);
      assert rest[k - 1] == s[k];
    }
  }

  lemma {:induction false} OccurrencesAppend(a: seq<Destination>, b: seq<Destination>, id: int)
    ensures Occurrences(a + b, id) == Occurrences(a, id) + Occurrences(b, id)
  {
    if a != [] {
      assert (a + b)[1..] == a[1..] + b;
      OccurrencesAppend(a[1..], b, id);
    } else {
      assert a + b == b;
    }
  }

  /** An id that no element of a filtered sequence's source carries does
      not occur in it. */
  lemma {:induction false} AbsentNotOccurring(f: seq<Destination>, id: int, s: seq<Destination>)
    requires forall i :: 0 <= i < |f| ==> f[i] in s
    requires forall i :: 0 <= i < |s| ==> s[i].id != id
    ensures Occurrences(f, id) == 0
  {
    if f != [] {
      assert forall i :: 1 <= i < |f| ==> f[1..][i - 1] == f[i];
      AbsentNotOccurring(f[1..], id, s);
    }
  }

  /** In a well-formed store every enabled destination of the channel gets
      exactly one counter increment from a delivering run, and every other
      destination none. */
  lemma ExactlyOneIncrement(env: Env, db: Db, channelId: int, payload: Value, k: int)
    requires Wf(db)
    requires FindChannel(db.channels, channelId).Some?
    requires Running(FindChannel(db.channels, channelId).value)
    requires ChannelTransform(env, FindChannel(db.channels, channelId).value, payload).Ok?
    requires 0 <= k < |db.destinations|
    ensures var d := db.destinations[k];
      var d' := ProcessInbound(env, db, channelId, payload).db.destinations[k];
      d'.totalSent + d'.totalError == d.totalSent + d.totalError + (if IsEnabledOf(channelId, d) then 1 else 0)
  {
    ProcessDeliversLogs(env, db, channelId, payload);
    var t := ChannelTransform(env, FindChannel(db.channels, channelId).value, payload).value;
    var es := EnabledDestinations(db, channelId);
    OksPlusErrs(es, Outcomes(RunOf(env, db, channelId, payload, t), es), db.destinations[k].id);
    OccurrencesInFilter(db.destinations, d => IsEnabledOf(channelId, d), k);
  }
}

=== FILE: message_service.dfy ===
/** The HTTP front door (server/src/services/message.services.ts):
    `handleInboundMessage` gates on the channel, runs the channel's
    processing script with a fallback, hands the result to the pipeline and
    shapes the reply; `getMessageStats` counts the Messages table.
 */
module MessageService {
  import opened Values
  import opened Text
  import opened Seqs
  import opened Store
  import opened Oracles
  import MessageProcessor

  /** An HTTP response: status code and JSON body. */
  datatype HttpReply = HttpReply(status: int, body: Value)

  /** `{message: text}` */
  function MessageBody(text: string): Value {
    Object(map["message" := Str(text)])
  }

  /** `{message: text, result}` */
  function Envelope(text: string, result: Value): Value {
    Object(map["message" := Str(text), "result" := result])
  }

  const Processed: string := "Message processed successfully"
  const ResponseScriptFailed: string := "Message processed successfully (response script failed)"

  /** The handler's script sandboxes bind only `msg` (and `result`) and time
      out after 2000 ms. */
  function HandlerSandbox(msg: Value, result: Option<Value>): Sandbox {
    Sandbox(msg, result, false, Some(2000))
  }

  /** The channel processing script as the handler runs it; a throw falls
      back to the original payload. */
  function HandlerTransform(env: Env, ch: Channel, payload: Value): Value {
    if MessageProcessor.IsSet(ch.processingScript) then
      match env.run(ch.processingScript + "; transform(msg);", HandlerSandbox(payload, None))
      case Ok(v) => v
      case Err(_) => payload
    else payload
  }

  /** The reply once the pipeline has produced `result`: the response
      script's value, the fallback envelope when it throws, or the default
      envelope when there is no response script. */
  function Respond(env: Env, ch: Channel, processed: Value, result: Value): (r: HttpReply)
    ensures r.status == 200
  {
    if MessageProcessor.IsSet(ch.responseScript) then
      match env.run(ch.responseScript + "; respond(msg, result);", HandlerSandbox(processed, Some(result)))
      case Ok(v) => HttpReply(200, v)
      case Err(_) => HttpReply(200, Envelope(ResponseScriptFailed, result))
    else HttpReply(200, Envelope(Processed, result))
  }

  /** `handleInboundMessage` for `POST /:channelId` with body `payload`. */
  function HandleInbound(env: Env, db: Db, channelId: nat, payload: Value): (r: (HttpReply, Db))
    ensures FindChannel(db.channels, channelId).None? ==>
      r == (HttpReply(404, MessageBody("Channel " + NatToString(channelId) + " not found")), db)
    ensures r.0.status == 400 <==>
      FindChannel(db.channels, channelId).Some? && !MessageProcessor.Running(FindChannel(db.channels, channelId).value)
    ensures r.0.status == 400 ==> r.1 == db
  {
    match FindChannel(db.channels, channelId)
    case None => (HttpReply(404, MessageBody("Channel " + NatToString(channelId) + " not found")), db)
    case Some(ch) =>
      if !MessageProcessor.Running(ch) then
        (HttpReply(400, MessageBody("Channel " + NatToString(channelId) + " is currently " + ch.status
                                    + ". Processing is disabled.")), db)
      else
        var processed := HandlerTransform(env, ch, payload);
        var p := MessageProcessor.ProcessInbound(env, db, channelId, processed);
        match p.outcome
        case ChannelNotFound(_) =>
          (HttpReply(500, MessageBody("Channel " + NatToString(channelId) + " not found")), p.db)
        case _ => (Respond(env, ch, processed, MessageProcessor.OutcomeValue(p.outcome)), p.db)
  }

  /** A missing or stopped channel never reaches the pipeline: the store is
      left as it was, where the pipeline would have written a row. */
  lemma GatedRequestsWriteNothing(env: Env, db: Db, channelId: nat, payload: Value)
    requires FindChannel(db.channels, channelId).None? ||
             !MessageProcessor.Running(FindChannel(db.channels, channelId).value)
    ensures HandleInbound(env, db, channelId, payload).1 == db
    ensures HandleInbound(env, db, channelId, payload).0.status in {404, 400}
  {
  }

  /** For a running channel the pipeline gets the handler's transformed
      payload (the original one when the script throws or is blank), under
      the numeric channel id, and the store is exactly what the pipeline
      leaves; the reply is a 200, never a 500. */
  lemma RunningChannelReachesPipeline(env: Env, db: Db, channelId: nat, payload: Value)
    requires FindChannel(db.channels, channelId).Some?
    requires MessageProcessor.Running(FindChannel(db.channels, channelId).value)
    ensures var ch := FindChannel(db.channels, channelId).value;
      var processed := HandlerTransform(env, ch, payload);
      var p := MessageProcessor.ProcessInbound(env, db, channelId, processed);
      && HandleInbound(env, db, channelId, payload).1 == p.db
      && HandleInbound(env, db, channelId, payload).0.status == 200
      && !p.outcome.ChannelNotFound?
  {
  }

  /** The reply to a request for a running channel is a 200 whose body is
      the response script's value; the fallback envelope around the
      pipeline's result when that script throws; or the default envelope
      around the pipeline's result when there is no response script. The
      script sees the handler's processed payload, which is the processing
      script's value or, when that throws or is blank, the request body. */
  lemma RunningChannelReply(env: Env, db: Db, channelId: nat, payload: Value)
    requires FindChannel(db.channels, channelId).Some?
    requires MessageProcessor.Running(FindChannel(db.channels, channelId).value)
    ensures var ch := FindChannel(db.channels, channelId).value;
      var transform := env.run(ch.processingScript + "; transform(msg);", HandlerSandbox(payload, None));
      var processed := if MessageProcessor.IsSet(ch.processingScript) && transform.Ok? then transform.value else payload;
      var result := MessageProcessor.OutcomeValue(MessageProcessor.ProcessInbound(env, db, channelId, processed).outcome);
      var respond := env.run(ch.responseScript + "; respond(msg, result);", HandlerSandbox(processed, Some(result)));
      var reply := HandleInbound(env, db, channelId, payload).0;
      && reply.status == 200
      && (!MessageProcessor.IsSet(ch.responseScript) ==> reply.body == Envelope(Processed, result))
      && (MessageProcessor.IsSet(ch.responseScript) && respond.Ok? ==> reply.body == respond.value)
      && (MessageProcessor.IsSet(ch.responseScript) && respond.Err? ==> reply.body == Envelope(ResponseScriptFailed, result))
  {
    RunningChannelReachesPipeline(env, db, channelId, payload);
  }

  /** The processing script of a running channel is applied twice: once by
      the handler with the fallback, and again by the pipeline on the
      handler's result. The inbound row records the handler's result as
      its original payload, not the HTTP body. */
  lemma HandlerScriptRunsBeforePipeline(env: Env, db: Db, channelId: nat, payload: Value)
    requires FindChannel(db.channels, channelId).Some?
    requires MessageProcessor.Running(FindChannel(db.channels, channelId).value)
    ensures var ch := FindChannel(db.channels, channelId).value;
      var processed := HandlerTransform(env, ch, payload);
      var out := HandleInbound(env, db, channelId, payload).1;
      && |out.messages| > |db.messages|
      && out.messages[|db.messages|].original == processed
      && out.messages[|db.messages|].direction == "IN"
  {
    var ch := FindChannel(db.channels, channelId).value;
    var processed := HandlerTransform(env, ch, payload);
    var p := MessageProcessor.ProcessInbound(env, db, channelId, processed);
    var fmt := MessageProcessor.FormatName(MessageProcessor.DetectFormat(processed, env.parsesAsJson));
    var db1 := InsertMessage(db, channelId, "IN", fmt, processed, "IN-PROCESS").0;
    match MessageProcessor.ChannelTransform(env, ch, processed)
    case Err(e) =>
      assert p.db == UpdateMessage(db1, db.nextMessageId, processed, "ERROR");
    case Ok(t) =>
      var es := EnabledDestinations(db, channelId);
      MessageProcessor.DeliveringShape(env, db, channelId, processed);
      var os := MessageProcessor.Outcomes(MessageProcessor.RunOf(env, db, channelId, processed, t), es);
      var db2 := MessageProcessor.Prepared(db, channelId, fmt, processed, t);
      var db3 := MessageProcessor.DeliverAll(db.nextMessageId, t, db2, es, os);
      MessageProcessor.DeliverMessages(db.nextMessageId, t, db2, es, os, |db.messages|);
      assert db3.messages[|db.messages|].original == processed;
  }

  /** Rows counted by `getMessageStats`. */
  predicate IsIn(m: Message) { m.direction == "IN" }
  predicate IsOut(m: Message) { m.direction == "OUT" }
  predicate IsError(m: Message) { m.status == "ERROR" }

  /** The stats row: `COUNT(*)` and three `SUM(CASE ...)` columns; a SUM
      over an empty table is NULL (`None`), not 0. */
  datatype Stats = Stats(totalMessages: nat, totalReceived: Option<nat>, totalSent: Option<nat>, totalErrors: Option<nat>)

  /** `SUM(CASE WHEN cond THEN 1 ELSE 0 END)` */
  function SumWhen(rows: seq<Message>, cond: Message -> bool): (r: Option<nat>)
    ensures r.None? <==> rows == []
    ensures r.Some? ==> r.value == Count(rows, cond)
  {
    if rows == [] then None else Some(Count(rows, cond))
  }

  /** `getMessageStats` */
  function MessageStats(rows: seq<Message>): (s: Stats)
    ensures s.totalMessages == |rows|
    ensures s.totalReceived.None? <==> rows == []
    ensures rows == [] ==> s.totalSent.None? && s.totalErrors.None?
    ensures rows != [] ==> s.totalReceived.Some? && s.totalSent.Some? && s.totalErrors.Some?
    ensures rows != [] ==>
      (s.totalReceived.value == Received(rows) && s.totalSent.value == Sent(rows) && s.totalErrors.value == Errors(rows))
    ensures rows != [] ==> s.totalReceived.value + s.totalSent.value <= s.totalMessages
  {
    InAndOutDisjoint(rows);
    Stats(|rows|, SumWhen(rows, IsIn), SumWhen(rows, IsOut), SumWhen(rows, IsError))
  }

  /** No row is both IN and OUT, so the two sums never exceed the total. */
  lemma {:induction false} InAndOutDisjoint(rows: seq<Message>)
    ensures Count(rows, IsIn) + Count(rows, IsOut) <= |rows|
  {
    if rows != [] {
      InAndOutDisjoint(rows[1..]);
    }
  }

  /** Rows with direction IN, rows with direction OUT, rows with status
      ERROR. */
  function Received(rows: seq<Message>): nat { Count(rows, IsIn) }
  function Sent(rows: seq<Message>): nat { Count(rows, IsOut) }
  function Errors(rows: seq<Message>): nat { Count(rows, IsError) }

  /** A delivering pipeline run adds one received and one sent message and
      no error rows, whatever happened at the destinations: the inbound row
      ends SENT. */
  lemma DeliveringRunStats(env: Env, db: Db, channelId: int, payload: Value)
    requires Wf(db)
    requires FindChannel(db.channels, channelId).Some?
    requires MessageProcessor.Running(FindChannel(db.channels, channelId).value)
    requires MessageProcessor.ChannelTransform(env, FindChannel(db.channels, channelId).value, payload).Ok?
    ensures var after := MessageProcessor.ProcessInbound(env, db, channelId, payload).db.messages;
      && Received(after) == Received(db.messages) + 1
      && Sent(after) == Sent(db.messages) + 1
      && Errors(after) == Errors(db.messages)
  {
    MessageProcessor.DeliveringPair(env, db, channelId, payload);
    StatsAfterPair(db.messages, MessageProcessor.ProcessInbound(env, db, channelId, payload).db.messages);
  }

  /** Appending an inbound and an outbound row, neither an error. */
  lemma StatsAfterPair(before: seq<Message>, after: seq<Message>)
    requires var n := |before|;
      && |after| == n + 2 && after[..n] == before
      && after[n].direction == "IN" && after[n + 1].direction == "OUT"
      && after[n].status == "SENT" && after[n + 1].status == "SENT"
    ensures Received(after) == Received(before) + 1
    ensures Sent(after) == Sent(before) + 1
    ensures Errors(after) == Errors(before)
  {
    var added := after[|before|..];
    assert after == before + added;
    CountPair(added, IsIn);
    CountPair(added, IsOut);
    CountPair(added, IsError);
    CountAppend(before, added, IsIn);
    CountAppend(before, added, IsOut);
    CountAppend(before, added, IsError);
  }

  /** A failing channel script adds one received message that is an error
      and no sent message. */
  lemma FailedScriptRunStats(env: Env, db: Db, channelId: int, payload: Value)
    requires Wf(db)
    requires FindChannel(db.channels, channelId).Some?
    requires MessageProcessor.Running(FindChannel(db.channels, channelId).value)
    requires MessageProcessor.ChannelTransform(env, FindChannel(db.channels, channelId).value, payload).Err?
    ensures var after := MessageProcessor.ProcessInbound(env, db, channelId, payload).db.messages;
      && Received(after) == Received(db.messages) + 1
      && Sent(after) == Sent(db.messages)
      && Errors(after) == Errors(db.messages) + 1
  {
    MessageProcessor.ProcessScriptFailure(env, db, channelId, payload);
    StatsAfterFailure(db.messages, MessageProcessor.ProcessInbound(env, db, channelId, payload).db.messages);
  }

  lemma StatsAfterFailure(before: seq<Message>, after: seq<Message>)
    requires var n := |before|;
      && |after| == n + 1 && after[..n] == before
      && after[n].direction == "IN" && after[n].status == "ERROR"
    ensures Received(after) == Received(before) + 1
    ensures Sent(after) == Sent(before)
    ensures Errors(after) == Errors(before) + 1
  {
    var added := after[|before|..];
    assert after == before + added;
    assert |added| == 1 && IsIn(added[0]) && !IsOut(added[0]) && IsError(added[0]);
    CountAppend(before, added, IsIn);
    CountAppend(before, added, IsOut);
    CountAppend(before, added, IsError);
  }

  /** The count over two rows. */
  lemma CountPair(rows: seq<Message>, p: Message -> bool)
    requires |rows| == 2
    ensures Count(rows, p) == (if p(rows[0]) then 1 else 0) + (if p(rows[1]) then 1 else 0)
  {
    assert rows[1..][1..] == [];
  }
}

=== FILE: monitor_view.dfy ===
/** The message monitor (client/src/page/MonitorView.tsx): inbound log
    entries are listed, each with an aggregate status tag computed from its
    destination attempts and a one-line summary of those attempts.

    The tag counts destination statuses spelled "OUT-SENT" and "OUT-ERROR";
    the server writes "SUCCESS" and "ERROR" into its destination log, and
    the two vocabularies are kept here as each side spells them.
 */
module MonitorView {
  import opened Values
  import opened Text
  import opened Seqs
  import opened MessageApi

  predicate IsSent(d: DestinationEntry) {
    d.status == Some("OUT-SENT")
  }

  predicate IsFailed(d: DestinationEntry) {
    d.status == Some("OUT-ERROR")
  }

  /** `log.status ?? "UNKNOWN"` */
  function Inbound(log: LogEntry): string {
    if log.status.Some? then log.status.value else "UNKNOWN"
  }

  /** The outcome `StatusTag` picks; `AsInbound` shows the inbound status
      itself. */
  datatype Tag = InboundError | Received | Success | Partial | Failed | AsInbound(shown: string)

  /** `StatusTag`: the first rule that applies wins. */
  function Classify(log: LogEntry): (t: Tag)
    ensures t.AsInbound? ==> t.shown == Inbound(log)
  {
    var dests := log.destinationLogs;
    var total := |dests|;
    var sent := Count(dests, IsSent);
    var fails := Count(dests, IsFailed);
    if Inbound(log) == "IN-ERROR" then InboundError
    else if total == 0 then Received
    else if sent == total then Success
    else if sent > 0 && fails > 0 then Partial
    else if fails == total then Failed
    else AsInbound(Inbound(log))
  }

  /** The text of the tag. */
  function Label(t: Tag): string {
    match t
    case InboundError => "INBOUND ERROR"
    case Received => "RECEIVED"
    case Success => "SUCCESS"
    case Partial => "PARTIAL"
    case Failed => "FAILED"
    case AsInbound(shown) => shown
  }

  /** The colour classes of the tag. */
  function Color(t: Tag): string {
    match t
    case InboundError => "bg-red-800 text-red-200"
    case Received => "bg-blue-800 text-blue-200"
    case Success => "bg-green-700 text-green-100"
    case Partial => "bg-yellow-600 text-yellow-100"
    case Failed => "bg-red-600 text-red-100"
    case AsInbound(_) => "bg-gray-700 text-gray-300"
  }

  /** The tag, stated entry by entry instead of by counts: an inbound error
      overrides everything; no attempts means received; every attempt sent
      means success; a sent and a failed attempt side by side mean partial;
      every attempt failed means failed; and otherwise (some attempt is in
      neither state, and not both outcomes occur) the inbound status shows. */
  lemma ClassifyExact(log: LogEntry)
    ensures var d := log.destinationLogs; var ok := Inbound(log) != "IN-ERROR";
      && (Classify(log) == InboundError <==> !ok)
      && (Classify(log) == Received <==> ok && d == [])
      && (Classify(log) == Success <==> ok && d != [] && forall i :: 0 <= i < |d| ==> IsSent(d[i]))
      && (Classify(log) == Partial <==>
           ok && (exists i :: 0 <= i < |d| && IsSent(d[i])) && (exists j :: 0 <= j < |d| && IsFailed(d[j])))
      && (Classify(log) == Failed <==> ok && d != [] && forall i :: 0 <= i < |d| ==> IsFailed(d[i]))
      && (Classify(log).AsInbound? <==>
           ok && (exists i :: 0 <= i < |d| && !IsSent(d[i]) && !IsFailed(d[i]))
           && !((exists i :: 0 <= i < |d| && IsSent(d[i])) && (exists j :: 0 <= j < |d| && IsFailed(d[j]))))
  {
    var d := log.destinationLogs;
    CountDisjoint(d, IsSent, IsFailed);
    var sent := Count(d, IsSent);
    var fails := Count(d, IsFailed);
    if d != [] && sent != |d| && fails != |d| && !(sent > 0 && fails > 0) {
      if sent == 0 {
        var i :| 0 <= i < |d| && !IsFailed(d[i]);
        assert !IsSent(d[i]);
      } else {
        var i :| 0 <= i < |d| && !IsSent(d[i]);
        assert !IsFailed(d[i]);
      }
    }
  }

  /** Rows as the server sends them carry no destination log, so the tag
      is INBOUND ERROR for an IN-ERROR row and RECEIVED for every other. */
  lemma ServerRowTag(m: RawMessage)
    requires ServerRow(m)
    ensures Inbound(ToEntry(m)) == "IN-ERROR" <==> Classify(ToEntry(m)) == InboundError
    ensures Inbound(ToEntry(m)) != "IN-ERROR" <==> Classify(ToEntry(m)) == Received
  {
  }

  /** A destination log written in the server's vocabulary (every attempt
      SUCCESS or ERROR) is never counted: the tag falls back to the inbound
      status text. */
  lemma ServerVocabularyFallsBack(log: LogEntry)
    requires Inbound(log) != "IN-ERROR"
    requires log.destinationLogs != []
    requires forall i :: 0 <= i < |log.destinationLogs| ==>
      log.destinationLogs[i].status == Some("SUCCESS") || log.destinationLogs[i].status == Some("ERROR")
    ensures Classify(log) == AsInbound(Inbound(log))
    ensures Label(Classify(log)) == Inbound(log)
  {
    var d := log.destinationLogs;
    assert !IsSent(d[0]) && !IsFailed(d[0]);
  }

  /** The Info column. */
  function Info(dests: seq<DestinationEntry>): string {
    var total := |dests|;
    var ok := Count(dests, IsSent);
    var fail := Count(dests, IsFailed);
    if total == 0 then "Inbound only"
    else if ok == total then NatToString(ok) + "/" + NatToString(total) + " OK"
    else if fail == total then NatToString(fail) + "/" + NatToString(total) + " FAILED"
    else NatToString(ok) + " OK / " + NatToString(fail) + " FAIL"
  }

  /** The last character of the Info text tells its four forms apart. */
  function InfoEnding(dests: seq<DestinationEntry>): (c: char)
    ensures c == 'y' <==> dests == []
    ensures c == 'K' <==> dests != [] && Count(dests, IsSent) == |dests|
    ensures c == 'D' <==> dests != [] && Count(dests, IsSent) != |dests| && Count(dests, IsFailed) == |dests|
    ensures c == 'L' <==> dests != [] && Count(dests, IsSent) != |dests| && Count(dests, IsFailed) != |dests|
  {
    var s := Info(dests);
    s[|s| - 1]
  }

  /** The summary and the tag agree whenever the inbound side did not fail:
      "Inbound only" goes with RECEIVED, "n/n OK" with SUCCESS, "n/n FAILED"
      with FAILED, and the mixed form with PARTIAL or the inbound status. */
  lemma InfoAgreesWithTag(log: LogEntry)
    requires Inbound(log) != "IN-ERROR"
    ensures var d := log.destinationLogs; var n := NatToString(|d|);
      && (Classify(log) == Received <==> Info(d) == "Inbound only")
      && (Classify(log) == Success <==> Info(d) == n + "/" + n + " OK")
      && (Classify(log) == Failed <==> Info(d) == n + "/" + n + " FAILED")
      && (Classify(log) == Partial || Classify(log).AsInbound? <==>
           Info(d) == NatToString(Count(d, IsSent)) + " OK / " + NatToString(Count(d, IsFailed)) + " FAIL")
  {
    var d := log.destinationLogs;
    var n := NatToString(|d|);
    var ending := InfoEnding(d);
    var ok := NatToString(Count(d, IsSent)) + " OK / " + NatToString(Count(d, IsFailed)) + " FAIL";
    assert ("Inbound only")[11] == 'y';
    assert (n + "/" + n + " OK")[|n + "/" + n + " OK"| - 1] == 'K';
    assert (n + "/" + n + " FAILED")[|n + "/" + n + " FAILED"| - 1] == 'D';
    assert ok[|ok| - 1] == 'L';
    CountDisjoint(d, IsSent, IsFailed);
  }

  /** `logs.filter((l) => l.direction === "IN")` */
  function InboundLogs(logs: seq<LogEntry>): (r: seq<LogEntry>)
    ensures forall i :: 0 <= i < |r| ==> r[i].direction == Some("IN") && r[i] in logs
  {
    Filter(logs, (l: LogEntry) => l.direction == Some("IN"))
  }

  /** Every inbound entry is listed, and as many entries are listed as
      there are inbound rows in the response. */
  lemma InboundLogsExact(rows: seq<RawMessage>)
    ensures var logs := FetchLogs(rows);
      && (forall i :: 0 <= i < |logs| && logs[i].direction == Some("IN") ==> logs[i] in InboundLogs(logs))
      && |InboundLogs(logs)| == Count(rows, (m: RawMessage) => m.direction == Some("IN"))
  {
    InboundCount(rows);
  }

  lemma {:induction false} InboundCount(rows: seq<RawMessage>)
    ensures |InboundLogs(FetchLogs(rows))| == Count(rows, (m: RawMessage) => m.direction == Some("IN"))
  {
    var p := (l: LogEntry) => l.direction == Some("IN");
    if rows != [] {
      InboundCount(rows[1..]);
      assert FetchLogs(rows) == [ToEntry(rows[0])] + FetchLogs(rows[1..]);
      FilterAppend([ToEntry(rows[0])], FetchLogs(rows[1..]), p);
    }
  }

  /** Which channel the monitor asks for (`loadData`): every channel for
      "ALL", otherwise `parseInt(selectedChannel, 10)`, which may be NaN. */
  datatype ChannelQuery = AllChannels | ChannelNumber(n: int) | NotANumber

  predicate IsDigit(c: char) {
    '0' <= c <= '9'
  }

  /** The longest prefix of decimal digits. */
  function DigitPrefix(s: string): (r: string)
    ensures |r| <= |s| && r == s[..|r|]
    ensures forall k :: 0 <= k < |r| ==> IsDigit(r[k])
    ensures |r| < |s| ==> !IsDigit(s[|r|])
  {
    if s == [] || !IsDigit(s[0]) then [] else [s[0]] + DigitPrefix(s[1..])
  }

  /** `parseInt(s, 10)`: leading white space is skipped, then the rest is
      read as a signed digit run; no digit at all gives NaN. */
  function ParseInt(s: string): Option<int> {
    ParseSigned(TrimStart(s))
  }

  /** An optional `-` or `+`, then a digit run. */
  function ParseSigned(t: string): Option<int> {
    if t != [] && (t[0] == '-' || t[0] == '+') then
      var r := ParseDigits(t[1..]);
      if t[0] == '-' then Negate(r) else r
    else ParseDigits(t)
  }

  /** The value of the longest digit prefix; NaN when there is none. */
  function ParseDigits(u: string): Option<int> {
    var digits := DigitPrefix(u);
    if digits == [] then None
    else Some(DigitsValue(digits))
  }

  function Negate(r: Option<int>): (n: Option<int>)
    ensures n.Some? <==> r.Some?
  {
    if r.Some? then Some(-r.value) else None
  }

  /** A text without a digit reads as NaN. */
  lemma ParseIntNeedsDigit(s: string)
    requires forall k :: 0 <= k < |s| ==> !IsDigit(s[k])
    ensures ParseInt(s).None?
  {
    var t := TrimStart(s);
    var u := if t != [] && (t[0] == '-' || t[0] == '+') then t[1..] else t;
    if u != [] {
      assert u[0] == s[|s| - |u|];
    }
  }

  /** The picker's value: "ALL", or a channel id as a string. */
  function ChannelFilter(selected: string): (q: ChannelQuery)
    ensures selected == "ALL" ==> q == AllChannels
    ensures q.ChannelNumber? ==> selected != "ALL" && ParseInt(selected) == Some(q.n)
    ensures q == NotANumber <==> selected != "ALL" && ParseInt(selected).None?
  {
    if selected == "ALL" then AllChannels
    else match ParseInt(selected)
      case None => NotANumber
      case Some(n) => ChannelNumber(n)
  }

  /** The options carry channel ids rendered in decimal: picking one asks
      for exactly that channel. */
  lemma ChannelFilterRoundTrip(id: nat)
    ensures ChannelFilter(NatToString(id)) == ChannelNumber(id)
  {
    var s := NatToString(id);
    assert !IsWhite(s[0]);
    assert TrimStart(s) == s;
    assert s != "ALL" by { assert IsDigit(s[0]); }
    DigitPrefixAll(s);
    NatToStringRoundTrip(id);
  }

  /** A string of digits is its own digit prefix. */
  lemma {:induction false} DigitPrefixAll(s: string)
    requires forall k :: 0 <= k < |s| ==> IsDigit(s[k])
    ensures DigitPrefix(s) == s
  {
    if s != [] {
      DigitPrefixAll(s[1..]);
    }
  }

  /** A digit run followed by anything that is not a digit is the digit
      run. */
  lemma {:induction false} DigitPrefixOf(ds: string, rest: string)
    requires forall k :: 0 <= k < |ds| ==> IsDigit(ds[k])
    requires rest == [] || !IsDigit(rest[0])
    ensures DigitPrefix(ds + rest) == ds
  {
    if ds != [] {
      assert (ds + rest)[1..] == ds[1..] + rest;
      DigitPrefixOf(ds[1..], rest);
    } else {
      assert ds + rest == rest;
    }
  }

  /** `parseInt` stops at the first character that is not a digit. */
  lemma ParseIntStopsAtNonDigit(ds: string, rest: string)
    requires ds != [] && forall k :: 0 <= k < |ds| ==> IsDigit(ds[k])
    requires rest == [] || !IsDigit(rest[0])
    ensures ParseInt(ds + rest) == ParseInt(ds)
  {
    var s := ds + rest;
    assert s[0] == ds[0];
    DigitStartsPlain(s);
    DigitStartsPlain(ds);
    DigitPrefixOf(ds, rest);
    DigitPrefixOf(ds, []);
    assert ds + [] == ds;
  }

  /** A text that starts with a digit is read as a plain digit run. */
  lemma DigitStartsPlain(s: string)
    requires s != [] && IsDigit(s[0])
    ensures ParseInt(s) == ParseDigits(s)
  {
    assert TrimStart(s) == s by {
      DigitNotWhite(s[0]);
      TrimStartStep(s);
    }
    assert s[0] != '-' && s[0] != '+';
  }

  lemma DigitNotWhite(c: char)
    requires IsDigit(c)
    ensures !IsWhite(c)
  {
  }

  /** A leading minus sign negates the number that follows it. */
  lemma ParseIntMinus(n: string)
    requires |n| > 1 && n[0] == '-' && IsDigit(n[1])
    ensures ParseInt(n[1..]).Some?
    ensures ParseInt(n) == Negate(ParseInt(n[1..]))
  {
    var ds := n[1..];
    assert ds[0] == n[1];
    DigitStartsPlain(ds);
    DigitRunStarts(ds);
    MinusStartsNegated(n);
  }

  /** A text that starts with `-` is the negated digit run after it. */
  lemma MinusStartsNegated(n: string)
    requires n != [] && n[0] == '-'
    ensures ParseInt(n) == Negate(ParseDigits(n[1..]))
  {
    assert TrimStart(n) == n by {
      TrimStartStep(n);
    }
    Untrimmed(n);
    SignedMinus(n);
  }

  lemma Untrimmed(s: string)
    requires TrimStart(s) == s
    ensures ParseInt(s) == ParseSigned(s)
  {
  }

  lemma SignedMinus(t: string)
    requires t != [] && t[0] == '-'
    ensures ParseSigned(t) == Negate(ParseDigits(t[1..]))
  {
  }

  lemma DigitRunStarts(u: string)
    requires u != [] && IsDigit(u[0])
    ensures ParseDigits(u).Some?
  {
    assert DigitPrefix(u) != [];
  }

  /** Leading white space does not change what `parseInt` reads. */
  lemma ParseIntSkipsWhite(c: char, s: string)
    requires IsWhite(c)
    ensures ParseInt([c] + s) == ParseInt(s)
  {
    assert TrimStart([c] + s) == TrimStart(s) by {
      assert ([c] + s)[1..] == s;
      TrimStartStep([c] + s);
    }
  }
}

=== FILE: oracles.dfy ===
/** Everything the services call but the model does not define: the vm2
    script sandbox, the `simple-hl7` parser and serialiser, `JSON.parse`,
    axios, TCP sockets and the clock. Each is a pure function of its
    arguments; a call that throws is `Err(message)`.
 */
module Oracles {
  import opened Values
  import Hl7Converter

  /** The bindings and limits a script runs under: the `msg` variable, the
      `result` variable when one is bound, whether the `jsonToHl7` and
      `hl7ToJson` helpers are bound, and the vm2 timeout in milliseconds
      (`None` when the VM is created without one). */
  datatype Sandbox = Sandbox(msg: Value, result: Option<Value>, converters: bool, timeoutMs: Option<nat>)

  /** An axios POST: endpoint, body, timeout and whether the
      `Content-Type: application/json` header is set explicitly. */
  datatype HttpPost = HttpPost(endpoint: string, body: Value, timeoutMs: Option<nat>, jsonContentType: bool)

  datatype Env = Env(
    /** `new VM({sandbox, timeout}).run(code)`: the value of the script's
        last expression, or the message of what it threw (including a
        timeout). */
    run: (string, Sandbox) -> Result<Value>,
    /** `new hl7.Parser().parse(raw).segments` */
    parseHl7: string -> Result<seq<Hl7Converter.Segment>>,
    /** `msg.toString()` of the message `jsonToHl7` builds */
    serialiseHl7: Hl7Converter.Hl7Draft -> Result<string>,
    /** whether `JSON.parse(text)` succeeds */
    parsesAsJson: string -> bool,
    /** `JSON.stringify(response.data)` of a successful POST, or the error message */
    post: HttpPost -> Result<string>,
    /** `sendTcp(endpoint, data)`: connect, write, end */
    sendTcp: (string, Value) -> Result<()>,
    /** `new Date().toISOString()` */
    now: string)
}

=== FILE: seqs.dfy ===
/** Sequence helpers: `Array.prototype.filter` and counting. */
module Seqs {

  /** `s.filter(p)`: the elements satisfying `p`, in their original order. */
  function Filter<T>(s: seq<T>, p: T -> bool): (r: seq<T>)
    ensures |r| <= |s|
    ensures forall i :: 0 <= i < |r| ==> r[i] in s && p(r[i])
    ensures forall i :: 0 <= i < |s| && p(s[i]) ==> s[i] in r
  {
    if s == [] then []
    else (if p(s[0]) then [s[0]] else []) + Filter(s[1..], p)
  }

  /** Filtering distributes over concatenation. */
  lemma {:induction false} FilterAppend<T>(a: seq<T>, b: seq<T>, p: T -> bool)
    ensures Filter(a + b, p) == Filter(a, p) + Filter(b, p)
  {
    if a != [] {
      assert (a + b)[1..] == a[1..] + b;
      FilterAppend(a[1..], b, p);
    } else {
      assert a + b == b;
    }
  }

  /** Filtering by a predicate every element meets keeps everything. */
  lemma {:induction false} FilterAll<T>(s: seq<T>, p: T -> bool)
    requires forall i :: 0 <= i < |s| ==> p(s[i])
    ensures Filter(s, p) == s
  {
    if s != [] {
      FilterAll(s[1..], p);
    }
  }

  /** Filtering by a predicate no element meets keeps nothing. */
  lemma {:induction false} FilterNone<T>(s: seq<T>, p: T -> bool)
    requires forall i :: 0 <= i < |s| ==> !p(s[i])
    ensures Filter(s, p) == []
  {
    if s != [] {
      FilterNone(s[1..], p);
    }
  }

  /** Filtering by `p` first changes nothing when `q` already implies `p`. */
  lemma {:induction false} FilterFilter<T>(s: seq<T>, p: T -> bool, q: T -> bool)
    requires forall i :: 0 <= i < |s| && q(s[i]) ==> p(s[i])
    ensures Filter(Filter(s, p), q) == Filter(s, q)
  {
    if s != [] {
      var head := if p(s[0]) then [s[0]] else [];
      FilterAppend(head, Filter(s[1..], p), q);
      FilterFilter(s[1..], p, q);
      if p(s[0]) {
        assert Filter(head, q) == if q(s[0]) then [s[0]] else [];
      } else {
        assert Filter(head, q) == [];
      }
    }
  }

  /** The number of elements satisfying `p`. */
  function Count<T>(s: seq<T>, p: T -> bool): (n: nat)
    ensures n <= |s|
    ensures n == 0 <==> forall i :: 0 <= i < |s| ==> !p(s[i])
    ensures n == |s| <==> forall i :: 0 <= i < |s| ==> p(s[i])
  {
    if s == [] then 0
    else
      assert forall i :: 1 <= i < |s| ==> s[1..][i - 1] == s[i];
      (if p(s[0]) then 1 else 0) + Count(s[1..], p)
  }

  /** Counting distributes over concatenation. */
  lemma {:induction false} CountAppend<T>(a: seq<T>, b: seq<T>, p: T -> bool)
    ensures Count(a + b, p) == Count(a, p) + Count(b, p)
  {
    if a != [] {
      assert (a + b)[1..] == a[1..] + b;
      CountAppend(a[1..], b, p);
    } else {
      assert a + b == b;
    }
  }

  /** A count is the length of the corresponding filter. */
  lemma {:induction false} CountIsFilterLength<T>(s: seq<T>, p: T -> bool)
    ensures Count(s, p) == |Filter(s, p)|
  {
    if s != [] {
      CountIsFilterLength(s[1..], p);
    }
  }

  /** Two predicates no element meets together count no more than the
      elements there are. */
  lemma {:induction false} CountDisjoint<T>(s: seq<T>, p: T -> bool, q: T -> bool)
    requires forall i :: 0 <= i < |s| ==> !(p(s[i]) && q(s[i]))
    ensures Count(s, p) + Count(s, q) <= |s|
  {
    if s != [] {
      assert forall i :: 1 <= i < |s| ==> s[1..][i - 1] == s[i];
      CountDisjoint(s[1..], p, q);
    }
  }

  /** `s` mapped through `f`, read from the last element to the first. */
  function MapNewestFirst<T, U>(f: T -> U, s: seq<T>): (r: seq<U>)
    ensures |r| == |s|
  {
    if s == [] then [] else [f(s[|s| - 1])] + MapNewestFirst(f, s[..|s| - 1])
  }

  /** Element `j` of `s` lands at position `|s| - 1 - j`. */
  lemma {:induction false} MapNewestFirstAt<T, U>(f: T -> U, s: seq<T>, j: int)
    requires 0 <= j < |s|
    ensures MapNewestFirst(f, s)[|s| - 1 - j] == f(s[j])
  {
    var n := |s| - 1;
    if j < n {
      MapNewestFirstAt(f, s[..n], j);
      assert s[..n][j] == s[j];
    }
  }

  /** A suffix is its first element followed by the rest. */
  lemma SuffixCons<T>(a: seq<T>, n: int)
    requires 0 <= n < |a|
    ensures a[n..] == [a[n]] + a[n + 1..]
  {
  }
}

=== FILE: store.dfy ===
/** The relational store the services read and write, as an immutable
    state record: the Channels, Destinations, Messages and
    MessageDestinationLog tables, each a sequence of rows in table order,
    plus the next value of each identity column. Only the net effect of each
    statement the services issue is modelled; query text, connections and
    transactions are not.

    Nullable text columns are represented with "" standing for NULL. Most
    readers treat the two alike (`?.trim()`, `|| ""`, truthiness); the
    exceptions are an interpolated channel status, the status returned for
    a skipped message, and a destination name compared in SQL, each listed
    with its member in the README.
 */
module Store {
  import opened Values
  import opened Seqs

  /** A row of Channels. */
  datatype Channel = Channel(
    id: int,
    name: string,
    status: string,
    sourceType: string,
    sourceEndpoint: string,
    inboundDataType: string,
    processingScript: string,
    responseScript: string,
    filterScript: string)

  /** A row of Destinations; `kind` is the `type` column ("REST", "HL7", ...). */
  datatype Destination = Destination(
    id: int,
    channelId: int,
    name: string,
    kind: string,
    endpoint: string,
    outboundDataType: string,
    processingScript: string,
    responseScript: string,
    templateScript: string,
    enabled: bool,
    totalSent: nat,
    totalError: nat)

  /** A row of Messages; `transformed` is NULL until the first update. */
  datatype Message = Message(
    id: int,
    channelId: int,
    direction: string,
    messageType: string,
    original: Value,
    transformed: Option<Value>,
    status: string)

  /** A row of MessageDestinationLog; `messageId` is NULL when the caller
      supplied none. */
  datatype DestinationLog = DestinationLog(
    messageId: Option<int>,
    destinationId: int,
    status: string,
    responseText: string)

  datatype Db = Db(
    channels: seq<Channel>,
    destinations: seq<Destination>,
    messages: seq<Message>,
    logs: seq<DestinationLog>,
    nextChannelId: int,
    nextDestinationId: int,
    nextMessageId: int)

  /** The identity columns: every existing id is below the table's next
      value, so a freshly inserted row has an id no other row has, and no
      two destinations share an id. */
  predicate Wf(db: Db) {
    && (forall i :: 0 <= i < |db.channels| ==> db.channels[i].id < db.nextChannelId)
    && (forall i :: 0 <= i < |db.destinations| ==> db.destinations[i].id < db.nextDestinationId)
    && (forall i :: 0 <= i < |db.messages| ==> db.messages[i].id < db.nextMessageId)
    && (forall i, j :: 0 <= i < j < |db.destinations| ==> db.destinations[i].id != db.destinations[j].id)
  }

  /** The channel table and the identity counters agree. */
  predicate SameChannels(a: Db, b: Db) {
    a.channels == b.channels && a.nextChannelId == b.nextChannelId
    && a.nextDestinationId == b.nextDestinationId && a.nextMessageId == b.nextMessageId
  }

  /** `SELECT ... FROM Channels WHERE id = @id`, first row. */
  function FindChannel(channels: seq<Channel>, id: int): (r: Option<Channel>)
    ensures r.None? <==> forall i :: 0 <= i < |channels| ==> channels[i].id != id
    ensures r.Some? ==> r.value in channels && r.value.id == id
  {
    if channels == [] then None
    else if channels[0].id == id then Some(channels[0])
    else
      assert forall i :: 1 <= i < |channels| ==> channels[1..][i - 1] == channels[i];
      FindChannel(channels[1..], id)
  }

  /** `INSERT INTO Messages ... OUTPUT INSERTED.id`: appends one row with a
      fresh id and a NULL transformed payload, and returns the id. */
  function InsertMessage(db: Db, channelId: int, direction: string, messageType: string,
                         payload: Value, status: string): (r: (Db, int))
    ensures r.1 == db.nextMessageId
    ensures r.0 == db.(messages := db.messages + [Message(r.1, channelId, direction, messageType, payload, None, status)],
                       nextMessageId := db.nextMessageId + 1)
  {
    var id := db.nextMessageId;
    (db.(messages := db.messages + [Message(id, channelId, direction, messageType, payload, None, status)],
         nextMessageId := id + 1), id)
  }

  /** `UPDATE Messages SET transformed_payload = ..., status = ... WHERE id = @id` */
  function UpdateMessage(db: Db, id: int, transformed: Value, status: string): (r: Db)
    ensures SameChannels(r, db) && r.destinations == db.destinations && r.logs == db.logs
    ensures |r.messages| == |db.messages|
    ensures forall i :: 0 <= i < |db.messages| ==>
      r.messages[i] == if db.messages[i].id == id
        then db.messages[i].(transformed := Some(transformed), status := status)
        else db.messages[i]
  {
    db.(messages := seq(|db.messages|, i requires 0 <= i < |db.messages| =>
      if db.messages[i].id == id then db.messages[i].(transformed := Some(transformed), status := status)
      else db.messages[i]))
  }

  /** `UPDATE Messages SET status = ... WHERE id = @id` */
  function SetMessageStatus(db: Db, id: int, status: string): (r: Db)
    ensures SameChannels(r, db) && r.destinations == db.destinations && r.logs == db.logs
    ensures |r.messages| == |db.messages|
    ensures forall i :: 0 <= i < |db.messages| ==>
      r.messages[i] == if db.messages[i].id == id then db.messages[i].(status := status) else db.messages[i]
  {
    db.(messages := seq(|db.messages|, i requires 0 <= i < |db.messages| =>
      if db.messages[i].id == id then db.messages[i].(status := status) else db.messages[i]))
  }

  /** The destination belongs to the channel and `is_enabled = 1`. */
  predicate IsEnabledOf(channelId: int, d: Destination) {
    d.channelId == channelId && d.enabled
  }

  /** `SELECT * FROM Destinations WHERE channel_id = @channel_id AND is_enabled = 1`,
      in table order. */
  function EnabledDestinations(db: Db, channelId: int): (r: seq<Destination>)
    ensures forall i :: 0 <= i < |r| ==> r[i] in db.destinations && IsEnabledOf(channelId, r[i])
    ensures forall d :: d in db.destinations && IsEnabledOf(channelId, d) ==> d in r
  {
    Filter(db.destinations, d => IsEnabledOf(channelId, d))
  }

  /** `INSERT INTO MessageDestinationLog ...` */
  function AppendLog(db: Db, row: DestinationLog): (r: Db)
    ensures SameChannels(r, db) && r.destinations == db.destinations && r.messages == db.messages
    ensures r.logs == db.logs + [row]
  {
    db.(logs := db.logs + [row])
  }

  /** `UPDATE Destinations SET total_sent = total_sent + 1` (when `ok`) or
      `SET total_error = total_error + 1` (otherwise) `WHERE id = @id`. */
  function Bump(db: Db, id: int, ok: bool): (r: Db)
    ensures SameChannels(r, db) && r.messages == db.messages && r.logs == db.logs
    ensures |r.destinations| == |db.destinations|
    ensures forall i :: 0 <= i < |db.destinations| ==>
      var d := db.destinations[i];
      r.destinations[i] == if d.id != id then d
        else if ok then d.(totalSent := d.totalSent + 1) else d.(totalError := d.totalError + 1)
  {
    db.(destinations := seq(|db.destinations|, i requires 0 <= i < |db.destinations| =>
      var d := db.destinations[i];
      if d.id != id then d
      else if ok then d.(totalSent := d.totalSent + 1) else d.(totalError := d.totalError + 1)))
  }
}

=== FILE: text.dfy ===
/** String operations of the JavaScript runtime that the engine relies on:
    `trim`, ASCII `toUpperCase`, `includes`, `startsWith`, `endsWith`,
    `split` on one character, `replace` of the first occurrence of a pattern,
    and the decimal rendering of a non-negative integer.
 */
module Text {

  /** JavaScript `WhiteSpace` and `LineTerminator` code points, the set that
      `String.prototype.trim` removes. Note that vertical tab (0x0B, the MLLP
      start block) belongs to it, and that file separator (0x1C) does not. */
  predicate IsWhite(c: char) {
    c == ' ' || ('\t' <= c <= '\r') || c == '\U{A0}' || c == '\U{1680}'
    || ('\U{2000}' <= c <= '\U{200A}') || ('\U{2028}' <= c <= '\U{2029}')
    || c == '\U{202F}' || c == '\U{205F}' || c == '\U{3000}' || c == '\U{FEFF}'
  }

  /** Drops leading white space. */
  function TrimStart(s: string): (r: string)
    ensures |r| <= |s| && r == s[|s| - |r|..]
    ensures r == [] || !IsWhite(r[0])
  {
    if |s| > 0 && IsWhite(s[0]) then TrimStart(s[1..]) else s
  }

  /** Drops trailing white space. */
  function TrimEnd(s: string): (r: string)
    ensures |r| <= |s| && r == s[..|r|]
    ensures r == [] || !IsWhite(r[|r| - 1])
  {
    if |s| > 0 && IsWhite(s[|s| - 1]) then TrimEnd(s[..|s| - 1]) else s
  }

  /** Only white space is dropped from the front. */
  lemma {:induction false} TrimStartDropsWhite(s: string)
    ensures forall k :: 0 <= k < |s| - |TrimStart(s)| ==> IsWhite(s[k])
  {
    if |s| > 0 && IsWhite(s[0]) {
      TrimStartDropsWhite(s[1..]);
      forall k | 1 <= k < |s| - |TrimStart(s)| ensures IsWhite(s[k]) {
        assert s[k] == s[1..][k - 1];
      }
    }
  }

  /** Only white space is dropped from the back. */
  lemma {:induction false} TrimEndDropsWhite(s: string)
    ensures forall k :: |TrimEnd(s)| <= k < |s| ==> IsWhite(s[k])
  {
    if |s| > 0 && IsWhite(s[|s| - 1]) {
      TrimEndDropsWhite(s[..|s| - 1]);
      forall k | |TrimEnd(s)| <= k < |s| - 1 ensures IsWhite(s[k]) {
        assert s[k] == s[..|s| - 1][k];
      }
    }
  }

  /** One step of `TrimStart`, for callers that should not unfold it. */
  lemma TrimStartStep(s: string)
    requires |s| > 0
    ensures IsWhite(s[0]) ==> TrimStart(s) == TrimStart(s[1..])
    ensures !IsWhite(s[0]) ==> TrimStart(s) == s
  {
  }

  /** One step of `TrimEnd`, for callers that should not unfold it. */
  lemma TrimEndStep(s: string)
    requires |s| > 0
    ensures IsWhite(s[|s| - 1]) ==> TrimEnd(s) == TrimEnd(s[..|s| - 1])
    ensures !IsWhite(s[|s| - 1]) ==> TrimEnd(s) == s
  {
  }

  /** `s.trim()`: the longest infix of `s` that neither starts nor ends with
      white space, obtained by removing only white space. */
  function Trim(s: string): (r: string)
    ensures |r| <= |s|
    ensures r == [] || (!IsWhite(r[0]) && !IsWhite(r[|r| - 1]))
    ensures |s| - |TrimStart(s)| + |r| <= |s|
    ensures r == s[|s| - |TrimStart(s)|..|s| - |TrimStart(s)| + |r|]
  {
    TrimBothEnds(s);
    TrimInfix(s);
    TrimEnd(TrimStart(s))
  }

  /** Trimming the end keeps the first character of a start-trimmed text. */
  lemma TrimBothEnds(s: string)
    ensures var r := TrimEnd(TrimStart(s));
      r == [] || (!IsWhite(r[0]) && !IsWhite(r[|r| - 1]))
  {
    var t := TrimStart(s);
    var r := TrimEnd(t);
    if r != [] {
      assert r[0] == t[..|r|][0];
    }
  }

  /** The trimmed text sits where the leading white space ends. */
  lemma TrimInfix(s: string)
    ensures var t := TrimStart(s); var r := TrimEnd(t);
      && |s| - |t| + |r| <= |s|
      && r == s[|s| - |t|..|s| - |t| + |r|]
  {
    PrefixOfSuffix(s, TrimStart(s), TrimEnd(TrimStart(s)));
  }

  /** A prefix of a suffix is an infix. */
  lemma PrefixOfSuffix<T>(s: seq<T>, t: seq<T>, r: seq<T>)
    requires |t| <= |s| && t == s[|s| - |t|..]
    requires |r| <= |t| && r == t[..|r|]
    ensures |s| - |t| + |r| <= |s|
    ensures r == s[|s| - |t|..|s| - |t| + |r|]
  {
    var i := |s| - |t|;
    assert t[..|r|] == s[i..i + |r|];
  }

  /** A character absent from `s` is absent from its trimmed form. */
  lemma TrimKeepsOut(s: string, c: char)
    requires forall k :: 0 <= k < |s| ==> s[k] != c
    ensures forall k :: 0 <= k < |Trim(s)| ==> Trim(s)[k] != c
  {
    var r := Trim(s);
    var i := |s| - |TrimStart(s)|;
    forall k | 0 <= k < |r| ensures r[k] != c {
      assert r[k] == s[i + k];
    }
  }

  /** Upper-casing of one character (ASCII letters only). */
  function UpperChar(c: char): char {
    if 'a' <= c <= 'z' then (c as int - 32) as char else c
  }

  /** `s.toUpperCase()` restricted to ASCII letters. */
  function ToUpper(s: string): (r: string)
    ensures |r| == |s|
    ensures forall i :: 0 <= i < |s| ==> r[i] == UpperChar(s[i])
  {
    if s == [] then [] else [UpperChar(s[0])] + ToUpper(s[1..])
  }

  /** Upper-casing twice is upper-casing once. */
  lemma ToUpperIdempotent(s: string)
    ensures ToUpper(ToUpper(s)) == ToUpper(s)
  {
  }

  /** A string without lower-case letters is its own upper case. */
  lemma UpperOfUpper(s: string)
    requires forall k :: 0 <= k < |s| ==> !('a' <= s[k] <= 'z')
    ensures ToUpper(s) == s
  {
  }

  /** `s.startsWith(p)` */
  predicate StartsWith(s: string, p: string) {
    |p| <= |s| && s[..|p|] == p
  }

  /** `s.endsWith(p)` */
  predicate EndsWith(s: string, p: string) {
    |p| <= |s| && s[|s| - |p|..] == p
  }

  /** `p` occurs in `s` at position `i`. */
  predicate OccursAt(s: string, p: string, i: int) {
    0 <= i && i + |p| <= |s| && s[i..i + |p|] == p
  }

  /** `s.includes(p)` */
  predicate Contains(s: string, p: string) {
    exists i | 0 <= i <= |s| - |p| :: OccursAt(s, p, i)
  }

  /** The position of the first occurrence of `p` in `s` at or after `from`. */
  function IndexFrom(s: string, p: string, from: nat): (r: int)
    requires from <= |s|
    decreases |s| - from
    ensures r == -1 || (from <= r && OccursAt(s, p, r))
    ensures forall k :: from <= k && (r == -1 || k < r) ==> !OccursAt(s, p, k)
  {
    if OccursAt(s, p, from) then from
    else if from == |s| then -1
    else IndexFrom(s, p, from + 1)
  }

  /** `s.indexOf(p)`: -1 exactly when `p` does not occur. */
  function IndexOf(s: string, p: string): (r: int)
    ensures r == -1 <==> !Contains(s, p)
    ensures r != -1 ==> OccursAt(s, p, r) && forall k :: 0 <= k < r ==> !OccursAt(s, p, k)
  {
    var r := IndexFrom(s, p, 0);
    if r == -1 then
      assert forall k :: 0 <= k ==> !OccursAt(s, p, k);
      r
    else r
  }

  /** `s.replace(p, "")` with a non-global pattern: the first occurrence of
      `p` is cut out; `s` is returned unchanged when `p` does not occur. */
  function RemoveFirst(s: string, p: string): (r: string)
    ensures !Contains(s, p) ==> r == s
    ensures Contains(s, p) ==>
      (|r| == |s| - |p| && var i := IndexOf(s, p); r == s[..i] + s[i + |p|..])
  {
    var i := IndexOf(s, p);
    if i == -1 then s else s[..i] + s[i + |p|..]
  }

  /** No character of `s` is `c`. */
  predicate Free(s: string, c: char) {
    forall k :: 0 <= k < |s| ==> s[k] != c
  }

  /** `s.split(c)` for a one-character separator. */
  function Split(s: string, c: char): (r: seq<string>)
    ensures |r| >= 1
    ensures forall k :: 0 <= k < |r| ==> Free(r[k], c)
    decreases |s|
  {
    var i := IndexOf(s, [c]);
    if i == -1 then
      assert forall k :: 0 <= k < |s| ==> s[k] != c by {
        forall k | 0 <= k < |s| ensures s[k] != c {
          assert !OccursAt(s, [c], k);
          assert s[k..k + 1] == [s[k]];
        }
      }
      [s]
    else
      assert forall k :: 0 <= k < i ==> !OccursAt(s, [c], k);
      assert forall k :: 0 <= k < i ==> s[..i][k] != c by {
        forall k | 0 <= k < i ensures s[..i][k] != c {
          assert !OccursAt(s, [c], k);
          assert s[k..k + 1] == [s[k]];
        }
      }
      [s[..i]] + Split(s[i + 1..], c)
  }

  /** `pieces.join(c)` */
  function Join(pieces: seq<string>, c: char): string
    requires |pieces| >= 1
  {
    if |pieces| == 1 then pieces[0] else pieces[0] + [c] + Join(pieces[1..], c)
  }

  /** Splitting and joining again gives back the input. */
  lemma {:induction false} SplitJoin(s: string, c: char)
    ensures Join(Split(s, c), c) == s
    decreases |s|
  {
    var i := IndexOf(s, [c]);
    if i != -1 {
      var head := s[..i];
      var tail := s[i + 1..];
      SplitAtFirst(s, c);
      SplitJoin(tail, c);
      JoinCons(head, Split(tail, c), c);
    } else {
      assert Split(s, c) == [s];
    }
  }

  /** The first separator cuts `s` into a piece and the rest. */
  lemma SplitAtFirst(s: string, c: char)
    requires IndexOf(s, [c]) != -1
    ensures var i := IndexOf(s, [c]);
      && Split(s, c) == [s[..i]] + Split(s[i + 1..], c)
      && s == s[..i] + [c] + s[i + 1..]
  {
    var i := IndexOf(s, [c]);
    assert s[i..i + 1] == [c];
  }

  /** Joining a piece in front of a non-empty list of pieces. */
  lemma JoinCons(a: string, rest: seq<string>, c: char)
    requires |rest| >= 1
    ensures Join([a] + rest, c) == a + [c] + Join(rest, c)
  {
    assert ([a] + rest)[1..] == rest;
  }

  /** Splitting a text whose first piece is free of the separator. */
  lemma SplitCons(a: string, c: char, rest: string)
    requires Free(a, c)
    ensures Split(a + [c] + rest, c) == [a] + Split(rest, c)
  {
    var s := a + [c] + rest;
    assert OccursAt(s, [c], |a|);
    forall k | 0 <= k < |a| ensures !OccursAt(s, [c], k) {
      assert s[k] == a[k];
    }
    var i := IndexOf(s, [c]);
    assert i == |a|;
    assert s[..i] == a;
    assert s[i + 1..] == rest;
  }

  /** Splitting a separator-free text gives the text alone. */
  lemma SplitFree(a: string, c: char)
    requires Free(a, c)
    ensures Split(a, c) == [a]
  {
    forall k | 0 <= k <= |a| - 1 ensures !OccursAt(a, [c], k) {
      assert a[k..k + 1] == [a[k]];
    }
  }

  /** Every piece of a split is free of any character the text is free of. */
  lemma {:induction false} SplitKeepsFree(s: string, c: char, d: char)
    requires Free(s, d)
    ensures forall k :: 0 <= k < |Split(s, c)| ==> Free(Split(s, c)[k], d)
    decreases |s|
  {
    var i := IndexOf(s, [c]);
    var r := Split(s, c);
    if i != -1 {
      var rest := Split(s[i + 1..], c);
      assert Free(s[i + 1..], d);
      SplitKeepsFree(s[i + 1..], c, d);
      assert r == [s[..i]] + rest;
      forall k | 0 <= k < |r| ensures Free(r[k], d) {
        if k == 0 {
          assert r[0] == s[..i];
        } else {
          assert r[k] == rest[k - 1];
        }
      }
    } else {
      assert r == [s];
    }
  }

  /** Joining pieces free of `d` with a separator other than `d` gives a
      text free of `d`. */
  lemma {:induction false} JoinFree(pieces: seq<string>, c: char, d: char)
    requires |pieces| >= 1 && c != d
    requires forall k :: 0 <= k < |pieces| ==> Free(pieces[k], d)
    ensures Free(Join(pieces, c), d)
    decreases |pieces|
  {
    if |pieces| > 1 {
      JoinFree(pieces[1..], c, d);
    }
  }

  /** Splitting a join of separator-free pieces gives back the pieces. */
  lemma {:induction false} JoinSplit(pieces: seq<string>, c: char)
    requires |pieces| >= 1
    requires forall k :: 0 <= k < |pieces| ==> Free(pieces[k], c)
    ensures Split(Join(pieces, c), c) == pieces
    decreases |pieces|
  {
    if |pieces| == 1 {
      SplitFree(pieces[0], c);
    } else {
      JoinSplit(pieces[1..], c);
      SplitCons(pieces[0], c, Join(pieces[1..], c));
    }
  }

  /** The decimal digit for `d`. */
  function Digit(d: nat): char
    requires d < 10
  {
    "0123456789"[d]
  }

  /** The value of a decimal digit character. */
  function DigitValue(c: char): nat {
    if '0' <= c <= '9' then c as int - '0' as int else 0
  }

  /** The decimal rendering of `n`, as `String(n)` produces it. */
  function NatToString(n: nat): (r: string)
    ensures |r| >= 1
    ensures forall k :: 0 <= k < |r| ==> '0' <= r[k] <= '9'
    ensures |r| > 1 ==> r[0] != '0'
  {
    if n < 10 then [Digit(n)] else NatToString(n / 10) + [Digit(n % 10)]
  }

  /** The number a string of decimal digits denotes. */
  function DigitsValue(s: string): nat {
    if s == [] then 0 else DigitsValue(s[..|s| - 1]) * 10 + DigitValue(s[|s| - 1])
  }

  /** Reading back the decimal rendering gives the number. */
  lemma {:induction false} NatToStringRoundTrip(n: nat)
    ensures DigitsValue(NatToString(n)) == n
  {
    if n >= 10 {
      NatToStringRoundTrip(n / 10);
      var r := NatToString(n);
      assert r == NatToString(n / 10) + [Digit(n % 10)];
      assert r[..|r| - 1] == NatToString(n / 10);
      DigitRoundTrip(n % 10);
      assert r[|r| - 1] == Digit(n % 10);
    } else {
      DigitRoundTrip(n);
    }
  }

  lemma DigitRoundTrip(d: nat)
    requires d < 10
    ensures DigitValue(Digit(d)) == d
  {
  }
}

=== FILE: values.dfy ===
/** The values that flow through the engine: JavaScript values as the
    services see them (request bodies, script results, parsed HL7 objects),
    and the Option/Result wrappers the model uses for absent values and for
    operations that either produce a value or throw.
 */
module Values {

  datatype Option<+T> = None | Some(value: T)

  /** `Ok(v)` for a completed call, `Err(msg)` for a thrown error carrying
      its message text. */
  datatype Result<+T> = Ok(value: T) | Err(error: string)

  /** A JavaScript value. Numbers are modelled as integers; `Bytes` is a
      Node.js `Buffer`. */
  datatype Value =
    | Undefined
    | Null
    | Bool(b: bool)
    | Num(n: int)
    | Str(s: string)
    | Bytes(data: seq<bv8>)
    | List(items: seq<Value>)
    | Object(props: map<string, Value>)

  /** JavaScript truthiness: `undefined`, `null`, `false`, `0` and `""` are
      falsy, everything else (including every object and array) is truthy. */
  predicate Truthy(v: Value) {
    match v
    case Undefined => false
    case Null => false
    case Bool(b) => b
    case Num(n) => n != 0
    case Str(s) => s != []
    case _ => true
  }

  /** `typeof v === "object" && v !== null && !Buffer.isBuffer(v)` */
  predicate IsPlainObject(v: Value) {
    v.List? || v.Object?
  }

  /** Property read `v[key]`: present keys of an object, `undefined` for
      everything else (the model gives arrays and strings no named
      properties). */
  function Prop(v: Value, key: string): (r: Value)
    ensures r != Undefined ==> v.Object? && key in v.props
  {
    if v.Object? && key in v.props then v.props[key] else Undefined
  }

  /** `v || d` */
  function OrElse(v: Value, d: Value): (r: Value)
    ensures Truthy(v) ==> r == v
    ensures !Truthy(v) ==> r == d
  {
    if Truthy(v) then v else d
  }

  /** A non-empty text for `s || d` over strings, where "" is falsy. */
  function OrText(s: string, d: string): (r: string)
    ensures s != [] ==> r == s
    ensures s == [] ==> r == d
  {
    if s != [] then s else d
  }
}
